=== FILE: README.md ===
# gun-idle-rpg: a Dafny model of the progression and simulation rules

gun-idle-rpg is a browser idle shooter. A gunner walks right, and zombies
arrive in waves. Five waves make a stage, and the fifth wave is a boss. The
gunner fires automatically. Kills pay experience and gold, and sometimes drop
equipment. A rebirth trades progress for permanent multipliers.

This project models the rule-bearing core of the game as immutable Dafny
datatypes with pure transition functions. Each module follows one source file:

| module | file | what it holds |
|---|---|---|
| `Prelude` | prelude.dfy | `Option`, the `UnitReal` draw of `Math.random()`, min/max, powers, floor facts |
| `Weapons` | weapon.dfy | the weapon table and `WeaponInstance`: level formulas, the magazine/reload machine, persistence |
| `Enemies` | enemy.dfy | the per-type stat table, `takeDamage`, the dying countdown, approach and attack |
| `Stage` | stage.dfy | the wave and stage director |
| `Combo` | combo.dfy | the kill-streak counter and its step multipliers |
| `Skills` | skills.dfy | six capped passive skills, geometric costs, baseline-defaulting getters, persistence |
| `Equipment` | equipment.dfy | drops, grades, a bounded inventory with weakest-item eviction, equip/unequip/sell, bonus totals, persistence |
| `Rebirth` | rebirth.dfy | the rebirth gate, souls, recomputed bonuses, the soul shop, persistence |
| `Players` | players.dfy | experience and multi-level-ups, shield-first damage, regeneration, automatic fire, persistence |
| `Bullets` | bullets.dfy | the bullet's bounds check and hit rule, including the double blow of a critical hit |
| `Save` | save.dfy | the version gate, save bookkeeping and the autosave interval |
| `GameLoop` | game.dfy | the frame (`update`), kill crediting, revive, shake/hitstop, the dt clamp and hitstop skip of `loop`, offline reward, loading, and rebirth of the whole game |

Conventions:

- Numbers that can become fractional are `real`, and `Math.floor` is `.Floor`.
- Every `Math.random()` draw is a parameter of type `UnitReal` (a real in
  [0, 1)) or a boolean.
- `Date.now()` and the animation timestamp are numbers passed in. One loop frame
  passes a single `now` to the autosave, so the save's timestamp and `lastSave`
  are the same number.
- Browser storage is one `Option<Stored>` slot. It holds nothing, text that
  does not parse, or a parsed save record. Whether a write succeeds is a
  boolean parameter.
- A whole frame takes its random draws from one `Dice` record. It holds the
  spawn rolls, a drop roll per enemy position, a crit flag per bullet
  position, an aim direction per new bullet, and the breathing offset.
- Methods that mutate an object become functions that return the new value.
  Those with a return value return a pair, for example `Shoot` returns
  `(weapon, fired)`.

The source leaves two gaps, and the model closes them as follows:

- `Player` never creates `skills`, `combo`, `equipment` or `effectiveMaxHp`,
  yet rebirth and the game loop read them. In the model they are fields of
  `Player`, and a new player starts with fresh managers.
- `EffectiveMaxHp` is the base `maxHp` plus the equipped `maxHp` bonus. A
  revive restores hp to that value.

Every proof is discharged by the Dafny verifier; nothing is executed.

## Model

| member | source | states |
|---|---|---|
| Prelude.PowInUnit | js/weapon.js:150 | a power of a base in [0, 1] stays in [0, 1], which keeps the fire-rate decay within the base rate |
| Prelude.PowAtLeastOne | js/weapon.js:154 | a power of a base of at least 1 is at least 1, so upgrade and skill costs never fall below their base |
| Weapons.TableShape | js/weapon.js:3-112 | every row of the weapon table has a magazine of at least 5, fires at least one bullet, and has base damage ≥ 8, cadence ≥ 60 ms and upgrade cost ≥ 50 |
| Weapons.NewWeapon | js/weapon.js:125-143 | a new weapon is level 1 with a full magazine, not reloading, and satisfies the magazine invariant |
| Weapons.Damage | js/weapon.js:145-147 | damage is at least the base damage, and equals it at level 1 |
| Weapons.FireRate | js/weapon.js:149-151 | the cadence lies between 50 ms and the base cadence, and equals the base at level 1 |
| Weapons.NextUpgradeCost | js/weapon.js:153-155 | the next upgrade costs at least the base upgrade cost, and exactly that at level 1 |
| Weapons.Upgrade | js/weapon.js:157-159 | an upgrade raises the level by one and leaves the magazine state alone |
| Weapons.StartReload | js/weapon.js:161-165 | starting a reload while reloading changes nothing; otherwise the weapon is reloading with the full reload time on the timer |
| Weapons.UpdateReload | js/weapon.js:167-175 | when not reloading nothing changes; a timer that runs out refills the magazine, clears the flag and zeroes the timer; before that only the timer moves |
| Weapons.Shoot | js/weapon.js:177-184 | a shot is refused exactly when reloading or empty, and then nothing changes; a shot removes exactly one round and the emptying shot starts the reload |
| Weapons.ShootKeepsValid | js/weapon.js:177-184 | shooting keeps 0 ≤ ammo ≤ magSize, keeps an empty magazine reloading, and keeps an idle timer at 0 |
| Weapons.UpdateReloadKeepsValid | js/weapon.js:167-175 | a reload step keeps the magazine invariant |
| Weapons.StartReloadKeepsValid | js/weapon.js:161-165 | starting a reload keeps the magazine invariant |
| Weapons.UpgradeKeepsValid | js/weapon.js:157-159 | an upgrade keeps the magazine invariant |
| Weapons.StartReloadIdempotent | js/weapon.js:161-165 | starting a reload twice is the same as starting it once |
| Weapons.EmptyingShotStartsReload | js/weapon.js:180-182 | a shot that leaves the magazine empty leaves the weapon reloading with the full reload time |
| Weapons.MagazineEmptiesAfterShots | js/weapon.js:177-184 | from an idle magazine holding n rounds, exactly n shots succeed and the next one is refused |
| Weapons.UpgradeRaisesDamage | js/weapon.js:145-147 | every upgrade raises damage by at least one point |
| Weapons.UpgradeNeverSlowsFire | js/weapon.js:149-151 | an upgrade never makes the cadence slower |
| Weapons.UpgradeRaisesCost | js/weapon.js:153-155 | every upgrade makes the next one strictly more expensive |
| Weapons.Deserialize | js/weapon.js:190-194 | a loaded weapon has the saved id and level, a full magazine and no reload in progress |
| Weapons.RoundTrip | js/weapon.js:186-194 | saving and loading keeps id and level and resets only the magazine to full and idle |
| Weapons.Serialize | js/weapon.js:186-188 | the saved record holds the weapon's id and level |
| Enemies.NewEnemy | js/enemy.js:4-69 | a new enemy has hp = maxHp, is alive and not dying; its stats are the type's base stats times the stage multiplier, floored (a multiplier of 0 counts as 1); a boss is 80×112 and the others 48×88 |
| Enemies.TakeDamage | js/enemy.js:71-80 | hp drops by the amount and never below 0, hitFlash becomes 6, and the answer is true exactly when hp reaches 0, which starts the 15-frame dying countdown |
| Enemies.Update | js/enemy.js:82-112 | a dying enemy only counts down and stops being alive at 0; otherwise it moves toward the player when farther than its width, and in range attacks exactly when its timer has run out, resetting it to 1500 |
| Enemies.TakeDamageKeepsValid | js/enemy.js:71-80 | a non-negative hit keeps hp in [0, maxHp] and leaves hp = max(0, hp − amount) |
| Enemies.UpdateKeepsValid | js/enemy.js:82-112 | a frame keeps the enemy's life-cycle invariant |
| Enemies.HitWhileDyingReportsKillAgain | js/enemy.js:71-80 | there is no dying guard: hitting a dying enemy answers true again and restarts the countdown at 15 |
| Enemies.DyingCountdown | js/enemy.js:83-87 | n frames of a dying enemy lower its countdown by n, and it stays alive exactly while the countdown is positive |
| Enemies.KilledEnemyGoneAfterFifteenFrames | js/enemy.js:73-87 | after the killing blow an enemy is still present for 14 frames and gone after the 15th |
| Enemies.NewEnemyMonotoneInMult | js/enemy.js:4-69 | a larger positive multiplier never gives a same-type enemy less hp, damage, experience or gold |
| Enemies.ThreeHitScenario | js/enemy.js:47-80 | a normal enemy at multiplier 1 has 40 hp, survives two hits of 15 with 10 hp left and dies on the third |
| Stage.QuotaAtLeastFive | js/stage.js:81 | the per-wave base quota of any stage from 1 on is at least 5 |
| Stage.NewStageManager | js/stage.js:4-20 | a new director is at stage 1, wave 1, with no transition running, and satisfies the director invariant |
| Stage.StageMultiplier | js/stage.js:22-24 | enemy scaling is at least 1 from stage 1 wave 1 on, and exactly 1 there |
| Stage.StageMultiplierFollowsProgress | js/stage.js:22-24 | the stat multiplier never falls as play advances: a later wave of the same stage scales at least as much, and any wave of a later stage scales strictly more than every wave of an earlier one |
| Stage.CalculateWave | js/stage.js:31-43 | a boss wave is exactly wave 5, with one enemy at a 1000 ms interval; other waves have quota + floor(1.5·stage) enemies at max(600, 2000 − 50·stage); the spawned and killed counts and waveComplete are reset |
| Stage.SpawnType | js/stage.js:52-60 | the type is boss exactly on boss waves; fast needs stage ≥ 2 and a roll below 0.15; tank needs stage ≥ 3 and a roll below 0.25 |
| Stage.SpawnEnemy | js/stage.js:45-64 | no enemy and no change when the quota is reached or a transition runs; otherwise one more spawned, the enemy is exactly the constructor's enemy of the rolled type, placed at the right edge plus 10 to 40, with the current stage multiplier |
| Stage.SpawnedEnemiesNeverWeaker | js/stage.js:22-63 | enemies never get weaker as play advances: a same-type enemy spawned at a later wave or stage has at least the hp, damage, experience and gold of an earlier one |
| Stage.OnEnemyKilled | js/stage.js:66-71 | a kill adds one to the killed count and marks the wave complete once the quota is met; nothing else changes |
| Stage.Update | js/stage.js:73-133 | the stage transition counts down, changing nothing else, and then opens the next stage at wave 1 with the wave recomputed; the wave transition counts down, changing nothing else, and then recomputes the wave; a complete wave with a clear field starts a transition; with enemies left nothing changes; otherwise the spawn timer runs and 'spawn' is answered exactly when it expires with quota left |
| Stage.CalculateWaveKeepsValid | js/stage.js:31-43 | recomputing a wave keeps the director invariant |
| Stage.SpawnEnemyKeepsValid | js/stage.js:45-64 | spawning never takes the spawned count past the wave's total |
| Stage.OnEnemyKilledKeepsValid | js/stage.js:66-71 | counting a kill keeps the director invariant |
| Stage.UpdateKeepsValid | js/stage.js:73-133 | a frame keeps 1 ≤ wave ≤ 5, stage ≥ 1, the quota formula and spawned ≤ total |
| Stage.WaveAdvancesOnlyWhenCleared | js/stage.js:97-121 | the wave or stage moves only during a stage transition or when the wave is complete and the field is clear |
| Stage.SpawnSignalIsHonoured | js/stage.js:124-130 | whenever the director answers 'spawn', the following spawn produces an enemy |
| Stage.QuotaWithEnemyLeftWaits | js/stage.js:66-71 | killing the last of the quota marks the wave complete, but with one enemy still present the next frame changes nothing and does not spawn |
| Stage.SpawnTypeGates | js/stage.js:56-60 | a non-boss wave below stage 2 spawns only normal enemies, and no tank appears below stage 3 |
| Stage.Deserialize | js/stage.js:142-149 | a loaded director is at the saved stage and wave, with the quota recomputed from the stage, the wave recomputed and no transition running |
| Stage.RoundTrip | js/stage.js:135-149 | saving and loading keeps stage and wave, yields a valid director, and recomputes the same wave size and spawn interval |
| Stage.Serialize | js/stage.js:135-140 | the saved record holds the stage and the wave |
| Combo.NewCombo | js/combo.js:4-12 | a new streak and record are 0 |
| Combo.OnKill | js/combo.js:14-28 | a kill adds exactly one to the streak, resets the timer to 3000, and lifts the record to the streak when the streak beats it |
| Combo.Multiplier | js/combo.js:30-37 | the multiplier lies in [1, 5]; it is 1 exactly below 3 kills and 5 exactly from 50 kills |
| Combo.ComboName | js/combo.js:39-46 | the name is empty exactly below 3 kills |
| Combo.ComboColor | js/combo.js:48-54 | the colour is a seven-character `#rrggbb` string; ColorTracksMultiplier and ColorChangesAtBreakpoints say which streaks share a colour |
| Combo.ColorTracksMultiplier | js/combo.js:48-54 | from three kills on, two streaks share a colour exactly when they share a reward multiplier |
| Combo.ColorChangesAtBreakpoints | js/combo.js:48-54 | one more kill changes the colour exactly when the streak reaches 5, 10, 20 or 50 |
| Combo.Update | js/combo.js:56-67 | the record never changes; a positive timer that runs out resets streak and timer to 0; otherwise the timer only counts down, and a zero timer changes nothing |
| Combo.MultiplierMonotone | js/combo.js:30-37 | a longer streak never earns a smaller multiplier |
| Combo.NameMatchesBonus | js/combo.js:30-46 | the name and the bonus switch on together |
| Combo.OnKillKeepsValid | js/combo.js:14-28 | after a kill the streak is non-negative and at most the record |
| Combo.UpdateKeepsValid | js/combo.js:56-67 | a decay step keeps the streak between 0 and the record |
| Combo.StreakFromZero | js/combo.js:14-28 | n kills in a row from a zero streak leave the streak at n and the record at the larger of n and the old record |
| Skills.NewSkills | js/skills.js:61-66 | a new manager lists all six skills at level 0 |
| Skills.GetLevel | js/skills.js:68-70 | the level is the stored one, or 0 when the skill is not stored |
| Skills.GetEffect | js/skills.js:72-77 | the effect is the skill's formula at its current level, level 0 included |
| Skills.UpgradeCost | js/skills.js:79-83 | the cost is at least the base cost, and exactly it at level 0 |
| Skills.CanUpgrade | js/skills.js:85-89 | an upgrade is possible exactly when the level is below 5 and the gold covers the cost |
| Skills.Upgrade | js/skills.js:91-98 | an upgrade succeeds exactly for a stored skill below level 5; it raises that level by one, changes no other skill, and a refused upgrade changes nothing |
| Skills.HealOnKill | js/skills.js:102 | heal on kill is 0 at level 0 and 2 + 2·level otherwise |
| Skills.ExplosionData | js/skills.js:103-106 | there is no explosion at level 0, and otherwise it is the skill's effect |
| Skills.CritChance | js/skills.js:109 | the crit chance is the 0.12 baseline at level 0 and the effect formula otherwise |
| Skills.PierceCount | js/skills.js:101 | the pierce count is the pierce skill's effect at its level, 0 at level 0 |
| Skills.SpeedMult | js/skills.js:107 | the speed multiplier is 1 at level 0 and the speed effect otherwise |
| Skills.FireRateMult | js/skills.js:108 | the fire-rate multiplier is 1 at level 0 and the speed effect's fire-rate part otherwise |
| Skills.GoldMult | js/skills.js:110 | the gold multiplier is 1 at level 0 and the gold effect otherwise |
| Skills.FreshBaselines | js/skills.js:101-110 | a new manager reads pierce 0, heal 0, no explosion, speed and fire-rate multipliers 1, crit 0.12 and gold multiplier 1 |
| Skills.BaselineVersusLevelZeroEffect | js/skills.js:101-110 | for speed, fire rate, crit and gold the level-0 formula equals the baseline, but for vampire healing it does not: the getter answers 0 while the level-0 formula gives 2 |
| Skills.UpgradeRaisesCost | js/skills.js:79-98 | after a successful upgrade the next one costs strictly more |
| Skills.UpgradeStrengthens | js/skills.js:91-110 | an upgrade never weakens any getter |
| Skills.CapIsFinal | js/skills.js:85-98 | at level 5 no gold allows an upgrade, and an upgrade changes nothing |
| Skills.Serialize | js/skills.js:112-114 | the saved levels are keyed by skill name, and every key names a stored skill |
| Skills.Deserialize | js/skills.js:116-124 | every skill is present after loading; saved names set the level and the rest stay 0 |
| Skills.NameInjective | js/skills.js:3-58 | no two skills share a name |
| Skills.RoundTrip | js/skills.js:112-124 | saving and loading a manager that lists every skill gives the same manager |
| Skills.UnknownKeysIgnored | js/skills.js:119-121 | a saved key that names no skill has no effect on loading |
| Equipment.TypeOf | js/equipment.js:13-39 | each equipment type sits in its own slot, and its stat range has baseMin < baseMax |
| Equipment.DropChance | js/equipment.js:84-86 | the drop chance never exceeds 0.35 and is at least 0.08 from stage 0 on |
| Equipment.DropChanceMonotone | js/equipment.js:84-86 | the drop chance never falls as the stage rises |
| Equipment.RollGradeIsThreshold | js/equipment.js:89-102 | the successive-subtraction roll equals a reading of the roll against cumulative thresholds |
| Equipment.RollGrade | js/equipment.js:89-102 | a roll below 2% is always mythic from stage 0 on, a roll of at least 0.67 is always common, and at stage 0 a roll in [0.02, 0.1) is legendary |
| Equipment.RollGradeMonotoneInRoll | js/equipment.js:89-102 | a lower roll never gives a lower grade |
| Equipment.RollGradeMonotoneInStage | js/equipment.js:89-102 | a later stage never gives a lower grade for the same roll |
| Equipment.GenerateItem | js/equipment.js:105-114 | a generated item takes the next id, its type is chosen by the type roll, its grade by the grade roll, and its value is at least the type's minimum |
| Equipment.Set | js/equipment.js:145 | setting a slot changes that slot only |
| Equipment.WornAfterSet | js/equipment.js:145-152 | replacing what a slot holds swaps that one item in the bag of worn items |
| Equipment.NewEquipment | js/equipment.js:74-81 | a new manager has an empty inventory and five empty slots |
| Equipment.RemoveAt | js/equipment.js:132 | removing position k keeps the order of the others and removes exactly one copy of that item |
| Equipment.WeakestIndex | js/equipment.js:124-133 | the chosen position holds a minimal stat value, and every earlier item is strictly stronger, so it is the earliest minimum |
| Equipment.RemoveWeakest | js/equipment.js:124-133 | an empty inventory is unchanged; otherwise exactly one item goes and the rest keep their order |
| Equipment.AddItem | js/equipment.js:116-122 | below 20 items the item is appended; at 20 the weakest is evicted first, so a bag within the bound stays within it and a full one stays full |
| Equipment.FindIndex | js/equipment.js:143 | the search answers the first position with the id, or none exactly when no item has it |
| Equipment.Equip | js/equipment.js:135-146 | afterwards the item's slot holds the item and no other slot changes |
| Equipment.Unequip | js/equipment.js:148-153 | unequipping an empty slot changes nothing; otherwise the slot empties and its item is appended to the inventory |
| Equipment.SellItem | js/equipment.js:155-163 | an unknown id sells for 0 and changes nothing; otherwise that item leaves the inventory and pays floor(rate·value/10) |
| Equipment.Accumulate | js/equipment.js:166-175 | the slot loop adds to each stat exactly the sum of the values of the equipped items carrying it |
| Equipment.TotalBonuses | js/equipment.js:166-175 | each bonus equals the sum of the equipped values for that stat |
| Equipment.NothingWornNoBonus | js/equipment.js:166-175 | with nothing equipped all bonuses are 0 |
| Equipment.WellFormedLoadoutBonus | js/equipment.js:166-175 | when each slot holds an item of its own type, each slot's stat bonus is exactly that item's value |
| Equipment.AddItemKeepsBound | js/equipment.js:116-122 | adding never takes the inventory past 20 |
| Equipment.UnequipCanOverfill | js/equipment.js:148-153 | unequipping into a full inventory makes it 21 items, because there is no capacity check |
| Equipment.UnequipKeepsOwned | js/equipment.js:148-153 | unequipping neither creates nor loses an item |
| Equipment.EquipKeepsOwned | js/equipment.js:135-146 | equipping an inventory item with distinct ids neither creates nor loses an item |
| Equipment.EquipMovesItems | js/equipment.js:135-146 | after equipping, no inventory item has the equipped id, and the item previously in the slot is in the inventory |
| Equipment.SellRemovesExactlyOne | js/equipment.js:155-163 | a sale removes exactly the first item with the id and pays its price |
| Equipment.DeserializeItem | js/equipment.js:65-70 | a loaded item keeps its saved fields, and the id counter moves past both its old value and the item's id |
| Equipment.Serialize | js/equipment.js:177-184 | the inventory is saved in order and every slot is saved, as null when empty |
| Equipment.SerializeItem | js/equipment.js:61-63 | a saved item holds its id, type, grade and stat value |
| Equipment.Deserialize | js/equipment.js:186-198 | a missing save gives a new manager, and the id counter never moves backwards |
| Equipment.RoundTrip | js/equipment.js:177-198 | saving and loading gives back the same inventory and slots |
| Equipment.LoadedIdsBelowCounter | js/equipment.js:65-70 | after loading, the id of every loaded item, in the bag and in every slot, is below the counter, so later items get fresh ids |
| Rebirth.NewRebirth | js/rebirth.js:4-13 | a new manager has no rebirths, no souls and multipliers of 1 |
| Rebirth.CanRebirth | js/rebirth.js:15-19 | a rebirth is allowed exactly from stage 10 |
| Rebirth.CalculateSouls | js/rebirth.js:22-25 | the souls are floor(2·stage + kills/100), but at least 1 |
| Rebirth.BonusesFor | js/rebirth.js:82-88 | no rebirths means the default bonuses |
| Rebirth.RecalcBonuses | js/rebirth.js:82-88 | the bonuses become those of the rebirth count, and the count and souls are kept |
| Rebirth.PerformRebirth | js/rebirth.js:28-37 | a rebirth adds one to the count, adds exactly the calculated souls, and recomputes the bonuses; it makes no stage check |
| Rebirth.FindUpgrade | js/rebirth.js:91-125 | the lookup answers the shop entry carrying the id, or none exactly when no entry carries it |
| Rebirth.BuySoulUpgrade | js/rebirth.js:124-131 | a purchase succeeds exactly for a known id with enough souls; it deducts exactly the cost and applies that entry's increment; a refused purchase changes nothing |
| Rebirth.ApplyUpgrade | js/rebirth.js:91-122 | a shop entry never lowers a bonus, and changes exactly the bonus it names |
| Rebirth.PurchaseRaisesOneBonus | js/rebirth.js:91-131 | a purchase never lowers a bonus or takes souls below 0, and a successful one changes the bonuses |
| Rebirth.RebirthForgetsPurchases | js/rebirth.js:33-37 | a later rebirth overwrites whatever the soul shop added |
| Rebirth.BonusesGrowWithCount | js/rebirth.js:82-88 | every bonus grows with the rebirth count |
| Rebirth.Serialize | js/rebirth.js:133-139 | the save holds the count, the souls and all four bonuses |
| Rebirth.MergeBonuses | js/rebirth.js:146-148 | for each of the four bonuses, a saved value wins and a missing one keeps its default |
| Rebirth.Deserialize | js/rebirth.js:141-150 | a missing save gives a new manager; missing count or souls read as 0; no saved bonuses means defaults, and saved bonuses are merged over the defaults |
| Rebirth.RoundTrip | js/rebirth.js:133-150 | saving and loading gives back the same manager |
| Rebirth.PartialBonusesKeepDefaults | js/rebirth.js:146-148 | a save holding only the gold multiplier keeps the defaults for the other bonuses |
| Players.ExpToNext | js/player.js:54 | the threshold is at least 100, and exactly 100 at level 1 |
| Players.ExpToNextGrows | js/player.js:54 | each level's threshold is at least 20 above the previous one |
| Players.CumExpGap | js/player.js:44-58 | the experience needed to reach a higher level exceeds that of a lower one by at least the lower level's threshold |
| Players.CanonicalLevelUnique | js/player.js:44-50 | a total experience has only one reading as a level plus an experience below that level's threshold |
| Players.NewPlayer | js/player.js:4-38 | a new player is level 1 with 100 hp, 30 shield, no gold or kills, a level-1 pistol, and stands at 140 |
| Players.NewPlayerValid | js/player.js:4-38 | a new player satisfies the player invariant |
| Players.AttackDamage | js/player.js:40-42 | attack damage is at least the weapon's base damage plus 2; the lemmas below tie it to level and weapon |
| Players.LevelUpAddsTwoDamage | js/player.js:40-42 | a level-up adds exactly 2 to the attack damage |
| Players.WeaponUpgradeRaisesAttackDamage | js/player.js:40-42 | upgrading the weapon strictly raises the attack damage |
| Players.AddExpRaisesAttackDamage | js/player.js:40-50 | a grant of experience adds exactly 2 attack damage per level climbed |
| Players.LevelUp | js/player.js:52-58 | a level-up adds one level, 10 max hp and 5 max shield, refills hp and shield, and changes nothing else |
| Players.Climb | js/player.js:46-49 | the level-up loop never lowers the level, ends below the threshold, conserves total experience, adds 10 max hp and 5 max shield per level gained, and refills hp and shield when a level was gained |
| Players.AddExp | js/player.js:44-50 | a grant never lowers the level, ends with 0 ≤ exp < threshold for a non-negative total, and raises total experience by exactly the grant |
| Players.AddExpKeepsValid | js/player.js:44-50 | a non-negative grant keeps the player invariant |
| Players.AddExpSplits | js/player.js:44-50 | two grants end where one grant of their sum ends |
| Players.TwoLevelUps | js/player.js:46-54 | experience worth the rest of this level and all of the next gives exactly two level-ups and carries the remainder |
| Players.TakeDamage | js/player.js:64-74 | a positive shield absorbs min(shield, amount) first; hp loses the rest, floored at 0; the player is hurt for 10 frames; nothing else changes |
| Players.DamageIsConserved | js/player.js:64-74 | unless hp bottoms out, hp and shield together lose exactly the amount; the shield never goes negative; a hit the shield covers leaves hp untouched |
| Players.RegenShield | js/player.js:126-128 | a shield below its maximum regains 0.01 per ms up to the maximum, and a full shield is unchanged |
| Players.RegenNeverOverfills | js/player.js:126-128 | regeneration never exceeds the maximum and never lowers the shield |
| Players.Fire | js/player.js:131-141 | a refused shot releases nothing and changes nothing; a successful one releases exactly bulletCount bullets at the unchanged attack damage |
| Players.Update | js/player.js:76-129 | walking advances the world position by 1.5·dt/16; the hurt flag clears when its timer runs out; fire happens only with enemies present and the fire timer expired, and then the timer restarts at the weapon's cadence |
| Players.FireIsRateLimited | js/player.js:119-124 | after a frame that fired, a following frame shorter than 50 ms fires nothing |
| Players.UpdateKeepsValid | js/player.js:76-129 | a frame keeps the player invariant |
| Players.GunTip | js/player.js:134-139 | bullets start 44.6 right of the player and 62.4 above its feet, plus the breathing offset |
| Players.EffectiveMaxHp | js/game.js:198 | the revive target is the base max hp plus the equipped max-hp bonus |
| Players.Serialize | js/player.js:173-183 | the save holds the progression fields, the weapon's id and level, the unlocked weapons and the world position |
| Players.Deserialize | js/player.js:185-201 | a loaded player has the saved fields, 0 kills when none were saved, a world position of 140 when 0 was saved, and fresh skills, combo and equipment |
| Players.RoundTrip | js/player.js:173-201 | saving and loading keeps level, exp (and so the threshold), hp, shield, gold, kills, weapon and unlocked weapons; a world position of 0 comes back as 140 |
| Players.DeserializeValid | js/player.js:185-201 | a save with consistent numbers loads into a valid player |
| Bullets.NewBullet | js/bullet.js:4-14 | a new bullet is alive at the given position, velocity and damage |
| Bullets.OutOfBounds | js/bullet.js:24-28 | a bullet within 10 of the view's left and right edges, at a height between -10 and 700, is in bounds; one above -10 or below 700 is out |
| Bullets.OutOfBoundsFollowsCamera | js/bullet.js:24-28 | moving the bullet and the camera by the same distance does not change whether the bullet is out of bounds |
| Bullets.Strikes | js/bullet.js:30-35 | only a standing (alive, not dying) enemy is struck, and a bullet of positive size at the centre of a standing enemy strikes it |
| Bullets.FirstTarget | js/bullet.js:30-35 | the search answers the first enemy the bullet strikes, or none exactly when it strikes none |
| Bullets.Update | js/bullet.js:16-37 | velocity is fixed and position advances by v·dt/16; out of bounds the bullet dies and hits nothing; a hit kills the bullet; without a hit the enemies are unchanged |
| Bullets.HitsOnlyFirstTarget | js/bullet.js:30-37 | the hit goes to the first live, non-dying enemy the bullet overlaps, and every other enemy is unchanged |
| Bullets.DownedEnemiesUntouched | js/bullet.js:31 | a dead or dying enemy is never touched |
| Bullets.CritDoublesDamage | js/bullet.js:36-42 | a critical hit leaves the enemy with max(0, hp − 2·damage), and the reported kill is the first blow's |
| Bullets.NormalHitDamage | js/bullet.js:36 | a normal hit removes the damage once, and is a kill exactly when the enemy starts dying |
| Bullets.DeadStaysDead | js/bullet.js:16-28 | a dead bullet stays dead |
| Save.NewSaveManager | js/save.js:7-9 | no save has been made yet |
| Save.Load | js/save.js:29-40 | loading gives the parsed save exactly when the slot holds a parsable save of version 1 or 2 |
| Save.Snapshot | js/save.js:12-18 | the save record is version 2, stamped now, holding the player, stage and rebirth records |
| Save.Save | js/save.js:11-27 | a successful write stores the record and moves lastSave to now; a failed one changes nothing and reports false |
| Save.AutoSave | js/save.js:46-50 | a save is attempted exactly when at least 30 000 ms passed since the last successful save |
| Save.SaveThenLoad | js/save.js:11-40 | what a save writes, a load reads back |
| Save.AutoSaveSpacing | js/save.js:46-50 | after a successful autosave the next one comes no sooner than 30 s later |
| Save.FailedSaveRetries | js/save.js:19-50 | after a failed write the manager is still due, so a later frame tries again |
| GameLoop.Shake | js/game.js:208-211 | a shake request raises intensity and timer to the larger of old and requested, and leaves hitstop alone |
| GameLoop.Hitstop | js/game.js:213-215 | a hitstop request raises the timer to the larger of old and requested |
| GameLoop.ShakeIsMaxMerge | js/game.js:208-211 | shake requests never lower anything, repeating one changes nothing, and their order does not matter |
| GameLoop.HitstopIsMaxMerge | js/game.js:213-215 | hitstop requests never lower the timer, repeating one changes nothing, and their order does not matter |
| GameLoop.HitFeedback | js/bullet.js:65-158 | a crit asks for a 10-frame shake and 4 hitstop frames; a kill asks for 7 and 3; a plain hit asks only for the light shake (intensity 1.5, 3 frames) and no hitstop |
| GameLoop.Living | js/game.js:175 | the filter keeps exactly the live enemies, in order |
| GameLoop.MaybeDrop | js/game.js:159-172 | a drop roll below the stage's chance adds a generated item through the bounded inventory and takes a new id; otherwise nothing changes |
| GameLoop.Credit | js/game.js:149-158 | a dead enemy pays floor(exp·multiplier) experience and floor(gold·multiplier) gold, adds one kill and one stage kill, and keeps the inventory bound |
| GameLoop.EnemyTurn | js/game.js:147-158 | an enemy takes its frame, and is credited exactly when it stops being alive |
| GameLoop.StepEnemies | js/game.js:147-174 | over the whole loop, kills and stage kills rise by the number of enemies that stopped being alive, and gold and total experience rise by their summed rewards |
| GameLoop.StepBullets | js/game.js:177-179 | bullets never revive, never touch a downed enemy, never change an enemy's alive flag, and only raise shake and hitstop |
| GameLoop.BulletStepFacts | js/bullet.js:30-42 | one bullet update never changes an alive flag, never touches a downed enemy, and keeps enemies valid |
| GameLoop.LiveBullets | js/game.js:180 | the filter keeps exactly the live bullets |
| GameLoop.NewBullets | js/player.js:137-153 | a shot of n bullets releases n live bullets at the gun tip carrying the attack damage |
| GameLoop.Camera | js/game.js:133-135 | the camera is max(0, worldX − 90) |
| GameLoop.Revive | js/game.js:197-205 | a revive restores hp to the effective maximum and the shield to its maximum, keeps floor(0.8·gold), clears enemies and bullets and recomputes the wave |
| GameLoop.RevivePenalty | js/game.js:200 | a revive costs at most a fifth of the gold, rounded up, and never makes gold negative |
| GameLoop.Update | js/game.js:127-206 | after a frame the camera is max(0, worldX − 90) for the frame's player, whose worldX is the one the player's own update produced; every remaining enemy and bullet is alive, kills and the id counter never fall, the rebirth, save and pause state are untouched, and a frame never ends with the player down when the effective max hp is positive, because a downed player is revived |
| GameLoop.KillsCreditedOnce | js/game.js:147-175 | kills and stage kills rise by exactly the number of enemies the filter removes, and each removed enemy had finished its dying countdown |
| GameLoop.FrameDt | js/game.js:108 | the step is 16 ms on the first frame and otherwise the elapsed time capped at 50 ms |
| GameLoop.Loop | js/game.js:106-125 | the clock is recorded and the rebirth and pause state are kept; a hitstop frame lowers the hitstop timer by one; a hitstop or paused frame leaves player, enemies, bullets and stage unchanged; before the save interval the save state is unchanged |
| GameLoop.AutoSave | js/game.js:114-120 | the loop's autosave changes only the save state, and only when due |
| GameLoop.HitstopFreezesSimulation | js/game.js:111-117 | a hitstop frame lowers the hitstop timer by one and leaves player, enemies, bullets and stage unchanged |
| GameLoop.PauseFreezesSimulation | js/game.js:118 | a paused frame without hitstop leaves the simulation unchanged |
| GameLoop.RunningFrameUpdates | js/game.js:106-120 | a running frame without hitstop simulates exactly one clamped step |
| GameLoop.OfflineReward | js/game.js:79-88 | the reward is 0 with no save, no timestamp or under a minute away, and otherwise whole minutes times (5 + 2·level) |
| GameLoop.OfflineRewardMonotone | js/game.js:82-88 | staying away longer never pays less, and a full minute pays at least 7 |
| GameLoop.CheckOfflineReward | js/game.js:79-99 | the offline reward is added to the player's gold |
| GameLoop.LoadGame | js/game.js:68-77 | with a loadable save, the player, stage and (if saved) rebirth state are rebuilt and the camera is placed; otherwise nothing changes |
| GameLoop.NewGame | js/game.js:17-65 | with no loadable save a new game starts at level 1 with no gold at stage 1 wave 1, with an empty field |
| GameLoop.SaveThenLoadRestores | js/game.js:68-77 | what an autosave writes, a load restores: progression, weapon, stage, wave and rebirth state |
| GameLoop.PerformRebirth | js/rebirth.js:28-63 | the whole-game rebirth pays the calculated souls and applies the manager's part |
| GameLoop.RebirthKeepsAndResets | js/rebirth.js:39-63 | rebirth keeps skills, the best combo and equipment, and resets level, hp, weapon, position, stage, field and camera, with gold set to the start bonus |

## Left out

- Canvas drawing and sprites: every `render` method, js/effects.js and js/sprites.js. They are presentation only.
- Sound: js/sound.js and every `soundManager` call. These are fire-and-forget side effects.
- The DOM and UI: js/ui.js, including the weapon purchase, evolution and level-up purchase handlers. They live in UI callbacks.
- Floating text, screen flashes, particles, trails, shell casings and muzzle flashes: outbound presentation events with no effect on state.
- Presentation timers: walk frames, animation state, recoil decay, muzzle flash, breathing, the combo display timer and shake scale, and the periodic UI refresh of `loop`.
- Trigonometry: the bullet's `cos`/`sin` and the breathing `sin` are parameters of the frame (`Dice.aim`, `Dice.breath`).
- Floating-point rounding: JavaScript numbers are modelled as exact reals, so double-precision rounding before a floor is not reproduced.
- Clock reads: the source reads `Date.now()` separately for the save's timestamp, for `lastSave` and for the autosave check. The model uses one `now` for all three. The reads differ by milliseconds.
- `requestAnimationFrame`, the `running` flag and `deleteSave`: scheduling and a storage removal that changes no modelled state.
- JSON and `localStorage`: storage is one slot holding nothing, unparsable text, or a parsed record. A failed write is a boolean.
- The combo streak: the game loop and the bullet, as written, never call `onKill` or `update` of the combo. The combo is a field of the player, and only rebirth reads it.
- Pierce, explosion and vampiric healing: the skill getters are modelled, but the bullet code never uses them.
- The crit roll: the crit roll is a fixed 12% chance in the bullet code; the model takes its outcome as a boolean.
- Saved skills and equipment: the saved player does not include skills, combo or equipment, so a loaded game starts with fresh managers. Only rebirth carries skills and equipment across.
- Inventory capacity: like the source, `equip` and `unequip` push to the inventory without a capacity check. Only `addItem` keeps the 20-item bound.
- Loading equipped items: slots are loaded in the fixed slot order rather than the saved key order. A saved key that names no slot is ignored.
- The item-id counter: the global item-id counter is an explicit number threaded through generation and loading.
- The director's answer: the answer `'spawn'` or `null` is a boolean.
- Enemy attacks: the attack's damage reaches the player through the game loop, not through a reference to the player object.

=== FILE: bullets.dfy ===
/** `Bullet.update`: a straight-line projectile that dies when it leaves the
    camera's view and otherwise strikes the first live, non-dying enemy whose
    box it overlaps. One update hits at most one enemy. The critical-hit roll
    of the source is passed in as a flag. Trails and particles are drawing
    only and are not kept. */
module Bullets {
  import opened Prelude
  import Enemies

  datatype Bullet = Bullet(x: real, y: real, vx: real, vy: real, damage: int, size: real, alive: bool)

  /** A new bullet. Its velocity is `(cos(angle) * speed, sin(angle) * speed)`
      in the source; the trigonometry is left to the caller. */
  function NewBullet(x: real, y: real, vx: real, vy: real, damage: int, size: real): (b: Bullet)
    ensures b.alive && b.x == x && b.y == y && b.vx == vx && b.vy == vy && b.damage == damage
  {
    Bullet(x, y, vx, vy, damage, size, true)
  }

  /** What a hit did: which enemy, whether it was critical, and whether the
      first blow reported a kill. */
  datatype Hit = Hit(index: nat, crit: bool, killed: bool)

  datatype Step = Step(bullet: Bullet, enemies: seq<Enemies.Enemy>, hit: Option<Hit>)

  function Abs(d: real): real { if d < 0.0 then -d else d }

  /** Outside the view: more than 10 past either camera edge, above -10 or below 700. */
  predicate OutOfBounds(b: Bullet, canvasWidth: real, cameraX: real)
    ensures (-10.0 <= b.y <= 700.0 && cameraX - 10.0 <= b.x <= cameraX + canvasWidth + 10.0)
              ==> !OutOfBounds(b, canvasWidth, cameraX)
    ensures b.y < -10.0 || b.y > 700.0 ==> OutOfBounds(b, canvasWidth, cameraX)
  {
    b.x > cameraX + canvasWidth + 10.0 || b.x < cameraX - 10.0 || b.y < -10.0 || b.y > 700.0
  }

  /** Whether `b` may strike `e`: the enemy is standing and the boxes overlap. */
  predicate Strikes(b: Bullet, e: Enemies.Enemy)
    ensures Strikes(b, e) ==> e.alive && !e.dying
    ensures (e.alive && !e.dying && b.size > 0.0 && e.width >= 0 && e.height >= 0
             && b.x == e.x && b.y == e.y - e.height as real / 2.0) ==> Strikes(b, e)
  {
    && e.alive && !e.dying
    && Abs(b.x - e.x) < e.width as real / 2.0 + b.size
    && Abs(b.y - (e.y - e.height as real / 2.0)) < e.height as real / 2.0 + b.size
  }

  /** The view follows the camera: moving a bullet and the camera by the same
      distance does not change whether the bullet has left the view. */
  lemma OutOfBoundsFollowsCamera(b: Bullet, canvasWidth: real, cameraX: real, d: real)
    ensures OutOfBounds(b.(x := b.x + d), canvasWidth, cameraX + d) == OutOfBounds(b, canvasWidth, cameraX)
  {
  }

  /** The first enemy from position `i` on that `b` strikes. */
  function FirstTarget(b: Bullet, es: seq<Enemies.Enemy>, i: nat): (r: Option<nat>)
    requires i <= |es|
    ensures r.None? <==> forall j :: i <= j < |es| ==> !Strikes(b, es[j])
    ensures r.Some? ==> i <= r.value < |es| && Strikes(b, es[r.value])
    ensures r.Some? ==> forall j :: i <= j < r.value ==> !Strikes(b, es[j])
    decreases |es| - i
  {
    if i == |es| then None
    else if Strikes(b, es[i]) then Some(i)
    else FirstTarget(b, es, i + 1)
  }

  /** Advance by `v * dt / 16`, then die out of bounds or strike the first target. */
  function Update(b: Bullet, dt: real, es: seq<Enemies.Enemy>, canvasWidth: real, cameraX: real, crit: bool): (r: Step)
    ensures r.bullet.vx == b.vx && r.bullet.vy == b.vy && r.bullet.damage == b.damage
    ensures r.bullet.x == b.x + b.vx * (dt / 16.0) && r.bullet.y == b.y + b.vy * (dt / 16.0)
    ensures |r.enemies| == |es|
    ensures OutOfBounds(r.bullet, canvasWidth, cameraX) ==> !r.bullet.alive && r.hit.None? && r.enemies == es
    ensures r.hit.None? ==> r.enemies == es && r.bullet.alive == (b.alive && !OutOfBounds(r.bullet, canvasWidth, cameraX))
    ensures r.hit.Some? ==> !r.bullet.alive && r.hit.value.crit == crit && r.hit.value.index < |es|
  {
    var moved := b.(x := b.x + b.vx * (dt / 16.0), y := b.y + b.vy * (dt / 16.0));
    if OutOfBounds(moved, canvasWidth, cameraX) then Step(moved.(alive := false), es, None)
    else
      match FirstTarget(moved, es, 0)
      case None => Step(moved, es, None)
      case Some(k) =>
        var (e1, killed) := Enemies.TakeDamage(es[k], b.damage);
        var e2 := if crit then Enemies.TakeDamage(e1, b.damage).0 else e1;
        Step(moved.(alive := false), es[k := e2], Some(Hit(k, crit, killed)))
  }

  /** The hit goes to the earliest enemy the bullet overlaps that is alive and
      not dying; every other enemy is left exactly as it was. */
  lemma HitsOnlyFirstTarget(b: Bullet, dt: real, es: seq<Enemies.Enemy>, w: real, cam: real, crit: bool)
    ensures var r := Update(b, dt, es, w, cam, crit);
            r.hit.Some? ==>
              var k := r.hit.value.index;
              && Strikes(r.bullet.(alive := true), es[k])
              && (forall j :: 0 <= j < k ==> !Strikes(r.bullet.(alive := true), es[j]))
              && (forall j :: 0 <= j < |es| && j != k ==> r.enemies[j] == es[j])
  {
  }

  /** An enemy that is dying or already gone is never touched. */
  lemma DownedEnemiesUntouched(b: Bullet, dt: real, es: seq<Enemies.Enemy>, w: real, cam: real, crit: bool, j: nat)
    requires j < |es| && (!es[j].alive || es[j].dying)
    ensures Update(b, dt, es, w, cam, crit).enemies[j] == es[j]
  {
  }

  /** A critical hit calls `takeDamage` twice with the same damage: the enemy
      ends with `max(0, hp - 2 * damage)`. The reported kill is the first
      call's answer. */
  lemma CritDoublesDamage(b: Bullet, dt: real, es: seq<Enemies.Enemy>, w: real, cam: real)
    requires b.damage >= 0 && forall j :: 0 <= j < |es| ==> Enemies.Valid(es[j])
    ensures var r := Update(b, dt, es, w, cam, true);
            r.hit.Some? ==>
              var k := r.hit.value.index;
              && r.enemies[k].hp == MaxI(0, es[k].hp - 2 * b.damage)
              && (r.hit.value.killed <==> es[k].hp - b.damage <= 0)
  {
  }

  /** Without a crit the enemy loses the bullet's damage once, and the hit is
      a kill exactly when that empties its hp. */
  lemma NormalHitDamage(b: Bullet, dt: real, es: seq<Enemies.Enemy>, w: real, cam: real)
    requires b.damage >= 0 && forall j :: 0 <= j < |es| ==> Enemies.Valid(es[j])
    ensures var r := Update(b, dt, es, w, cam, false);
            r.hit.Some? ==>
              var k := r.hit.value.index;
              && r.enemies[k].hp == MaxI(0, es[k].hp - b.damage)
              && (r.hit.value.killed <==> r.enemies[k].dying)
              && Enemies.Valid(r.enemies[k])
  {
  }

  /** A bullet that is already dead stays dead. */
  lemma DeadStaysDead(b: Bullet, dt: real, es: seq<Enemies.Enemy>, w: real, cam: real, crit: bool)
    requires !b.alive
    ensures !Update(b, dt, es, w, cam, crit).bullet.alive
  {
  }
}

=== FILE: combo.dfy ===
/** `ComboManager`: a kill-streak counter that decays after three seconds
    without a kill, its all-time best, and the step functions that turn the
    streak into a reward multiplier, a name and a colour. The pop-up display
    timer and shake scale only drive drawing and are not kept. */
module Combo {

  const MaxTimer := 3000

  datatype ComboManager = ComboManager(count: int, timer: real, bestCombo: int)

  /** The streak is never negative and never beats its own record. */
  predicate Valid(c: ComboManager)
  {
    0 <= c.count <= c.bestCombo && c.timer >= 0.0
  }

  function NewCombo(): (c: ComboManager)
    ensures c.count == 0 && c.bestCombo == 0 && Valid(c)
  {
    ComboManager(0, 0.0, 0)
  }

  function OnKill(c: ComboManager): (r: ComboManager)
    ensures r.count == c.count + 1 && r.timer == MaxTimer as real
    ensures r.bestCombo >= r.count && r.bestCombo >= c.bestCombo
    ensures r.bestCombo == c.bestCombo || r.bestCombo == r.count
  {
    var n := c.count + 1;
    ComboManager(n, MaxTimer as real, if n > c.bestCombo then n else c.bestCombo)
  }

  /** Reward multiplier with breakpoints at 3, 5, 10, 20 and 50 kills. */
  function Multiplier(count: int): (m: real)
    ensures 1.0 <= m <= 5.0
    ensures count < 3 <==> m == 1.0
    ensures count >= 50 <==> m == 5.0
  {
    if count < 3 then 1.0
    else if count < 5 then 1.2
    else if count < 10 then 1.5
    else if count < 20 then 2.0
    else if count < 50 then 3.0
    else 5.0
  }

  function ComboName(count: int): (s: string)
    ensures s == "" <==> count < 3
  {
    if count < 3 then ""
    else if count < 5 then "NICE!"
    else if count < 10 then "GREAT!"
    else if count < 20 then "AWESOME!"
    else if count < 50 then "UNSTOPPABLE!"
    else "GODLIKE!"
  }

  function ComboColor(count: int): (s: string)
    ensures |s| == 7 && s[0] == '#'
  {
    if count < 5 then "#44ff44"
    else if count < 10 then "#44ddff"
    else if count < 20 then "#ffaa00"
    else if count < 50 then "#ff44ff"
    else "#ff2222"
  }

  /** From three kills on, two streaks share a colour exactly when they share
      a reward multiplier: the colour bands are the multiplier bands. */
  lemma ColorTracksMultiplier(a: int, b: int)
    requires a >= 3 && b >= 3
    ensures ComboColor(a) == ComboColor(b) <==> Multiplier(a) == Multiplier(b)
  {
    assert "#44ff44" != "#44ddff" && "#44ff44" != "#ffaa00" && "#44ff44" != "#ff44ff" && "#44ff44" != "#ff2222";
    assert "#44ddff" != "#ffaa00" && "#44ddff" != "#ff44ff" && "#44ddff" != "#ff2222";
    assert "#ffaa00" != "#ff44ff" && "#ffaa00" != "#ff2222" && "#ff44ff" != "#ff2222";
  }

  /** One more kill changes the colour exactly at 5, 10, 20 and 50 kills. */
  lemma ColorChangesAtBreakpoints(n: int)
    ensures ComboColor(n) != ComboColor(n + 1) <==> n + 1 in {5, 10, 20, 50}
  {
    assert "#44ff44" != "#44ddff" && "#44ddff" != "#ffaa00" && "#ffaa00" != "#ff44ff" && "#ff44ff" != "#ff2222";
  }

  /** Let `dt` milliseconds pass: a running streak that times out is reset. */
  function Update(c: ComboManager, dt: real): (r: ComboManager)
    ensures r.bestCombo == c.bestCombo
    ensures c.timer <= 0.0 ==> r == c
    ensures c.timer > 0.0 && c.timer - dt <= 0.0 ==> r.count == 0 && r.timer == 0.0
    ensures c.timer > 0.0 && c.timer - dt > 0.0 ==> r.count == c.count && r.timer == c.timer - dt
  {
    if c.timer > 0.0 then
      var t := c.timer - dt;
      if t <= 0.0 then c.(count := 0, timer := 0.0) else c.(timer := t)
    else c
  }

  /** A longer streak never earns a smaller multiplier. */
  lemma MultiplierMonotone(a: int, b: int)
    requires a <= b
    ensures Multiplier(a) <= Multiplier(b)
  {
  }

  /** The name and the multiplier switch on together at three kills. */
  lemma NameMatchesBonus(count: int)
    ensures ComboName(count) == "" <==> Multiplier(count) == 1.0
  {
  }

  lemma OnKillKeepsValid(c: ComboManager)
    requires Valid(c)
    ensures Valid(OnKill(c))
  {
  }

  lemma UpdateKeepsValid(c: ComboManager, dt: real)
    requires Valid(c)
    ensures Valid(Update(c, dt))
  {
  }

  /** `n` kills in a row, with no time passing, from any valid state. */
  function KillTimes(c: ComboManager, n: nat): ComboManager
  {
    if n == 0 then c else OnKill(KillTimes(c, n - 1))
  }

  /** A streak of `n` kills started from nothing leaves count and record at `n`. */
  lemma {:induction false} StreakFromZero(c: ComboManager, n: nat)
    requires Valid(c) && c.count == 0
    ensures KillTimes(c, n).count == n
    ensures KillTimes(c, n).bestCombo == if n > c.bestCombo then n else c.bestCombo
    decreases n
  {
    if n > 0 {
      StreakFromZero(c, n - 1);
    }
  }
}

=== FILE: enemy.dfy ===
/** `Enemy`: the per-type stat table scaled by the stage multiplier, hp
    bookkeeping with a dying countdown, and the approach/attack behaviour.
    Walk-frame cycling and colours are presentation and are not kept. */
module Enemies {
  import opened Prelude

  datatype EnemyType = Normal | Fast | Tank | Boss

  /** Base stats of one enemy type before the stage multiplier. */
  datatype BaseStats = BaseStats(hp: nat, speed: real, damage: nat, exp: nat, gold: nat)

  function Base(t: EnemyType): BaseStats
  {
    match t
    case Fast   => BaseStats(20, 0.6, 5, 15, 8)
    case Tank   => BaseStats(80, 0.2, 15, 30, 20)
    case Boss   => BaseStats(300, 0.15, 25, 100, 80)
    case Normal => BaseStats(40, 0.35, 8, 12, 10)
  }

  const DeathFrames := 15
  const AttackCooldown := 1500
  const HitFlashFrames := 6

  datatype Enemy = Enemy(
    etype: EnemyType, x: real, y: real, width: int, height: int,
    maxHp: int, hp: int, speed: real, damage: int, expReward: int, goldReward: int,
    alive: bool, dying: bool, deathTimer: int, attackTimer: real, hitFlash: int)

  /** The life-cycle invariant: hp within [0, maxHp], a dying enemy has no hp
      left, and an enemy only stops being alive after it started dying. */
  predicate Valid(e: Enemy)
  {
    && 0 <= e.hp <= e.maxHp
    && (e.dying ==> e.hp == 0)
    && (!e.alive ==> e.dying)
  }

  /** Construct an enemy of type `t`; a multiplier of 0 (JavaScript's falsy
      `stageMultiplier`) falls back to 1. */
  function NewEnemy(x: real, y: real, t: EnemyType, mult: real): (e: Enemy)
    ensures e.etype == t && e.x == x && e.y == y
    ensures e.hp == e.maxHp && e.alive && !e.dying && e.attackTimer == 0.0 && e.hitFlash == 0
    ensures (t == Boss ==> e.width == 80 && e.height == 112) && (t != Boss ==> e.width == 48 && e.height == 88)
    ensures var m := if mult == 0.0 then 1.0 else mult;
            && e.maxHp == (Base(t).hp as real * m).Floor
            && e.damage == (Base(t).damage as real * m).Floor
            && e.expReward == (Base(t).exp as real * m).Floor
            && e.goldReward == (Base(t).gold as real * m).Floor
            && e.speed == Base(t).speed
    ensures mult >= 0.0 ==> Valid(e)
  {
    var m := if mult == 0.0 then 1.0 else mult;
    var b := Base(t);
    var hp := (b.hp as real * m).Floor;
    Enemy(t, x, y, if t == Boss then 80 else 48, if t == Boss then 112 else 88,
          hp, hp, b.speed, (b.damage as real * m).Floor, (b.exp as real * m).Floor,
          (b.gold as real * m).Floor, true, false, 0, 0.0, 0)
  }

  /** A larger stage multiplier never gives a weaker enemy of the same type. */
  lemma NewEnemyMonotoneInMult(x: real, y: real, t: EnemyType, m1: real, m2: real)
    requires 0.0 < m1 <= m2
    ensures var e1, e2 := NewEnemy(x, y, t, m1), NewEnemy(x, y, t, m2);
            && e1.maxHp <= e2.maxHp && e1.damage <= e2.damage
            && e1.expReward <= e2.expReward && e1.goldReward <= e2.goldReward
  {
    var b := Base(t);
    assert b.hp as real * m1 <= b.hp as real * m2;
    assert b.damage as real * m1 <= b.damage as real * m2;
    assert b.exp as real * m1 <= b.exp as real * m2;
    assert b.gold as real * m1 <= b.gold as real * m2;
    FloorMonotone(b.hp as real * m1, b.hp as real * m2);
    FloorMonotone(b.damage as real * m1, b.damage as real * m2);
    FloorMonotone(b.exp as real * m1, b.exp as real * m2);
    FloorMonotone(b.gold as real * m1, b.gold as real * m2);
  }

  /** Subtract `amount`; the flag is the source's return value `hp <= 0`.
      There is no guard against hitting an enemy that is already dying. */
  function TakeDamage(e: Enemy, amount: int): (r: (Enemy, bool))
    ensures r.0.hp >= 0 && r.0.hitFlash == HitFlashFrames
    ensures r.1 <==> r.0.hp == 0
    ensures r.1 <==> e.hp - amount <= 0
    ensures !r.1 ==> r.0 == e.(hp := e.hp - amount, hitFlash := HitFlashFrames)
    ensures r.1 ==> r.0 == e.(hp := 0, hitFlash := HitFlashFrames, dying := true, deathTimer := DeathFrames)
  {
    var hp := e.hp - amount;
    if hp <= 0 then (e.(hp := 0, hitFlash := HitFlashFrames, dying := true, deathTimer := DeathFrames), true)
    else (e.(hp := hp, hitFlash := HitFlashFrames), false)
  }

  function Sign(d: real): real { if d > 0.0 then 1.0 else if d < 0.0 then -1.0 else 0.0 }
  function Abs(d: real): real { if d < 0.0 then -d else d }

  /** One frame of behaviour against a player standing at `playerX`. The flag
      says the enemy attacked this frame, dealing its `damage` to the player. */
  function Update(e: Enemy, dt: real, playerX: real): (r: (Enemy, bool))
    ensures e.dying ==> !r.1 && r.0 == e.(deathTimer := e.deathTimer - 1, alive := e.alive && e.deathTimer - 1 > 0)
    ensures !e.dying ==> r.0.alive == e.alive && !r.0.dying && r.0.hp == e.hp && r.0.deathTimer == e.deathTimer
    ensures !e.dying && Abs(playerX - e.x) > e.width as real ==>
              !r.1 && r.0.attackTimer == e.attackTimer && r.0.x == e.x + Sign(playerX - e.x) * e.speed * (dt / 16.0)
    ensures !e.dying && Abs(playerX - e.x) <= e.width as real ==>
              r.0.x == e.x && (r.1 <==> e.attackTimer - dt <= 0.0)
    ensures r.1 ==> r.0.attackTimer == AttackCooldown as real
    ensures !e.dying && !r.1 && Abs(playerX - e.x) <= e.width as real ==> r.0.attackTimer == e.attackTimer - dt
  {
    if e.dying then
      var t := e.deathTimer - 1;
      (e.(deathTimer := t, alive := if t <= 0 then false else e.alive), false)
    else
      var e1 := if e.hitFlash > 0 then e.(hitFlash := e.hitFlash - 1) else e;
      var dx := playerX - e1.x;
      if Abs(dx) > e1.width as real then
        (e1.(x := e1.x + Sign(dx) * e1.speed * (dt / 16.0)), false)
      else
        var at := e1.attackTimer - dt;
        if at <= 0.0 then (e1.(attackTimer := AttackCooldown as real), true)
        else (e1.(attackTimer := at), false)
  }

  // ---- invariant and life-cycle lemmas ----

  lemma TakeDamageKeepsValid(e: Enemy, amount: int)
    requires Valid(e) && amount >= 0
    ensures Valid(TakeDamage(e, amount).0)
    ensures TakeDamage(e, amount).0.hp == MaxI(0, e.hp - amount)
  {
  }

  lemma UpdateKeepsValid(e: Enemy, dt: real, playerX: real)
    requires Valid(e)
    ensures Valid(Update(e, dt, playerX).0)
  {
  }

  /** With no dying guard, hitting a dying enemy again reports another kill
      and restarts its death countdown. */
  lemma HitWhileDyingReportsKillAgain(e: Enemy, amount: int)
    requires Valid(e) && e.dying && amount >= 0
    ensures TakeDamage(e, amount).1
    ensures TakeDamage(e, amount).0.deathTimer == DeathFrames
  {
  }

  /** `n` frames of `Update` at a fixed player position. */
  function UpdateTimes(e: Enemy, n: nat, dt: real, playerX: real): Enemy
  {
    if n == 0 then e else Update(UpdateTimes(e, n - 1, dt, playerX), dt, playerX).0
  }

  /** A dying enemy with `k` frames of countdown left stays alive for the
      next `k - 1` frames and is gone after exactly `k`. */
  lemma {:induction false} DyingCountdown(e: Enemy, n: nat, dt: real, playerX: real)
    requires e.dying && e.alive && 1 <= e.deathTimer && n <= e.deathTimer
    ensures UpdateTimes(e, n, dt, playerX).dying
    ensures UpdateTimes(e, n, dt, playerX).deathTimer == e.deathTimer - n
    ensures UpdateTimes(e, n, dt, playerX).alive <==> n < e.deathTimer
    decreases n
  {
    if n > 0 {
      DyingCountdown(e, n - 1, dt, playerX);
      var prev := UpdateTimes(e, n - 1, dt, playerX);
      assert UpdateTimes(e, n, dt, playerX) == Update(prev, dt, playerX).0;
      assert Update(prev, dt, playerX).0.alive == (prev.alive && prev.deathTimer - 1 > 0);
    }
  }

  /** The killing blow's enemy disappears after exactly 15 frames. */
  lemma KilledEnemyGoneAfterFifteenFrames(e: Enemy, amount: int, dt: real, playerX: real)
    requires e.alive && TakeDamage(e, amount).1
    ensures UpdateTimes(TakeDamage(e, amount).0, 14, dt, playerX).alive
    ensures !UpdateTimes(TakeDamage(e, amount).0, 15, dt, playerX).alive
  {
    DyingCountdown(TakeDamage(e, amount).0, 14, dt, playerX);
    DyingCountdown(TakeDamage(e, amount).0, 15, dt, playerX);
  }

  /** A normal enemy at stage multiplier 1 (40 hp) survives two hits of 15
      with 10 hp and is killed by the third. */
  lemma ThreeHitScenario(x: real, y: real)
    ensures var e0 := NewEnemy(x, y, Normal, 1.0);
            var h1 := TakeDamage(e0, 15);
            var h2 := TakeDamage(h1.0, 15);
            var h3 := TakeDamage(h2.0, 15);
            && e0.hp == 40 && !h1.1 && !h2.1 && h2.0.hp == 10 && !h2.0.dying && h2.0.alive
            && h3.1 && h3.0.hp == 0 && h3.0.dying
  {
  }
}

=== FILE: equipment.dfy ===
/** Equipment drops and the `EquipmentManager`: a bounded inventory that
    evicts its weakest item when full, a five-slot loadout, selling, and the
    additive stat bonuses of what is worn. Item ids come from a global
    counter in the source; here the counter is passed in and handed back. */
module Equipment {
  import opened Prelude

  datatype Slot = WeaponMod | Armor | Ring | Scope | Boots

  /** The slot order the manager walks (the source's slot list). */
  const AllSlots: seq<Slot> := [WeaponMod, Armor, Ring, Scope, Boots]

  /** The item-type order used when a random type is drawn; each type id
      coincides with the slot it is worn in. */
  const TypeKeys: seq<Slot> := [Armor, Ring, Scope, Boots, WeaponMod]

  datatype Grade = Common | Uncommon | Rare | Legendary | Mythic

  datatype StatName = MaxHp | CritBonus | DamageBonus | SpeedBonus | FireRateBonus

  /** Stat multiplier and base drop probability of a grade. */
  datatype GradeInfo = GradeInfo(mult: real, chance: real)

  function GradeOf(g: Grade): GradeInfo
  {
    match g
    case Common => GradeInfo(1.0, 0.50)
    case Uncommon => GradeInfo(1.5, 0.25)
    case Rare => GradeInfo(2.2, 0.15)
    case Legendary => GradeInfo(3.5, 0.08)
    case Mythic => GradeInfo(5.0, 0.02)
  }

  /** Rarity order, common lowest. */
  function Rank(g: Grade): nat
  {
    match g
    case Common => 0
    case Uncommon => 1
    case Rare => 2
    case Legendary => 3
    case Mythic => 4
  }

  datatype TypeDef = TypeDef(slot: Slot, statName: StatName, baseMin: nat, baseMax: nat)

  function TypeOf(t: Slot): (d: TypeDef)
    ensures d.slot == t && d.baseMin < d.baseMax
  {
    match t
    case Armor => TypeDef(Armor, MaxHp, 10, 30)
    case Ring => TypeDef(Ring, CritBonus, 2, 8)
    case Scope => TypeDef(Scope, DamageBonus, 5, 20)
    case Boots => TypeDef(Boots, SpeedBonus, 3, 10)
    case WeaponMod => TypeDef(WeaponMod, FireRateBonus, 3, 12)
  }

  datatype EquipItem = EquipItem(id: int, typeId: Slot, grade: Grade, statValue: int)

  function StatOf(item: EquipItem): StatName { TypeOf(item.typeId).statName }
  function SlotOf(item: EquipItem): Slot { TypeOf(item.typeId).slot }

  // ---- drops ----

  /** Drop probability per kill: 8% plus 0.8% per stage, capped at 35%. */
  function DropChance(stage: int): (p: real)
    ensures p <= 0.35
    ensures stage >= 0 ==> p >= 0.08
  {
    MinR(0.35, 0.08 + stage as real * 0.008)
  }

  lemma DropChanceMonotone(s1: int, s2: int)
    requires s1 <= s2
    ensures DropChance(s1) <= DropChance(s2)
  {
  }

  /** Stage bonus to the rarer grades: 0.5% per stage, at most 10%. */
  function StageBonus(stage: int): real
  {
    MinR(stage as real * 0.005, 0.1)
  }

  /** Grade for a `Math.random()` roll: the roll is walked down the rarest
      grades first, each grade's band widened by part of the stage bonus. */
  function RollGrade(stage: int, roll: real): (g: Grade)
    ensures stage >= 0 && roll < 0.02 ==> g == Mythic
    ensures roll >= 0.67 ==> g == Common
    ensures stage == 0 && 0.02 <= roll < 0.1 ==> g == Legendary
  {
    var sb := StageBonus(stage);
    var t1 := GradeOf(Mythic).chance + sb * 0.2;
    if roll < t1 then Mythic
    else
      var r2 := roll - t1;
      var t2 := GradeOf(Legendary).chance + sb * 0.5;
      if r2 < t2 then Legendary
      else
        var r3 := r2 - t2;
        var t3 := GradeOf(Rare).chance + sb;
        if r3 < t3 then Rare
        else
          var r4 := r3 - t3;
          if r4 < GradeOf(Uncommon).chance then Uncommon else Common
  }

  /** The same grade choice as cumulative thresholds on the roll. */
  function RollGradeByThreshold(stage: int, roll: real): (g: Grade)
  {
    var sb := StageBonus(stage);
    var c1 := 0.02 + sb * 0.2;
    var c2 := c1 + 0.08 + sb * 0.5;
    var c3 := c2 + 0.15 + sb;
    var c4 := c3 + 0.25;
    if roll < c1 then Mythic
    else if roll < c2 then Legendary
    else if roll < c3 then Rare
    else if roll < c4 then Uncommon
    else Common
  }

  lemma RollGradeIsThreshold(stage: int, roll: real)
    ensures RollGrade(stage, roll) == RollGradeByThreshold(stage, roll)
  {
  }

  /** A higher roll never gives a rarer grade. */
  lemma RollGradeMonotoneInRoll(stage: int, r1: real, r2: real)
    requires r1 <= r2
    ensures Rank(RollGrade(stage, r1)) >= Rank(RollGrade(stage, r2))
  {
    RollGradeIsThreshold(stage, r1);
    RollGradeIsThreshold(stage, r2);
  }

  /** For the same roll, a later stage never gives a commoner grade. */
  lemma RollGradeMonotoneInStage(s1: int, s2: int, roll: real)
    requires s1 <= s2
    ensures Rank(RollGrade(s1, roll)) <= Rank(RollGrade(s2, roll))
  {
    RollGradeIsThreshold(s1, roll);
    RollGradeIsThreshold(s2, roll);
    assert StageBonus(s1) <= StageBonus(s2);
  }

  /** A random item for `stage`: the type, grade and base value come from
      three `Math.random()` rolls in [0, 1); the new id is `counter + 1`. */
  function GenerateItem(stage: int, typeRoll: UnitReal, gradeRoll: UnitReal, valueRoll: UnitReal, counter: int)
    : (r: (EquipItem, int))
    ensures r.0.id == counter + 1 && r.1 == counter + 1
    ensures r.0.typeId == TypeKeys[(typeRoll * 5.0).Floor]
    ensures r.0.grade == RollGrade(stage, gradeRoll)
    ensures stage >= 0 ==> r.0.statValue >= TypeOf(r.0.typeId).baseMin
  {
    var t := TypeKeys[(typeRoll * 5.0).Floor];
    var def := TypeOf(t);
    var g := RollGrade(stage, gradeRoll);
    var base := def.baseMin as real + valueRoll * (def.baseMax - def.baseMin) as real;
    var m := GradeOf(g).mult;
    var f := 1.0 + stage as real * 0.05;
    var v := (base * m * f).Floor;
    assert stage >= 0 ==> base * m * f >= def.baseMin as real by {
      if stage >= 0 {
        assert base >= def.baseMin as real;
        assert m >= 1.0 && f >= 1.0;
        assert base * m >= base;
        assert base * m * f >= base * m;
      }
    }
    (EquipItem(counter + 1, t, g, v), counter + 1)
  }

  // ---- the loadout ----

  datatype Loadout = Loadout(weaponMod: Option<EquipItem>, armor: Option<EquipItem>, ring: Option<EquipItem>,
                             scope: Option<EquipItem>, boots: Option<EquipItem>)

  const EmptyLoadout := Loadout(None, None, None, None, None)

  function Get(l: Loadout, s: Slot): Option<EquipItem>
  {
    match s
    case WeaponMod => l.weaponMod
    case Armor => l.armor
    case Ring => l.ring
    case Scope => l.scope
    case Boots => l.boots
  }

  function Set(l: Loadout, s: Slot, v: Option<EquipItem>): (r: Loadout)
    ensures Get(r, s) == v
    ensures forall t :: t != s ==> Get(r, t) == Get(l, t)
  {
    match s
    case WeaponMod => l.(weaponMod := v)
    case Armor => l.(armor := v)
    case Ring => l.(ring := v)
    case Scope => l.(scope := v)
    case Boots => l.(boots := v)
  }

  function OptSeq(o: Option<EquipItem>): seq<EquipItem>
  {
    if o.Some? then [o.value] else []
  }

  function OptMs(o: Option<EquipItem>): multiset<EquipItem>
  {
    multiset(OptSeq(o))
  }

  /** The worn items, as a multiset. */
  function Worn(l: Loadout): multiset<EquipItem>
  {
    OptMs(l.weaponMod) + OptMs(l.armor) + OptMs(l.ring) + OptMs(l.scope) + OptMs(l.boots)
  }

  /** Replacing one slot swaps exactly that slot's item in the worn multiset. */
  lemma WornAfterSet(l: Loadout, s: Slot, v: Option<EquipItem>)
    ensures Worn(Set(l, s, v)) + OptMs(Get(l, s)) == Worn(l) + OptMs(v)
  {
  }

  /** Two loadouts that agree on every slot are the same loadout. */
  lemma LoadoutExt(a: Loadout, b: Loadout)
    requires forall t :: Get(a, t) == Get(b, t)
    ensures a == b
  {
    assert Get(a, WeaponMod) == Get(b, WeaponMod) && Get(a, Armor) == Get(b, Armor);
    assert Get(a, Ring) == Get(b, Ring) && Get(a, Scope) == Get(b, Scope) && Get(a, Boots) == Get(b, Boots);
  }

  // ---- the manager ----

  const MaxInventory := 20

  datatype EquipmentManager = EquipmentManager(inventory: seq<EquipItem>, equipped: Loadout)

  function NewEquipment(): (em: EquipmentManager)
    ensures em.inventory == [] && forall s :: Get(em.equipped, s).None?
  {
    EquipmentManager([], EmptyLoadout)
  }

  /** Everything the player owns: the bag and the worn items. */
  function Owned(em: EquipmentManager): multiset<EquipItem>
  {
    multiset(em.inventory) + Worn(em.equipped)
  }

  predicate DistinctIds(s: seq<EquipItem>)
  {
    forall i, j :: 0 <= i < j < |s| ==> s[i].id != s[j].id
  }

  /** No id is owned twice: bag entries differ from each other, from every
      worn item, and worn items in different slots differ. */
  predicate IdsDistinct(em: EquipmentManager)
  {
    && DistinctIds(em.inventory)
    && (forall t, i :: Get(em.equipped, t).Some? && 0 <= i < |em.inventory| ==>
          em.inventory[i].id != Get(em.equipped, t).value.id)
    && (forall t, u :: t != u && Get(em.equipped, t).Some? && Get(em.equipped, u).Some? ==>
          Get(em.equipped, t).value.id != Get(em.equipped, u).value.id)
  }

  function RemoveAt(s: seq<EquipItem>, k: nat): (r: seq<EquipItem>)
    requires k < |s|
    ensures |r| == |s| - 1
    ensures forall j :: 0 <= j < k ==> r[j] == s[j]
    ensures forall j :: k <= j < |r| ==> r[j] == s[j + 1]
    ensures multiset(r) == multiset(s) - multiset{s[k]}
  {
    assert s == s[..k] + [s[k]] + s[k + 1..];
    s[..k] + s[k + 1..]
  }

  /** The scan of `_removeWeakest` from index `i`, with `best` the earliest
      minimum of the prefix seen so far. */
  function WeakestFrom(inv: seq<EquipItem>, i: nat, best: nat): (k: nat)
    requires best < i <= |inv|
    requires forall j :: 0 <= j < i ==> inv[best].statValue <= inv[j].statValue
    requires forall j :: 0 <= j < best ==> inv[j].statValue > inv[best].statValue
    ensures k < |inv|
    ensures forall j :: 0 <= j < |inv| ==> inv[k].statValue <= inv[j].statValue
    ensures forall j :: 0 <= j < k ==> inv[j].statValue > inv[k].statValue
    decreases |inv| - i
  {
    if i == |inv| then best
    else if inv[i].statValue < inv[best].statValue then WeakestFrom(inv, i + 1, i)
    else WeakestFrom(inv, i + 1, best)
  }

  /** Index of the earliest item with the smallest stat value. */
  function WeakestIndex(inv: seq<EquipItem>): (k: nat)
    requires |inv| > 0
    ensures k < |inv|
    ensures forall j :: 0 <= j < |inv| ==> inv[k].statValue <= inv[j].statValue
    ensures forall j :: 0 <= j < k ==> inv[j].statValue > inv[k].statValue
  {
    WeakestFrom(inv, 1, 0)
  }

  /** Drop the earliest weakest item; the others keep their order. */
  function RemoveWeakest(inv: seq<EquipItem>): (r: seq<EquipItem>)
    ensures |inv| == 0 ==> r == inv
    ensures |inv| > 0 ==> |r| == |inv| - 1
    ensures |inv| > 0 ==> exists k :: 0 <= k < |inv| && r == inv[..k] + inv[k + 1..]
                                       && (forall j :: 0 <= j < |inv| ==> inv[k].statValue <= inv[j].statValue)
                                       && (forall j :: 0 <= j < k ==> inv[j].statValue > inv[k].statValue)
  {
    if |inv| == 0 then inv
    else
      var k := WeakestIndex(inv);
      inv[..k] + inv[k + 1..]
  }

  /** Add a drop, evicting the weakest item first when the bag is full. */
  function AddItem(em: EquipmentManager, item: EquipItem): (r: EquipmentManager)
    ensures r.equipped == em.equipped
    ensures |em.inventory| < MaxInventory ==> r.inventory == em.inventory + [item]
    ensures |em.inventory| >= MaxInventory ==> r.inventory == RemoveWeakest(em.inventory) + [item]
    ensures |em.inventory| <= MaxInventory ==> |r.inventory| <= MaxInventory
    ensures |em.inventory| == MaxInventory ==> |r.inventory| == MaxInventory
  {
    var inv := if |em.inventory| >= MaxInventory then RemoveWeakest(em.inventory) else em.inventory;
    em.(inventory := inv + [item])
  }

  /** `findIndex` on the item id, from position `i`. */
  function FindIndexFrom(inv: seq<EquipItem>, id: int, i: nat): (r: Option<nat>)
    requires i <= |inv|
    ensures r.None? <==> forall j :: i <= j < |inv| ==> inv[j].id != id
    ensures r.Some? ==> i <= r.value < |inv| && inv[r.value].id == id
    ensures r.Some? ==> forall j :: i <= j < r.value ==> inv[j].id != id
    decreases |inv| - i
  {
    if i == |inv| then None
    else if inv[i].id == id then Some(i)
    else FindIndexFrom(inv, id, i + 1)
  }

  function FindIndex(inv: seq<EquipItem>, id: int): (r: Option<nat>)
    ensures r.None? <==> forall j :: 0 <= j < |inv| ==> inv[j].id != id
    ensures r.Some? ==> r.value < |inv| && inv[r.value].id == id
    ensures r.Some? ==> forall j :: 0 <= j < r.value ==> inv[j].id != id
  {
    FindIndexFrom(inv, id, 0)
  }

  /** Wear `item` in its slot; what was there goes back to the bag (with no
      capacity check) and the item's own entry leaves the bag. */
  function Equip(em: EquipmentManager, item: EquipItem): (r: EquipmentManager)
    ensures Get(r.equipped, SlotOf(item)) == Some(item)
    ensures forall t :: t != SlotOf(item) ==> Get(r.equipped, t) == Get(em.equipped, t)
  {
    var slot := SlotOf(item);
    var cur := Get(em.equipped, slot);
    var inv1 := em.inventory + OptSeq(cur);
    var inv2 := match FindIndex(inv1, item.id) case Some(k) => RemoveAt(inv1, k) case None => inv1;
    EquipmentManager(inv2, Set(em.equipped, slot, Some(item)))
  }

  /** Take off whatever is worn in `slot` and put it in the bag (no capacity check). */
  function Unequip(em: EquipmentManager, slot: Slot): (r: EquipmentManager)
    ensures Get(em.equipped, slot).None? ==> r == em
    ensures Get(em.equipped, slot).Some? ==>
              && r.inventory == em.inventory + [Get(em.equipped, slot).value]
              && Get(r.equipped, slot).None?
              && forall t :: t != slot ==> Get(r.equipped, t) == Get(em.equipped, t)
  {
    match Get(em.equipped, slot)
    case None => em
    case Some(it) => EquipmentManager(em.inventory + [it], Set(em.equipped, slot, None))
  }

  /** Gold per 10 stat points when selling an item of a grade. */
  function SellRate(g: Grade): nat
  {
    match g
    case Common => 10
    case Uncommon => 30
    case Rare => 80
    case Legendary => 200
    case Mythic => 500
  }

  function SellItem(em: EquipmentManager, id: int): (r: (EquipmentManager, int))
    ensures r.0.equipped == em.equipped
    ensures FindIndex(em.inventory, id).None? ==> r == (em, 0)
    ensures FindIndex(em.inventory, id).Some? ==>
              var k := FindIndex(em.inventory, id).value;
              && r.0.inventory == RemoveAt(em.inventory, k)
              && r.1 == (SellRate(em.inventory[k].grade) as real * (em.inventory[k].statValue as real / 10.0)).Floor
  {
    match FindIndex(em.inventory, id)
    case None => (em, 0)
    case Some(k) =>
      var it := em.inventory[k];
      (em.(inventory := RemoveAt(em.inventory, k)), (SellRate(it.grade) as real * (it.statValue as real / 10.0)).Floor)
  }

  // ---- bonuses ----

  datatype Bonuses = Bonuses(maxHp: int, critBonus: int, damageBonus: int, speedBonus: int, fireRateBonus: int)

  const ZeroBonuses := Bonuses(0, 0, 0, 0, 0)

  function BonusOf(b: Bonuses, s: StatName): int
  {
    match s
    case MaxHp => b.maxHp
    case CritBonus => b.critBonus
    case DamageBonus => b.damageBonus
    case SpeedBonus => b.speedBonus
    case FireRateBonus => b.fireRateBonus
  }

  function AddBonus(b: Bonuses, s: StatName, v: int): (r: Bonuses)
    ensures BonusOf(r, s) == BonusOf(b, s) + v
    ensures forall t :: t != s ==> BonusOf(r, t) == BonusOf(b, t)
  {
    match s
    case MaxHp => b.(maxHp := b.maxHp + v)
    case CritBonus => b.(critBonus := b.critBonus + v)
    case DamageBonus => b.(damageBonus := b.damageBonus + v)
    case SpeedBonus => b.(speedBonus := b.speedBonus + v)
    case FireRateBonus => b.(fireRateBonus := b.fireRateBonus + v)
  }

  /** The reference total: the sum, over `slots`, of the stat values of worn
      items whose stat is `s`. */
  function StatSum(slots: seq<Slot>, l: Loadout, s: StatName): int
  {
    if |slots| == 0 then 0
    else
      var here := match Get(l, slots[0]) case Some(it) => if StatOf(it) == s then it.statValue else 0 case None => 0;
      here + StatSum(slots[1..], l, s)
  }

  /** The source's loop: walk `slots`, adding each worn item's value to its stat. */
  function Accumulate(slots: seq<Slot>, l: Loadout, b: Bonuses): (r: Bonuses)
    ensures forall s :: BonusOf(r, s) == BonusOf(b, s) + StatSum(slots, l, s)
  {
    if |slots| == 0 then b
    else
      var b1 := match Get(l, slots[0]) case Some(it) => AddBonus(b, StatOf(it), it.statValue) case None => b;
      Accumulate(slots[1..], l, b1)
  }

  function TotalBonuses(em: EquipmentManager): (b: Bonuses)
    ensures forall s :: BonusOf(b, s) == StatSum(AllSlots, em.equipped, s)
  {
    Accumulate(AllSlots, em.equipped, ZeroBonuses)
  }

  /** What one worn item adds to stat `s`. */
  function Contribution(o: Option<EquipItem>, s: StatName): int
  {
    match o case Some(it) => if StatOf(it) == s then it.statValue else 0 case None => 0
  }

  /** The reference total over all five slots, written out. */
  lemma StatSumAllSlots(l: Loadout, s: StatName)
    ensures StatSum(AllSlots, l, s) ==
              Contribution(l.weaponMod, s) + Contribution(l.armor, s) + Contribution(l.ring, s)
              + Contribution(l.scope, s) + Contribution(l.boots, s)
  {
    assert [Boots][1..] == [];
    assert StatSum([Boots], l, s) == Contribution(l.boots, s);
    assert [Scope, Boots][1..] == [Boots];
    assert StatSum([Scope, Boots], l, s) == Contribution(l.scope, s) + Contribution(l.boots, s);
    assert [Ring, Scope, Boots][1..] == [Scope, Boots];
    assert StatSum([Ring, Scope, Boots], l, s) == Contribution(l.ring, s) + StatSum([Scope, Boots], l, s);
    assert [Armor, Ring, Scope, Boots][1..] == [Ring, Scope, Boots];
    assert StatSum([Armor, Ring, Scope, Boots], l, s) == Contribution(l.armor, s) + StatSum([Ring, Scope, Boots], l, s);
    assert AllSlots[1..] == [Armor, Ring, Scope, Boots];
  }

  /** Nothing worn, no bonus. */
  lemma NothingWornNoBonus(em: EquipmentManager)
    requires forall t :: Get(em.equipped, t).None?
    ensures TotalBonuses(em) == ZeroBonuses
  {
    forall s ensures StatSum(AllSlots, em.equipped, s) == 0 {
      StatSumAllSlots(em.equipped, s);
      assert Get(em.equipped, WeaponMod).None? && Get(em.equipped, Armor).None? && Get(em.equipped, Ring).None?;
      assert Get(em.equipped, Scope).None? && Get(em.equipped, Boots).None?;
    }
    var b := TotalBonuses(em);
    assert BonusOf(b, MaxHp) == 0 && BonusOf(b, CritBonus) == 0 && BonusOf(b, DamageBonus) == 0;
    assert BonusOf(b, SpeedBonus) == 0 && BonusOf(b, FireRateBonus) == 0;
  }

  /** When every worn item sits in its own type's slot, each stat's bonus is
      the value of the one item in the slot that carries that stat. */
  lemma WellFormedLoadoutBonus(em: EquipmentManager, slot: Slot)
    requires forall t :: Get(em.equipped, t).Some? ==> Get(em.equipped, t).value.typeId == t
    ensures BonusOf(TotalBonuses(em), TypeOf(slot).statName) ==
              match Get(em.equipped, slot) case Some(it) => it.statValue case None => 0
  {
    var l := em.equipped;
    StatSumAllSlots(l, TypeOf(slot).statName);
    assert Get(l, WeaponMod) == l.weaponMod && Get(l, Armor) == l.armor && Get(l, Ring) == l.ring;
    assert Get(l, Scope) == l.scope && Get(l, Boots) == l.boots;
  }

  // ---- properties of the bag ----

  /** Adding an item keeps the bag within capacity. */
  lemma AddItemKeepsBound(em: EquipmentManager, item: EquipItem)
    requires |em.inventory| <= MaxInventory
    ensures |AddItem(em, item).inventory| <= MaxInventory
  {
  }

  /** `unequip` does not check capacity: with a full bag it makes 21 items. */
  lemma UnequipCanOverfill(em: EquipmentManager, slot: Slot)
    requires |em.inventory| == MaxInventory && Get(em.equipped, slot).Some?
    ensures |Unequip(em, slot).inventory| == MaxInventory + 1
  {
  }

  /** Unequipping loses and creates nothing. */
  lemma UnequipKeepsOwned(em: EquipmentManager, slot: Slot)
    ensures Owned(Unequip(em, slot)) == Owned(em)
  {
    var cur := Get(em.equipped, slot);
    if cur.Some? {
      var l1 := Set(em.equipped, slot, None);
      WornAfterSet(em.equipped, slot, None);
      assert Worn(l1) + multiset{cur.value} == Worn(em.equipped);
      MoveOne(multiset(em.inventory), Worn(l1), cur.value, Worn(em.equipped));
      assert multiset(em.inventory + [cur.value]) == multiset(em.inventory) + multiset{cur.value};
    }
  }

  /** Moving one element from one side of a union to the other keeps the union. */
  lemma MoveOne(a: multiset<EquipItem>, b: multiset<EquipItem>, x: EquipItem, w: multiset<EquipItem>)
    requires b + multiset{x} == w
    ensures a + multiset{x} + b == a + w
  {
  }

  /** The bag followed by one slot's item has distinct ids. */
  lemma BagAndSlotDistinct(em: EquipmentManager, slot: Slot)
    requires IdsDistinct(em)
    ensures DistinctIds(em.inventory + OptSeq(Get(em.equipped, slot)))
  {
  }

  /** Equipping an item from the bag loses and creates nothing: the item moves
      to its slot and the item it displaces moves to the bag. */
  lemma EquipKeepsOwned(em: EquipmentManager, item: EquipItem)
    requires IdsDistinct(em) && item in em.inventory
    ensures Owned(Equip(em, item)) == Owned(em)
  {
    var slot := SlotOf(item);
    var cur := Get(em.equipped, slot);
    var inv1 := em.inventory + OptSeq(cur);
    var p :| 0 <= p < |em.inventory| && em.inventory[p] == item;
    assert inv1[p] == item;
    var fi := FindIndex(inv1, item.id);
    assert fi.Some?;
    var k := fi.value;
    BagAndSlotDistinct(em, slot);
    assert k == p;
    var inv2 := RemoveAt(inv1, k);
    assert multiset(inv1) == multiset(em.inventory) + OptMs(cur);
    assert multiset(inv2) == multiset(inv1) - multiset{item};
    WornAfterSet(em.equipped, slot, Some(item));
    assert OptMs(Some(item)) == multiset{item};
    assert item in multiset(em.inventory);
    SwapOne(multiset(em.inventory), OptMs(cur), item, Worn(em.equipped), Worn(Set(em.equipped, slot, Some(item))));
  }

  /** Taking `x` out of the bag into a slot whose old contents `c` go to the
      bag keeps the union. */
  lemma SwapOne(bag: multiset<EquipItem>, c: multiset<EquipItem>, x: EquipItem, w: multiset<EquipItem>, w1: multiset<EquipItem>)
    requires x in bag && w1 + c == w + multiset{x}
    ensures (bag + c - multiset{x}) + w1 == bag + w
  {
    forall y ensures ((bag + c - multiset{x}) + w1)[y] == (bag + w)[y] {
      assert (w1 + c)[y] == (w + multiset{x})[y];
    }
  }

  /** After `equip`, the bag holds no entry with the item's id, and a
      displaced item with a different id is back in the bag. */
  lemma EquipMovesItems(em: EquipmentManager, item: EquipItem)
    requires IdsDistinct(em)
    ensures forall j :: 0 <= j < |Equip(em, item).inventory| ==> Equip(em, item).inventory[j].id != item.id
    ensures var cur := Get(em.equipped, SlotOf(item));
            cur.Some? && cur.value.id != item.id ==> cur.value in Equip(em, item).inventory
  {
    var slot := SlotOf(item);
    var cur := Get(em.equipped, slot);
    var inv1 := em.inventory + OptSeq(cur);
    BagAndSlotDistinct(em, slot);
    var r := Equip(em, item);
    match FindIndex(inv1, item.id)
    case None =>
      if cur.Some? && cur.value.id != item.id {
        assert inv1[|inv1| - 1] == cur.value;
      }
    case Some(k) =>
      forall j | 0 <= j < |r.inventory|
        ensures r.inventory[j].id != item.id
      {
        if j >= k { assert r.inventory[j] == inv1[j + 1]; }
      }
      if cur.Some? && cur.value.id != item.id {
        assert inv1[|inv1| - 1] == cur.value;
        assert r.inventory[|inv1| - 2] == cur.value;
      }
  }

  /** Selling an unknown id changes nothing and pays nothing; selling a known
      one removes exactly that entry. */
  lemma SellRemovesExactlyOne(em: EquipmentManager, id: int)
    ensures FindIndex(em.inventory, id).None? ==> SellItem(em, id) == (em, 0)
    ensures FindIndex(em.inventory, id).Some? ==>
              multiset(SellItem(em, id).0.inventory) ==
              multiset(em.inventory) - multiset{em.inventory[FindIndex(em.inventory, id).value]}
  {
  }

  // ---- persistence ----

  datatype ItemData = ItemData(id: int, typeId: Slot, grade: Grade, statValue: int)

  function SerializeItem(it: EquipItem): (d: ItemData)
    ensures d.id == it.id && d.typeId == it.typeId && d.grade == it.grade && d.statValue == it.statValue
  {
    ItemData(it.id, it.typeId, it.grade, it.statValue)
  }

  /** Rebuild an item: the constructor draws `counter + 1` before the saved id
      overwrites it, and the counter is then pushed past the saved id. */
  function DeserializeItem(d: ItemData, counter: int): (r: (EquipItem, int))
    ensures r.0 == EquipItem(d.id, d.typeId, d.grade, d.statValue)
    ensures r.1 > d.id && r.1 > counter
  {
    var c1 := counter + 1;
    (EquipItem(d.id, d.typeId, d.grade, d.statValue), if d.id >= c1 then d.id + 1 else c1)
  }

  function SerializeItems(s: seq<EquipItem>): (r: seq<ItemData>)
    ensures |r| == |s| && forall j :: 0 <= j < |s| ==> r[j] == SerializeItem(s[j])
  {
    if |s| == 0 then [] else [SerializeItem(s[0])] + SerializeItems(s[1..])
  }

  function DeserializeItems(ds: seq<ItemData>, counter: int): (r: (seq<EquipItem>, int))
    ensures |r.0| == |ds| && r.1 >= counter
    ensures forall j :: 0 <= j < |ds| ==> r.0[j] == DeserializeItem(ds[j], counter).0
    ensures forall j :: 0 <= j < |ds| ==> r.0[j].id < r.1
  {
    if |ds| == 0 then ([], counter)
    else
      var (it, c1) := DeserializeItem(ds[0], counter);
      var (rest, c2) := DeserializeItems(ds[1..], c1);
      ([it] + rest, c2)
  }

  /** The saved equipment: the bag, and one optional item per slot key present. */
  datatype EquipmentData = EquipmentData(inventory: Option<seq<ItemData>>, equipped: Option<map<Slot, Option<ItemData>>>)

  function SerializeOpt(o: Option<EquipItem>): Option<ItemData>
  {
    match o case Some(it) => Some(SerializeItem(it)) case None => None
  }

  function Serialize(em: EquipmentManager): (d: EquipmentData)
    ensures d.inventory == Some(SerializeItems(em.inventory))
    ensures d.equipped.Some? && forall s :: s in d.equipped.value && d.equipped.value[s] == SerializeOpt(Get(em.equipped, s))
  {
    var m := map[WeaponMod := SerializeOpt(em.equipped.weaponMod), Armor := SerializeOpt(em.equipped.armor),
                 Ring := SerializeOpt(em.equipped.ring), Scope := SerializeOpt(em.equipped.scope),
                 Boots := SerializeOpt(em.equipped.boots)];
    assert forall s :: s in m && m[s] == SerializeOpt(Get(em.equipped, s)) by {
      forall s ensures s in m && m[s] == SerializeOpt(Get(em.equipped, s)) {
        EverySlotListed(s);
      }
    }
    EquipmentData(Some(SerializeItems(em.inventory)), Some(m))
  }

  lemma EverySlotListed(s: Slot)
    ensures s in {WeaponMod, Armor, Ring, Scope, Boots}
  {
    match s
    case WeaponMod => case Armor => case Ring => case Scope => case Boots =>
  }

  /** Restore the slot entries present in the saved map, in slot order. */
  function LoadSlots(slots: seq<Slot>, m: map<Slot, Option<ItemData>>, l: Loadout, counter: int): (r: (Loadout, int))
    ensures r.1 >= counter
    ensures forall t :: t !in slots || t !in m ==> Get(r.0, t) == Get(l, t)
    ensures forall t :: t in slots && t in m && m[t].None? ==> Get(r.0, t).None?
    ensures forall t :: t in slots && t in m && m[t].Some? ==> Get(r.0, t) == Some(DeserializeItem(m[t].value, counter).0)
    ensures forall t :: Get(r.0, t) != Get(l, t) && Get(r.0, t).Some? ==> Get(r.0, t).value.id < r.1
  {
    if |slots| == 0 then (l, counter)
    else
      var s := slots[0];
      var (l1, c1) :=
        if s in m then
          match m[s]
          case Some(d) => var (it, c) := DeserializeItem(d, counter); (Set(l, s, Some(it)), c)
          case None => (Set(l, s, None), counter)
        else (l, counter);
      LoadSlots(slots[1..], m, l1, c1)
  }

  function Deserialize(data: Option<EquipmentData>, counter: int): (r: (EquipmentManager, int))
    ensures r.1 >= counter
    ensures data.None? ==> r.0 == NewEquipment()
  {
    match data
    case None => (NewEquipment(), counter)
    case Some(d) =>
      var (inv, c1) := if d.inventory.Some? then DeserializeItems(d.inventory.value, counter) else ([], counter);
      var (l, c2) := if d.equipped.Some? then LoadSlots(AllSlots, d.equipped.value, EmptyLoadout, c1) else (EmptyLoadout, c1);
      (EquipmentManager(inv, l), c2)
  }

  /** Saving and loading the equipment gives back the same bag and loadout. */
  lemma RoundTrip(em: EquipmentManager, counter: int)
    ensures Deserialize(Some(Serialize(em)), counter).0 == em
  {
    var d := Serialize(em);
    var (inv, c1) := DeserializeItems(d.inventory.value, counter);
    assert inv == em.inventory;
    var (l, c2) := LoadSlots(AllSlots, d.equipped.value, EmptyLoadout, c1);
    forall t ensures Get(l, t) == Get(em.equipped, t) {
      EverySlotListed(t);
    }
    LoadoutExt(l, em.equipped);
  }

  /** After loading, the id counter is past every loaded item, in the bag and
      in the slots, so items generated later get fresh ids. */
  lemma LoadedIdsBelowCounter(d: EquipmentData, counter: int)
    ensures var r := Deserialize(Some(d), counter);
            forall j :: 0 <= j < |r.0.inventory| ==> r.0.inventory[j].id < r.1
    ensures var r := Deserialize(Some(d), counter);
            forall t :: Get(r.0.equipped, t).Some? ==> Get(r.0.equipped, t).value.id < r.1
  {
  }
}

=== FILE: game.dfy ===
/** The game tick: one frame of the simulation composed from the managers,
    the frame-time clamp and hitstop skip of the animation loop, the revive
    rule, screen-shake and hitstop requests, the offline reward, loading,
    autosaving and rebirth. Every `Math.random()` draw of a frame comes in a
    `Dice` record; the clock comes in as numbers. */
module GameLoop {
  import opened Prelude
  import Weapons
  import Enemies
  import Stage
  import Combo
  import Skills
  import Equipment
  import Rebirth
  import Players
  import Bullets
  import Save

  const RenderWidth := 360.0
  const GroundY := 520.0
  const MaxFrameMs := 50.0
  const FirstFrameMs := 16.0
  const OfflineStepMs := 60000

  /** Screen shake and hitstop: requests only ever raise them; each frame
      lowers them by one. */
  datatype Feel = Feel(shakeTimer: int, shakeIntensity: real, hitstopTimer: int)

  datatype Game = Game(
    player: Players.Player, enemies: seq<Enemies.Enemy>, bullets: seq<Bullets.Bullet>,
    stage: Stage.StageManager, rebirth: Rebirth.RebirthManager,
    saver: Save.SaveManager, slot: Option<Save.Stored>,
    cameraX: real, paused: bool, lastTime: real, feel: Feel,
    equipCounter: int)

  /** The draws for one enemy death: the drop roll and, if an item drops,
      its type, grade and value rolls. */
  datatype DropRoll = DropRoll(chance: UnitReal, typeRoll: UnitReal, gradeRoll: UnitReal, valueRoll: UnitReal)

  /** Every random draw of a frame. `drop` is indexed by the enemy's position
      in the list, `crit` by the bullet's, `aim` by the new bullet's number
      (it gives the cosine and sine of that bullet's spread angle), and
      `breath` is this frame's breathing offset. */
  datatype Dice = Dice(
    spawnType: UnitReal, spawnOffset: UnitReal,
    drop: nat -> DropRoll, crit: nat -> bool, aim: nat -> (real, real), breath: real)

  // ---- shake and hitstop ----

  function Shake(f: Feel, intensity: real, duration: int): (r: Feel)
    ensures r.shakeIntensity == MaxR(f.shakeIntensity, intensity) && r.shakeTimer == MaxI(f.shakeTimer, duration)
    ensures r.hitstopTimer == f.hitstopTimer
  {
    f.(shakeIntensity := MaxR(f.shakeIntensity, intensity), shakeTimer := MaxI(f.shakeTimer, duration))
  }

  function Hitstop(f: Feel, frames: int): (r: Feel)
    ensures r.hitstopTimer == MaxI(f.hitstopTimer, frames)
    ensures r.shakeTimer == f.shakeTimer && r.shakeIntensity == f.shakeIntensity
  {
    f.(hitstopTimer := MaxI(f.hitstopTimer, frames))
  }

  /** Requests never lower a timer, repeating a request changes nothing, and
      the order of two requests does not matter. */
  lemma ShakeIsMaxMerge(f: Feel, a: real, b: int, c: real, d: int)
    ensures Shake(f, a, b).shakeTimer >= f.shakeTimer && Shake(f, a, b).shakeIntensity >= f.shakeIntensity
    ensures Shake(Shake(f, a, b), a, b) == Shake(f, a, b)
    ensures Shake(Shake(f, a, b), c, d) == Shake(Shake(f, c, d), a, b)
  {
  }

  lemma HitstopIsMaxMerge(f: Feel, a: int, b: int)
    ensures Hitstop(f, a).hitstopTimer >= f.hitstopTimer
    ensures Hitstop(Hitstop(f, a), a) == Hitstop(f, a)
    ensures Hitstop(Hitstop(f, a), b) == Hitstop(Hitstop(f, b), a)
  {
  }

  /** The shake and hitstop a bullet hit asks for: a crit shakes hard and
      freezes 4 frames, a normal hit shakes lightly, and a kill adds a strong
      shake and a 3-frame freeze. */
  function HitFeedback(f: Feel, h: Bullets.Hit): (r: Feel)
    ensures r.shakeTimer >= f.shakeTimer && r.shakeIntensity >= f.shakeIntensity && r.hitstopTimer >= f.hitstopTimer
    ensures h.crit ==> r.hitstopTimer >= 4 && r.shakeTimer >= 10
    ensures h.killed ==> r.hitstopTimer >= 3 && r.shakeTimer >= 7
    ensures !h.crit && !h.killed ==> r.hitstopTimer == f.hitstopTimer && r == Shake(f, 1.5, 3)
  {
    var f1 := if h.crit then Hitstop(Shake(f, 7.0, 10), 4) else Shake(f, 1.5, 3);
    if h.killed then Hitstop(Shake(f1, 5.0, 7), 3) else f1
  }

  // ---- kill crediting ----

  /** Number of enemies in `es` that are no longer alive. */
  function Dead(es: seq<Enemies.Enemy>): nat
  {
    if |es| == 0 then 0 else (if es[0].alive then 0 else 1) + Dead(es[1..])
  }

  /** The survivors of `filter(e => e.alive)`, in order. */
  function Living(es: seq<Enemies.Enemy>): (r: seq<Enemies.Enemy>)
    ensures |r| + Dead(es) == |es|
    ensures forall j :: 0 <= j < |r| ==> r[j].alive && r[j] in es
    ensures forall j :: 0 <= j < |es| && es[j].alive ==> es[j] in r
  {
    if |es| == 0 then []
    else if es[0].alive then [es[0]] + Living(es[1..])
    else Living(es[1..])
  }

  /** Experience and gold for one kill: the enemy's reward times the rebirth
      multiplier, floored. */
  function ExpGain(e: Enemies.Enemy, mult: real): int
  {
    (e.expReward as real * mult).Floor
  }

  function GoldGain(e: Enemies.Enemy, mult: real): int
  {
    (e.goldReward as real * mult).Floor
  }

  /** Reference sums of the rewards of the dead enemies in `es`. */
  function ExpSum(es: seq<Enemies.Enemy>, mult: real): int
  {
    if |es| == 0 then 0
    else (if es[0].alive then 0 else ExpGain(es[0], mult)) + ExpSum(es[1..], mult)
  }

  function GoldSum(es: seq<Enemies.Enemy>, mult: real): int
  {
    if |es| == 0 then 0
    else (if es[0].alive then 0 else GoldGain(es[0], mult)) + GoldSum(es[1..], mult)
  }

  /** What the enemy loop threads through: the player, the director and the
      item-id counter. */
  datatype Field = Field(player: Players.Player, stage: Stage.StageManager, equipCounter: int)

  /** Roll for an equipment drop after a kill; a dropped item goes through `addItem`. */
  function MaybeDrop(fd: Field, d: DropRoll): (r: Field)
    ensures r.player == fd.player.(equipment := r.player.equipment) && r.stage == fd.stage
    ensures d.chance < Equipment.DropChance(fd.stage.stage) ==> r.equipCounter == fd.equipCounter + 1
    ensures !(d.chance < Equipment.DropChance(fd.stage.stage)) ==> r == fd
    ensures |fd.player.equipment.inventory| <= Equipment.MaxInventory ==>
              |r.player.equipment.inventory| <= Equipment.MaxInventory
  {
    if d.chance < Equipment.DropChance(fd.stage.stage) then
      var (item, c) := Equipment.GenerateItem(fd.stage.stage, d.typeRoll, d.gradeRoll, d.valueRoll, fd.equipCounter);
      var p := fd.player.(equipment := Equipment.AddItem(fd.player.equipment, item));
      Field(p, fd.stage, c)
    else fd
  }

  /** Credit one dead enemy: experience and gold scaled by the rebirth
      multipliers, one kill, one `onEnemyKilled`, then the drop roll. */
  function Credit(fd: Field, e: Enemies.Enemy, b: Rebirth.PermanentBonuses, d: DropRoll): (r: Field)
    ensures r.player.totalKills == fd.player.totalKills + 1
    ensures r.player.gold == fd.player.gold + GoldGain(e, b.goldMultiplier)
    ensures Players.CumExp(r.player.level) + r.player.exp ==
              Players.CumExp(fd.player.level) + fd.player.exp + ExpGain(e, b.expMultiplier)
    ensures r.stage == Stage.OnEnemyKilled(fd.stage)
    ensures r.player.x == fd.player.x && r.player.worldX == fd.player.worldX && r.equipCounter >= fd.equipCounter
    ensures |fd.player.equipment.inventory| <= Equipment.MaxInventory ==>
              |r.player.equipment.inventory| <= Equipment.MaxInventory
  {
    var p1 := Players.AddExp(fd.player, ExpGain(e, b.expMultiplier));
    var p2 := p1.(gold := p1.gold + GoldGain(e, b.goldMultiplier), totalKills := p1.totalKills + 1);
    MaybeDrop(Field(p2, Stage.OnEnemyKilled(fd.stage), fd.equipCounter), d)
  }

  /** One enemy's turn: its frame (an attack hurts the player by the
      enemy's damage), then the credit if it stopped being alive. */
  function EnemyTurn(e: Enemies.Enemy, fd: Field, b: Rebirth.PermanentBonuses, dt: real, px: real, d: DropRoll)
    : (r: (Enemies.Enemy, Field))
    ensures r.0 == Enemies.Update(e, dt, px).0
    ensures r.1.player.totalKills == fd.player.totalKills + (if r.0.alive then 0 else 1)
    ensures r.1.stage == (if r.0.alive then fd.stage else Stage.OnEnemyKilled(fd.stage))
    ensures r.1.player.gold == fd.player.gold + (if r.0.alive then 0 else GoldGain(r.0, b.goldMultiplier))
    ensures Players.CumExp(r.1.player.level) + r.1.player.exp ==
              Players.CumExp(fd.player.level) + fd.player.exp
              + (if r.0.alive then 0 else ExpGain(r.0, b.expMultiplier))
    ensures r.1.player.x == fd.player.x && r.1.player.worldX == fd.player.worldX && r.1.equipCounter >= fd.equipCounter
    ensures |fd.player.equipment.inventory| <= Equipment.MaxInventory ==>
              |r.1.player.equipment.inventory| <= Equipment.MaxInventory
  {
    var (e1, attacked) := Enemies.Update(e, dt, px);
    var p1 := if attacked then Players.TakeDamage(fd.player, e1.damage as real) else fd.player;
    assert p1.level == fd.player.level && p1.exp == fd.player.exp && p1.gold == fd.player.gold;
    assert p1.totalKills == fd.player.totalKills && p1.x == fd.player.x && p1.equipment == fd.player.equipment;
    var fd1 := fd.(player := p1);
    (e1, if !e1.alive then Credit(fd1, e1, b, d) else fd1)
  }

  /** The enemy loop from list position `k`: every enemy takes its turn, and
      each one that stops being alive is credited exactly once. */
  function StepEnemies(es: seq<Enemies.Enemy>, fd: Field, b: Rebirth.PermanentBonuses, dt: real, px: real,
                       drop: nat -> DropRoll, k: nat): (r: (seq<Enemies.Enemy>, Field))
    ensures |r.0| == |es|
    ensures forall j :: 0 <= j < |es| ==> r.0[j] == Enemies.Update(es[j], dt, px).0
    ensures r.1.player.totalKills == fd.player.totalKills + Dead(r.0)
    ensures r.1.stage.enemiesKilled == fd.stage.enemiesKilled + Dead(r.0)
    ensures r.1.player.gold == fd.player.gold + GoldSum(r.0, b.goldMultiplier)
    ensures Players.CumExp(r.1.player.level) + r.1.player.exp ==
              Players.CumExp(fd.player.level) + fd.player.exp + ExpSum(r.0, b.expMultiplier)
    ensures r.1.stage == fd.stage.(enemiesKilled := r.1.stage.enemiesKilled, waveComplete := r.1.stage.waveComplete)
    ensures r.1.player.x == fd.player.x && r.1.player.worldX == fd.player.worldX && r.1.equipCounter >= fd.equipCounter
    ensures |fd.player.equipment.inventory| <= Equipment.MaxInventory ==>
              |r.1.player.equipment.inventory| <= Equipment.MaxInventory
    decreases |es|
  {
    if |es| == 0 then ([], fd)
    else
      var (e1, fd1) := EnemyTurn(es[0], fd, b, dt, px, drop(k));
      var (rest, fd2) := StepEnemies(es[1..], fd1, b, dt, px, drop, k + 1);
      var out := [e1] + rest;
      assert out[0] == e1 && out[1..] == rest;
      (out, fd2)
  }

  // ---- bullets ----

  datatype Volley = Volley(bullets: seq<Bullets.Bullet>, enemies: seq<Enemies.Enemy>, feel: Feel)

  /** The bullet loop from bullet number `k`: each bullet moves and may hit
      one enemy; hits request shake and hitstop. */
  function StepBullets(bs: seq<Bullets.Bullet>, es: seq<Enemies.Enemy>, f: Feel, dt: real, cam: real,
                       crit: nat -> bool, k: nat): (r: Volley)
    ensures |r.bullets| == |bs| && |r.enemies| == |es|
    ensures forall j :: 0 <= j < |es| ==> r.enemies[j].alive == es[j].alive
    ensures forall j :: 0 <= j < |es| && (!es[j].alive || es[j].dying) ==> r.enemies[j] == es[j]
    ensures forall j :: 0 <= j < |bs| && r.bullets[j].alive ==> bs[j].alive
    ensures r.feel.shakeTimer >= f.shakeTimer && r.feel.hitstopTimer >= f.hitstopTimer
    ensures (forall j :: 0 <= j < |bs| ==> bs[j].damage >= 0) && (forall j :: 0 <= j < |es| ==> Enemies.Valid(es[j])) ==>
              forall j :: 0 <= j < |es| ==> Enemies.Valid(r.enemies[j])
    decreases |bs|
  {
    if |bs| == 0 then Volley([], es, f)
    else
      var s := Bullets.Update(bs[0], dt, es, RenderWidth, cam, crit(k));
      var f1 := if s.hit.Some? then HitFeedback(f, s.hit.value) else f;
      BulletStepFacts(bs[0], dt, es, cam, crit(k));
      var rest := StepBullets(bs[1..], s.enemies, f1, dt, cam, crit, k + 1);
      Volley([s.bullet] + rest.bullets, rest.enemies, rest.feel)
  }

  /** One bullet's update leaves `alive` flags alone, never touches a downed
      enemy, and keeps enemies valid when its damage is not negative. */
  lemma BulletStepFacts(b: Bullets.Bullet, dt: real, es: seq<Enemies.Enemy>, cam: real, crit: bool)
    ensures var s := Bullets.Update(b, dt, es, RenderWidth, cam, crit);
            && (forall j :: 0 <= j < |es| ==> s.enemies[j].alive == es[j].alive)
            && (forall j :: 0 <= j < |es| && (!es[j].alive || es[j].dying) ==> s.enemies[j] == es[j])
            && (b.damage >= 0 && (forall j :: 0 <= j < |es| ==> Enemies.Valid(es[j])) ==>
                  forall j :: 0 <= j < |es| ==> Enemies.Valid(s.enemies[j]))
  {
    var s := Bullets.Update(b, dt, es, RenderWidth, cam, crit);
    if s.hit.Some? {
      var k := s.hit.value.index;
      Bullets.HitsOnlyFirstTarget(b, dt, es, RenderWidth, cam, crit);
      if b.damage >= 0 && Enemies.Valid(es[k]) {
        var (e1, _) := Enemies.TakeDamage(es[k], b.damage);
        Enemies.TakeDamageKeepsValid(es[k], b.damage);
        Enemies.TakeDamageKeepsValid(e1, b.damage);
      }
    }
  }

  function LiveBullets(bs: seq<Bullets.Bullet>): (r: seq<Bullets.Bullet>)
    ensures |r| <= |bs|
    ensures forall j :: 0 <= j < |r| ==> r[j].alive && r[j] in bs
    ensures forall j :: 0 <= j < |bs| && bs[j].alive ==> bs[j] in r
  {
    if |bs| == 0 then []
    else if bs[0].alive then [bs[0]] + LiveBullets(bs[1..])
    else LiveBullets(bs[1..])
  }

  /** The bullets a shot releases: `n` bullets at the gun tip, each with the
      player's attack damage, the weapon's bullet size and a velocity of the
      weapon's bullet speed along the `aim` direction. */
  function NewBullets(p: Players.Player, n: nat, aim: nat -> (real, real), breath: real): (r: seq<Bullets.Bullet>)
    ensures |r| == n
    ensures forall j :: 0 <= j < n ==> r[j].alive && r[j].damage == Players.AttackDamage(p)
    ensures forall j :: 0 <= j < n ==> (r[j].x, r[j].y) == Players.GunTip(p, breath)
  {
    if n == 0 then []
    else
      var tip := Players.GunTip(p, breath);
      var speed := Weapons.Def(p.weapon.id).bulletSpeed as real;
      var dir := aim(n - 1);
      NewBullets(p, n - 1, aim, breath)
        + [Bullets.NewBullet(tip.0, tip.1, dir.0 * speed, dir.1 * speed, Players.AttackDamage(p),
                             Weapons.Def(p.weapon.id).bulletSize as real)]
  }

  // ---- the frame ----

  /** Camera: keep the player a quarter of the way in from the left edge, never left of 0. */
  function Camera(p: Players.Player): (c: real)
    ensures c >= 0.0 && c >= p.worldX - RenderWidth * 0.25
    ensures c == 0.0 || c == p.worldX - RenderWidth * 0.25
  {
    MaxR(0.0, p.worldX - RenderWidth * 0.25)
  }

  /** Dying with hp at 0: back to full (equipment-inclusive) hp and shield,
      lose 20% of gold, clear the field and restart the wave. */
  function Revive(g: Game): (r: Game)
    ensures r.player.hp == Players.EffectiveMaxHp(g.player) as real && r.player.shield == g.player.maxShield as real
    ensures r.player.gold == (g.player.gold as real * 0.8).Floor
    ensures r.enemies == [] && r.bullets == []
    ensures r.stage == Stage.CalculateWave(g.stage)
    ensures r.player.level == g.player.level && r.player.exp == g.player.exp && r.player.worldX == g.player.worldX
  {
    var p := g.player;
    g.(player := p.(hp := Players.EffectiveMaxHp(p) as real, shield := p.maxShield as real,
                    gold := (p.gold as real * 0.8).Floor),
       enemies := [], bullets := [], stage := Stage.CalculateWave(g.stage))
  }

  /** A revive never costs more than a fifth of the gold (rounded up) and
      never makes gold negative. */
  lemma RevivePenalty(g: Game)
    requires g.player.gold >= 0
    ensures 0 <= Revive(g).player.gold <= g.player.gold
    ensures Revive(g).player.gold >= g.player.gold - g.player.gold / 5 - 1
  {
  }

  /** One call of `update(dt)`. */
  function Update(g: Game, dt: real, dice: Dice): (r: Game)
    ensures r.cameraX >= 0.0
    ensures r.cameraX == Camera(r.player)
    ensures Players.EffectiveMaxHp(r.player) > 0 ==> r.player.hp > 0.0
    ensures r.player.worldX == Players.Update(g.player.(isWalking := |g.enemies| == 0), dt, |g.enemies|).0.worldX
    ensures r.rebirth == g.rebirth && r.saver == g.saver && r.slot == g.slot && r.paused == g.paused
    ensures r.lastTime == g.lastTime
    ensures forall j :: 0 <= j < |r.enemies| ==> r.enemies[j].alive
    ensures forall j :: 0 <= j < |r.bullets| ==> r.bullets[j].alive
    ensures r.feel.hitstopTimer >= g.feel.hitstopTimer
    ensures r.equipCounter >= g.equipCounter
    ensures r.player.totalKills >= g.player.totalKills
  {
    var p0 := g.player.(isWalking := |g.enemies| == 0);
    var (p1, shots) := Players.Update(p0, dt, |g.enemies|);
    var bullets0 := g.bullets + NewBullets(p1, shots, dice.aim, dice.breath);
    var cam := Camera(p1);
    var (st1, spawn) := Stage.Update(g.stage, dt, |g.enemies|);
    var (st2, es1) :=
      if spawn then
        var (s, e) := Stage.SpawnEnemy(st1, dice.spawnType, dice.spawnOffset, cam + RenderWidth, GroundY);
        (s, if e.Some? then g.enemies + [e.value] else g.enemies)
      else (st1, g.enemies);
    var (es2, fd) := StepEnemies(es1, Field(p1, st2, g.equipCounter), g.rebirth.bonuses, dt, p1.x, dice.drop, 0);
    assert fd.player.worldX == p1.worldX;
    var es3 := Living(es2);
    var v := StepBullets(bullets0, es3, g.feel, dt, cam, dice.crit, 0);
    assert forall j :: 0 <= j < |v.enemies| ==> v.enemies[j].alive;
    var feel := if v.feel.shakeTimer > 0 then v.feel.(shakeTimer := v.feel.shakeTimer - 1) else v.feel;
    var g1 := g.(player := fd.player, enemies := v.enemies, bullets := LiveBullets(v.bullets), stage := fd.stage,
                 cameraX := cam, feel := feel, equipCounter := fd.equipCounter);
    assert g1.cameraX == Camera(g1.player);
    if g1.player.hp <= 0.0 then Revive(g1) else g1
  }

  /** Every enemy that dies during a frame's enemy loop is credited once and
      then removed: kills rise by exactly the number of enemies removed. */
  lemma KillsCreditedOnce(g: Game, dt: real, dice: Dice, es1: seq<Enemies.Enemy>, fd: Field)
    requires forall j :: 0 <= j < |es1| ==> es1[j].alive
    ensures var (es2, fd2) := StepEnemies(es1, fd, g.rebirth.bonuses, dt, fd.player.x, dice.drop, 0);
            && fd2.player.totalKills == fd.player.totalKills + (|es1| - |Living(es2)|)
            && fd2.stage.enemiesKilled == fd.stage.enemiesKilled + (|es1| - |Living(es2)|)
            && (forall j :: 0 <= j < |es1| && !es2[j].alive ==> es1[j].dying && es1[j].deathTimer <= 1)
  {
  }

  // ---- the animation loop ----

  /** Milliseconds simulated this frame: capped at 50, and 16 on the first frame. */
  function FrameDt(lastTime: real, timestamp: real): (dt: real)
    ensures lastTime == 0.0 ==> dt == FirstFrameMs
    ensures lastTime != 0.0 ==> dt == MinR(timestamp - lastTime, MaxFrameMs)
    ensures dt <= MaxFrameMs
    ensures lastTime != 0.0 && timestamp >= lastTime ==> 0.0 <= dt <= timestamp - lastTime
  {
    if lastTime != 0.0 then MinR(timestamp - lastTime, MaxFrameMs) else FirstFrameMs
  }

  /** The record `save` writes for this game at time `now`. */
  function Snapshot(g: Game, now: int): Save.SaveData
  {
    Save.Snapshot(Players.Serialize(g.player), Stage.Serialize(g.stage), Rebirth.Serialize(g.rebirth), now)
  }

  /** `autoSave` with the game's own snapshot; `writeOk` is whether storage accepts it. */
  function AutoSave(g: Game, now: int, writeOk: bool): (r: Game)
    ensures r == g.(saver := r.saver, slot := r.slot)
    ensures now - g.saver.lastSave < Save.SaveInterval ==> r == g
    ensures now - g.saver.lastSave >= Save.SaveInterval && writeOk ==>
              r.saver.lastSave == now && r.slot == Some(Save.Parsed(Snapshot(g, now)))
  {
    var (sm, slot, _) := Save.AutoSave(g.saver, g.slot, Snapshot(g, now), now, writeOk);
    g.(saver := sm, slot := slot)
  }

  /** One call of `loop(timestamp)`: clamp dt, then either burn a hitstop
      frame, or update unless paused; autosave in both cases. */
  function Loop(g: Game, timestamp: real, dice: Dice, now: int, writeOk: bool): (r: Game)
    ensures r.lastTime == timestamp
    ensures r.rebirth == g.rebirth && r.paused == g.paused
    ensures g.feel.hitstopTimer > 0 || g.paused ==>
              r.player == g.player && r.enemies == g.enemies && r.bullets == g.bullets && r.stage == g.stage
    ensures g.feel.hitstopTimer > 0 ==> r.feel.hitstopTimer == g.feel.hitstopTimer - 1
    ensures now - g.saver.lastSave < Save.SaveInterval ==> r.saver == g.saver && r.slot == g.slot
  {
    var dt := FrameDt(g.lastTime, timestamp);
    var g1 := g.(lastTime := timestamp);
    var g2 :=
      if g1.feel.hitstopTimer > 0 then g1.(feel := g1.feel.(hitstopTimer := g1.feel.hitstopTimer - 1))
      else if !g1.paused then Update(g1, dt, dice)
      else g1;
    AutoSave(g2, now, writeOk)
  }

  /** A hitstop frame freezes the simulation: only the hitstop counter, the
      clock and the save state move. */
  lemma HitstopFreezesSimulation(g: Game, timestamp: real, dice: Dice, now: int, writeOk: bool)
    requires g.feel.hitstopTimer > 0
    ensures var r := Loop(g, timestamp, dice, now, writeOk);
            && r.feel.hitstopTimer == g.feel.hitstopTimer - 1
            && r.player == g.player && r.enemies == g.enemies && r.bullets == g.bullets && r.stage == g.stage
  {
  }

  /** A paused game without hitstop does not simulate either. */
  lemma PauseFreezesSimulation(g: Game, timestamp: real, dice: Dice, now: int, writeOk: bool)
    requires g.paused && g.feel.hitstopTimer <= 0
    ensures var r := Loop(g, timestamp, dice, now, writeOk);
            && r.feel == g.feel && r.player == g.player && r.enemies == g.enemies && r.stage == g.stage
  {
  }

  /** A running game without hitstop simulates exactly one clamped step. */
  lemma RunningFrameUpdates(g: Game, timestamp: real, dice: Dice, now: int, writeOk: bool)
    requires !g.paused && g.feel.hitstopTimer <= 0
    ensures var r := Loop(g, timestamp, dice, now, writeOk);
            var u := Update(g.(lastTime := timestamp), FrameDt(g.lastTime, timestamp), dice);
            r.player == u.player && r.enemies == u.enemies && r.stage == u.stage && r.feel == u.feel
  {
  }

  // ---- offline reward, loading, rebirth ----

  /** Gold for time away: nothing without a saved timestamp (or a timestamp
      of 0) or under a minute away; otherwise `5 + 2 * level` per whole minute. */
  function OfflineReward(d: Option<Save.SaveData>, now: int, level: int): (gold: int)
    ensures d.None? || d.value.timestamp.None? || d.value.timestamp == Some(0) ==> gold == 0
    ensures d.Some? && d.value.timestamp.Some? && d.value.timestamp.value != 0 ==>
              var elapsed := now - d.value.timestamp.value;
              && (elapsed < OfflineStepMs ==> gold == 0)
              && (elapsed >= OfflineStepMs ==> gold == (elapsed / OfflineStepMs) * (5 + level * 2))
  {
    if d.None? || d.value.timestamp.None? || d.value.timestamp.value == 0 then 0
    else
      var elapsed := now - d.value.timestamp.value;
      if elapsed < OfflineStepMs then 0
      else (elapsed / OfflineStepMs) * (5 + level * 2)
  }

  /** Staying away longer never pays less, and each full minute pays at least 7. */
  lemma OfflineRewardMonotone(d: Save.SaveData, t1: int, t2: int, level: Pos)
    requires d.timestamp.Some? && d.timestamp.value != 0 && t1 <= t2
    ensures 0 <= OfflineReward(Some(d), t1, level) <= OfflineReward(Some(d), t2, level)
    ensures t2 - d.timestamp.value >= OfflineStepMs ==> OfflineReward(Some(d), t2, level) >= 7
  {
    var e1 := t1 - d.timestamp.value;
    var e2 := t2 - d.timestamp.value;
    if e1 >= OfflineStepMs {
      assert e1 / OfflineStepMs <= e2 / OfflineStepMs;
      assert (e1 / OfflineStepMs) * (5 + level * 2) <= (e2 / OfflineStepMs) * (5 + level * 2);
    }
  }

  /** `checkOfflineReward`: pay the reward for the time since the save. */
  function CheckOfflineReward(g: Game, now: int): (r: Game)
    ensures r == g.(player := g.player.(gold := g.player.gold + OfflineReward(Save.Load(g.slot), now, g.player.level)))
  {
    var reward := OfflineReward(Save.Load(g.slot), now, g.player.level);
    if reward > 0 then g.(player := g.player.(gold := g.player.gold + reward)) else g
  }

  /** `loadGame`: with a loadable save, rebuild the player (standing on the
      ground), the director and, if saved, the rebirth state, and place the camera. */
  function LoadGame(g: Game): (r: Game)
    ensures Save.Load(g.slot).None? ==> r == g
    ensures Save.Load(g.slot).Some? ==>
              var d := Save.Load(g.slot).value;
              && r.player == Players.Deserialize(d.player).(y := GroundY)
              && r.stage == Stage.Deserialize(d.stage)
              && (d.rebirth.Some? ==> r.rebirth == Rebirth.Deserialize(d.rebirth))
              && (d.rebirth.None? ==> r.rebirth == g.rebirth)
              && r.cameraX == Camera(r.player)
  {
    match Save.Load(g.slot)
    case None => g
    case Some(d) =>
      var p := Players.Deserialize(d.player).(y := GroundY);
      g.(player := p, stage := Stage.Deserialize(d.stage),
         rebirth := if d.rebirth.Some? then Rebirth.Deserialize(d.rebirth) else g.rebirth,
         cameraX := Camera(p))
  }

  /** The constructor: a fresh game, then `loadGame` and `checkOfflineReward`. */
  function NewGame(slot: Option<Save.Stored>, now: int): (g: Game)
    ensures Save.Load(slot).None? ==> g.player.level == 1 && g.player.gold == 0 && g.stage.stage == 1 && g.stage.wave == 1
    ensures g.enemies == [] && g.bullets == [] && g.slot == slot && g.lastTime == 0.0 && !g.paused
  {
    var g0 := Game(Players.NewPlayer().(y := GroundY), [], [], Stage.CalculateWave(Stage.NewStageManager()),
                      Rebirth.NewRebirth(), Save.NewSaveManager(), slot, 0.0, false, 0.0, Feel(0, 0.0, 0), 0);
    CheckOfflineReward(LoadGame(g0), now)
  }

  /** What an autosave writes, loading restores: progression, director
      position and rebirth state survive a save and a reload. */
  lemma SaveThenLoadRestores(g: Game, now: int, other: Game)
    requires now - g.saver.lastSave >= Save.SaveInterval
    ensures var saved := AutoSave(g, now, true);
            var r := LoadGame(other.(slot := saved.slot));
            && r.player.level == g.player.level && r.player.exp == g.player.exp && r.player.gold == g.player.gold
            && r.player.hp == g.player.hp && r.player.shield == g.player.shield
            && r.player.totalKills == g.player.totalKills && r.player.unlockedWeapons == g.player.unlockedWeapons
            && r.player.weapon.id == g.player.weapon.id && r.player.weapon.level == g.player.weapon.level
            && r.stage.stage == g.stage.stage && r.stage.wave == g.stage.wave
            && r.rebirth == g.rebirth
  {
    Players.RoundTrip(g.player);
    Rebirth.RoundTrip(g.rebirth);
  }

  /** `performRebirth` on the whole game: the manager's part, then a new
      player that keeps skills, best combo and equipment and starts with the
      bonus gold, a fresh director at stage 1, and an empty field. The second
      component is the souls earned. */
  function PerformRebirth(g: Game): (r: (Game, int))
    ensures r.1 == Rebirth.CalculateSouls(g.stage.stage, g.player.totalKills)
    ensures r.0.rebirth == Rebirth.PerformRebirth(g.rebirth, g.stage.stage, g.player.totalKills).0
  {
    var (rm, souls) := Rebirth.PerformRebirth(g.rebirth, g.stage.stage, g.player.totalKills);
    var skills := Skills.Deserialize(Some(Skills.Serialize(g.player.skills)));
    var (eq, counter) := Equipment.Deserialize(Some(Equipment.Serialize(g.player.equipment)), g.equipCounter);
    var p := Players.NewPlayer().(y := GroundY, skills := skills,
                                  combo := Combo.NewCombo().(bestCombo := g.player.combo.bestCombo),
                                  equipment := eq, gold := rm.bonuses.startGold);
    (g.(player := p, rebirth := rm, stage := Stage.CalculateWave(Stage.NewStageManager()),
        enemies := [], bullets := [], cameraX := 0.0, equipCounter := counter), souls)
  }

  /** Rebirth keeps exactly the skills, the best combo and the equipment, and
      resets level, experience, hp, gold (to the start bonus), weapon, world
      position, stage and field. */
  lemma RebirthKeepsAndResets(g: Game)
    requires forall id: Skills.SkillId :: id in g.player.skills.levels
    ensures var (r, _) := PerformRebirth(g);
            && r.player.skills == g.player.skills
            && r.player.combo.bestCombo == g.player.combo.bestCombo && r.player.combo.count == 0
            && r.player.equipment == g.player.equipment
            && r.player.level == 1 && r.player.exp == 0 && r.player.hp == 100.0 && r.player.totalKills == 0
            && r.player.gold == Rebirth.BonusesFor(g.rebirth.rebirthCount + 1).startGold
            && r.player.weapon == Weapons.NewWeapon(Weapons.Pistol) && r.player.worldX == Players.StartX
            && r.stage.stage == 1 && r.stage.wave == 1 && r.enemies == [] && r.bullets == [] && r.cameraX == 0.0
            && r.rebirth.rebirthCount == g.rebirth.rebirthCount + 1
  {
    Skills.RoundTrip(g.player.skills);
    Equipment.RoundTrip(g.player.equipment, g.equipCounter);
  }
}

=== FILE: players.dfy ===
/** The `Player`: experience and levels, shield-first damage, shield
    regeneration, automatic fire and persistence. The player also carries
    its skills, combo record and equipment, which the Player constructor in
    the source never creates although the rebirth and game code read them;
    here a new player starts with fresh managers. The experience threshold
    is always `floor(100 * 1.2^(level - 1))`, so it is computed from the
    level rather than stored. */
module Players {
  import opened Prelude
  import Weapons
  import Skills
  import Combo
  import Equipment

  const StartX := 140.0
  const WalkSpeed := 1.5
  const Width := 92
  const Height := 120
  const HurtFrames := 10

  datatype Player = Player(
    x: real, worldX: real, y: real, isWalking: bool,
    level: Pos, exp: int,
    maxHp: int, hp: real, maxShield: int, shield: real,
    gold: int, totalKills: int,
    weapon: Weapons.WeaponInstance, unlockedWeapons: set<Weapons.WeaponId>,
    fireTimer: real, isHurt: bool, hurtTimer: int,
    skills: Skills.SkillManager, combo: Combo.ComboManager, equipment: Equipment.EquipmentManager)

  /** Experience needed to leave `level`. */
  function ExpToNext(level: Pos): (n: int)
    ensures n >= 100
    ensures level == 1 ==> n == 100
  {
    PowAtLeastOne(1.2, level - 1);
    (100.0 * Pow(1.2, level - 1)).Floor
  }

  /** Each level needs at least 20 more experience than the one before. */
  lemma ExpToNextGrows(level: Pos)
    ensures ExpToNext(level + 1) >= ExpToNext(level) + 20
  {
    var p := Pow(1.2, level - 1);
    PowAtLeastOne(1.2, level - 1);
    assert Pow(1.2, level) == 1.2 * p;
    assert 100.0 * (1.2 * p) == 100.0 * p + 20.0 * p;
    assert 100.0 * (1.2 * p) >= 100.0 * p + 20.0;
    FloorMonotone(100.0 * p + 20.0, 100.0 * (1.2 * p));
    FloorShift(100.0 * p, 20);
  }

  /** Total experience spent to reach `level` from level 1. */
  function CumExp(level: Pos): int
  {
    if level == 1 then 0 else CumExp(level - 1) + ExpToNext(level - 1)
  }

  /** Climbing from `a` to a higher `b` costs at least the whole threshold of `a`. */
  lemma {:induction false} CumExpGap(a: Pos, b: Pos)
    requires a < b
    ensures CumExp(b) >= CumExp(a) + ExpToNext(a)
    decreases b - a
  {
    if b > a + 1 {
      CumExpGap(a, b - 1);
      assert CumExp(b) == CumExp(b - 1) + ExpToNext(b - 1);
    }
  }

  /** A level and a leftover within that level's threshold are determined by
      the total experience they represent. */
  lemma CanonicalLevelUnique(l1: Pos, e1: int, l2: Pos, e2: int)
    requires 0 <= e1 < ExpToNext(l1) && 0 <= e2 < ExpToNext(l2)
    requires CumExp(l1) + e1 == CumExp(l2) + e2
    ensures l1 == l2 && e1 == e2
  {
    if l1 < l2 { CumExpGap(l1, l2); }
    else if l2 < l1 { CumExpGap(l2, l1); }
  }

  function NewPlayer(): (p: Player)
    ensures p.level == 1 && p.exp == 0 && p.gold == 0 && p.totalKills == 0
    ensures p.hp == 100.0 && p.maxHp == 100 && p.shield == 30.0 && p.maxShield == 30
    ensures p.worldX == StartX && p.x == StartX
    ensures p.weapon == Weapons.NewWeapon(Weapons.Pistol) && p.unlockedWeapons == {Weapons.Pistol}
  {
    Player(StartX, StartX, 0.0, false, 1, 0, 100, 100.0, 30, 30.0, 0, 0,
           Weapons.NewWeapon(Weapons.Pistol), {Weapons.Pistol}, 0.0, false, 0,
           Skills.NewSkills(), Combo.NewCombo(), Equipment.NewEquipment())
  }

  /** The player's invariant: experience within the current level, hp and
      its maximum not negative, shield within [0, maxShield], a consistent weapon. */
  predicate Valid(p: Player)
  {
    && 0 <= p.exp < ExpToNext(p.level)
    && 0 <= p.maxHp && 0.0 <= p.hp
    && 0.0 <= p.shield <= p.maxShield as real
    && Weapons.Valid(p.weapon)
  }

  lemma NewPlayerValid()
    ensures Valid(NewPlayer())
  {
  }

  /** Damage per bullet: the weapon's damage plus two per level. */
  function AttackDamage(p: Player): (d: int)
    ensures d >= p.weapon.BaseDamage() + 2
  {
    Weapons.Damage(p.weapon) + 2 * p.level
  }

  /** A level-up adds exactly two points of damage per bullet. */
  lemma LevelUpAddsTwoDamage(p: Player)
    ensures AttackDamage(LevelUp(p)) == AttackDamage(p) + 2
  {
  }

  /** Upgrading the weapon raises the damage per bullet. */
  lemma WeaponUpgradeRaisesAttackDamage(p: Player)
    ensures AttackDamage(p.(weapon := Weapons.Upgrade(p.weapon))) > AttackDamage(p)
  {
    Weapons.UpgradeRaisesDamage(p.weapon);
  }

  function LevelUp(p: Player): (r: Player)
    ensures r.level == p.level + 1
    ensures r.maxHp == p.maxHp + 10 && r.hp == r.maxHp as real
    ensures r.maxShield == p.maxShield + 5 && r.shield == r.maxShield as real
    ensures r == p.(level := r.level, maxHp := r.maxHp, hp := r.hp, maxShield := r.maxShield, shield := r.shield)
  {
    p.(level := p.level + 1, maxHp := p.maxHp + 10, hp := (p.maxHp + 10) as real,
       maxShield := p.maxShield + 5, shield := (p.maxShield + 5) as real)
  }

  /** The `while` loop of `addExp`: level up while the pool covers the threshold. */
  function Climb(p: Player): (r: Player)
    ensures r.level >= p.level
    ensures r.exp < ExpToNext(r.level)
    ensures p.exp >= 0 ==> r.exp >= 0
    ensures CumExp(r.level) + r.exp == CumExp(p.level) + p.exp
    ensures r.maxHp == p.maxHp + 10 * (r.level - p.level)
    ensures r.maxShield == p.maxShield + 5 * (r.level - p.level)
    ensures r.level == p.level ==> r == p
    ensures r.level > p.level ==> r.hp == r.maxHp as real && r.shield == r.maxShield as real
    ensures r == p.(level := r.level, exp := r.exp, maxHp := r.maxHp, hp := r.hp, maxShield := r.maxShield, shield := r.shield)
    decreases p.exp
  {
    var need := ExpToNext(p.level);
    if p.exp >= need then
      var q := LevelUp(p.(exp := p.exp - need));
      assert CumExp(q.level) == CumExp(p.level) + need;
      Climb(q)
    else p
  }

  function AddExp(p: Player, amount: int): (r: Player)
    ensures r.level >= p.level
    ensures p.exp + amount >= 0 ==> 0 <= r.exp < ExpToNext(r.level)
    ensures CumExp(r.level) + r.exp == CumExp(p.level) + p.exp + amount
    ensures r.maxHp == p.maxHp + 10 * (r.level - p.level)
    ensures r.maxShield == p.maxShield + 5 * (r.level - p.level)
    ensures r == p.(level := r.level, exp := r.exp, maxHp := r.maxHp, hp := r.hp, maxShield := r.maxShield, shield := r.shield)
  {
    Climb(p.(exp := p.exp + amount))
  }

  /** Adding experience keeps the player's invariant. */
  lemma AddExpKeepsValid(p: Player, amount: int)
    requires Valid(p) && amount >= 0
    ensures Valid(AddExp(p, amount))
  {
  }

  /** Gaining experience adds two points of damage per bullet for every
      level it climbs, whatever the weapon. */
  lemma AddExpRaisesAttackDamage(p: Player, amount: int)
    ensures AttackDamage(AddExp(p, amount)) == AttackDamage(p) + 2 * (AddExp(p, amount).level - p.level)
  {
  }

  /** Two grants of experience end where one grant of their sum ends. */
  lemma AddExpSplits(p: Player, a: int, b: int)
    requires p.exp >= 0 && a >= 0 && b >= 0
    ensures AddExp(AddExp(p, a), b).level == AddExp(p, a + b).level
    ensures AddExp(AddExp(p, a), b).exp == AddExp(p, a + b).exp
    ensures AddExp(AddExp(p, a), b).maxHp == AddExp(p, a + b).maxHp
  {
    var r1 := AddExp(AddExp(p, a), b);
    var r2 := AddExp(p, a + b);
    CanonicalLevelUnique(r1.level, r1.exp, r2.level, r2.exp);
  }

  /** Experience worth the rest of this level, all of the next, and a bit
      more gives exactly two level-ups and carries the bit over. */
  lemma TwoLevelUps(p: Player, rest: int)
    requires 0 <= p.exp < ExpToNext(p.level)
    requires 0 <= rest < ExpToNext(p.level + 2)
    ensures var r := AddExp(p, ExpToNext(p.level) - p.exp + ExpToNext(p.level + 1) + rest);
            r.level == p.level + 2 && r.exp == rest && r.maxHp == p.maxHp + 20
  {
    var a := ExpToNext(p.level) - p.exp + ExpToNext(p.level + 1) + rest;
    var r := AddExp(p, a);
    assert CumExp(p.level + 2) == CumExp(p.level) + ExpToNext(p.level) + ExpToNext(p.level + 1) by {
      assert CumExp(p.level + 1) == CumExp(p.level) + ExpToNext(p.level);
    }
    CanonicalLevelUnique(r.level, r.exp, p.level + 2, rest);
  }

  /** The shield soaks damage first; hp loses the rest, floored at 0. */
  function TakeDamage(p: Player, amount: real): (r: Player)
    ensures r.isHurt && r.hurtTimer == HurtFrames
    ensures r.hp >= 0.0
    ensures p.shield > 0.0 ==> r.shield == p.shield - MinR(p.shield, amount)
    ensures p.shield > 0.0 ==> r.hp == MaxR(0.0, p.hp - (amount - MinR(p.shield, amount)))
    ensures p.shield <= 0.0 ==> r.shield == p.shield && r.hp == MaxR(0.0, p.hp - amount)
    ensures r == p.(hp := r.hp, shield := r.shield, isHurt := true, hurtTimer := HurtFrames)
  {
    var absorbed := if p.shield > 0.0 then MinR(p.shield, amount) else 0.0;
    var hp := p.hp - (amount - absorbed);
    p.(shield := p.shield - absorbed, hp := if hp <= 0.0 then 0.0 else hp, isHurt := true, hurtTimer := HurtFrames)
  }

  /** Unless hp bottoms out, a hit removes exactly its amount from hp and
      shield together, and the shield never goes negative. */
  lemma DamageIsConserved(p: Player, amount: real)
    requires Valid(p) && amount >= 0.0
    ensures var r := TakeDamage(p, amount);
            && Valid(r.(isHurt := p.isHurt, hurtTimer := p.hurtTimer))
            && r.shield >= 0.0
            && (r.hp > 0.0 ==> (p.hp + p.shield) - (r.hp + r.shield) == amount)
            && (amount <= p.shield ==> r.hp == p.hp)
  {
  }

  /** Regenerate 0.01 shield per millisecond up to `maxShield`. */
  function RegenShield(p: Player, dt: real): (r: Player)
    ensures p.shield < p.maxShield as real ==> r.shield == MinR(p.maxShield as real, p.shield + 0.01 * dt)
    ensures p.shield >= p.maxShield as real ==> r == p
    ensures r == p.(shield := r.shield)
  {
    if p.shield < p.maxShield as real then p.(shield := MinR(p.maxShield as real, p.shield + 0.01 * dt)) else p
  }

  /** Regeneration never pushes the shield past its maximum and never takes
      any away when time moves forward. */
  lemma RegenNeverOverfills(p: Player, dt: real)
    requires p.shield <= p.maxShield as real && dt >= 0.0
    ensures p.shield <= RegenShield(p, dt).shield <= p.maxShield as real
  {
  }

  /** `fire`: shoot once; a shot that leaves the barrel releases
      `bulletCount` bullets, each carrying `AttackDamage`. */
  function Fire(p: Player): (r: (Player, nat))
    ensures r.0 == p.(weapon := Weapons.Shoot(p.weapon).0)
    ensures !Weapons.Shoot(p.weapon).1 ==> r.1 == 0 && r.0 == p
    ensures Weapons.Shoot(p.weapon).1 ==> r.1 == p.weapon.BulletCount() && r.1 >= 1
    ensures AttackDamage(r.0) == AttackDamage(p)
  {
    var (w, ok) := Weapons.Shoot(p.weapon);
    Weapons.TableShape(p.weapon.id);
    (p.(weapon := w), if ok then p.weapon.BulletCount() else 0)
  }

  /** One frame of `update`: walk, hurt timer, reload, automatic fire
      (only with enemies present) and shield regeneration. The second
      component is the number of bullets fired. */
  function Update(p: Player, dt: real, enemyCount: nat): (r: (Player, nat))
    ensures r.0.worldX == (if p.isWalking then p.worldX + WalkSpeed * (dt / 16.0) else p.worldX)
    ensures r.0.x == r.0.worldX
    ensures r.0.level == p.level && r.0.exp == p.exp && r.0.hp == p.hp && r.0.gold == p.gold
    ensures r.0.weapon.id == p.weapon.id && r.0.weapon.level == p.weapon.level
    ensures r.1 > 0 ==> enemyCount > 0 && p.fireTimer - dt <= 0.0
    ensures enemyCount > 0 && p.fireTimer - dt <= 0.0 ==> r.0.fireTimer == Weapons.FireRate(p.weapon)
    ensures !(enemyCount > 0 && p.fireTimer - dt <= 0.0) ==> r.0.fireTimer == p.fireTimer - dt && r.1 == 0
    ensures p.isHurt && p.hurtTimer - 1 <= 0 ==> !r.0.isHurt
    ensures !p.isHurt ==> !r.0.isHurt && r.0.hurtTimer == p.hurtTimer
  {
    var worldX := if p.isWalking then p.worldX + WalkSpeed * (dt / 16.0) else p.worldX;
    var p1 := p.(worldX := worldX, x := worldX);
    var p2 := if p1.isHurt then
                var t := p1.hurtTimer - 1;
                p1.(hurtTimer := t, isHurt := if t <= 0 then false else p1.isHurt)
              else p1;
    var p3 := p2.(weapon := Weapons.UpdateReload(p2.weapon, dt));
    var timer := p3.fireTimer - dt;
    var (p4, shots) :=
      if timer <= 0.0 && enemyCount > 0 then
        var (q, n) := Fire(p3.(fireTimer := timer));
        (q.(fireTimer := Weapons.FireRate(q.weapon)), n)
      else (p3.(fireTimer := timer), 0);
    (RegenShield(p4, dt), shots)
  }

  /** After any shot the weapon's cadence (at least 50 ms) must elapse before
      the next: a frame shorter than 50 ms right after firing fires nothing. */
  lemma FireIsRateLimited(p: Player, dt: real, n: nat, dt2: real, n2: nat)
    requires Update(p, dt, n).1 > 0 && 0.0 <= dt2 < 50.0
    ensures Update(Update(p, dt, n).0, dt2, n2).1 == 0
  {
  }

  /** A frame keeps the invariant. */
  lemma UpdateKeepsValid(p: Player, dt: real, enemyCount: nat)
    requires Valid(p) && dt >= 0.0
    ensures Valid(Update(p, dt, enemyCount).0)
  {
    Weapons.UpdateReloadKeepsValid(p.weapon, dt);
    Weapons.ShootKeepsValid(Weapons.UpdateReload(p.weapon, dt));
  }

  /** Where fired bullets start: the gun tip of the sprite, given the
      breathing offset of this frame (a sine, so passed in). The recoil
      offset of 6 is set just before the tip is computed. */
  function GunTip(p: Player, breath: real): (t: (real, real))
    ensures t.0 == p.x + 44.6 && t.1 == p.y - 62.4 + breath
  {
    (p.x + Width as real * 0.55 - 6.0, p.y - Height as real * 0.52 + breath)
  }

  /** Maximum hp including the equipment's hp bonus, the target of a revive. */
  function EffectiveMaxHp(p: Player): (n: int)
    ensures n == p.maxHp + Equipment.StatSum(Equipment.AllSlots, p.equipment.equipped, Equipment.MaxHp)
  {
    p.maxHp + Equipment.TotalBonuses(p.equipment).maxHp
  }

  // ---- persistence ----

  /** The saved player. Skills, combo and equipment are not part of it. A
      missing kill count is `None`. */
  datatype PlayerData = PlayerData(
    level: Pos, exp: int, maxHp: int, hp: real, maxShield: int, shield: real,
    gold: int, totalKills: Option<int>, weapon: Weapons.WeaponData,
    unlockedWeapons: set<Weapons.WeaponId>, worldX: real)

  function Serialize(p: Player): (d: PlayerData)
    ensures d.level == p.level && d.exp == p.exp && d.gold == p.gold && d.totalKills == Some(p.totalKills)
    ensures d.hp == p.hp && d.maxHp == p.maxHp && d.shield == p.shield && d.maxShield == p.maxShield
    ensures d.weapon == Weapons.Serialize(p.weapon) && d.unlockedWeapons == p.unlockedWeapons && d.worldX == p.worldX
  {
    PlayerData(p.level, p.exp, p.maxHp, p.hp, p.maxShield, p.shield, p.gold, Some(p.totalKills),
               Weapons.Serialize(p.weapon), p.unlockedWeapons, p.worldX)
  }

  /** A new player overwritten by the saved fields; a kill count that is
      missing reads as 0 and a world position of 0 (falsy) as 140. */
  function Deserialize(d: PlayerData): (p: Player)
    ensures p.level == d.level && p.exp == d.exp && p.gold == d.gold
    ensures p.totalKills == (if d.totalKills.Some? then d.totalKills.value else 0)
    ensures p.worldX == (if d.worldX == 0.0 then StartX else d.worldX) && p.x == p.worldX
    ensures p.weapon == Weapons.Deserialize(d.weapon) && p.unlockedWeapons == d.unlockedWeapons
    ensures p.skills == Skills.NewSkills() && p.combo == Combo.NewCombo() && p.equipment == Equipment.NewEquipment()
  {
    var wx := if d.worldX == 0.0 then StartX else d.worldX;
    NewPlayer().(level := d.level, exp := d.exp, maxHp := d.maxHp, hp := d.hp, maxShield := d.maxShield,
                 shield := d.shield, gold := d.gold,
                 totalKills := if d.totalKills.Some? then d.totalKills.value else 0,
                 weapon := Weapons.Deserialize(d.weapon), unlockedWeapons := d.unlockedWeapons,
                 worldX := wx, x := wx)
  }

  /** Saving and loading keeps the progression fields and the weapon's id and
      level (with a full magazine); the threshold follows from the level. A
      world position of 0 comes back as 140. */
  lemma RoundTrip(p: Player)
    ensures var q := Deserialize(Serialize(p));
            && q.level == p.level && q.exp == p.exp && ExpToNext(q.level) == ExpToNext(p.level)
            && q.hp == p.hp && q.maxHp == p.maxHp && q.shield == p.shield && q.maxShield == p.maxShield
            && q.gold == p.gold && q.totalKills == p.totalKills && q.unlockedWeapons == p.unlockedWeapons
            && q.weapon == p.weapon.(currentAmmo := p.weapon.MagSize(), isReloading := false, reloadTimer := 0.0)
            && (p.worldX != 0.0 ==> q.worldX == p.worldX)
            && (p.worldX == 0.0 ==> q.worldX == StartX)
  {
    Weapons.RoundTrip(p.weapon);
  }

  /** A loaded player satisfies the invariant whenever the saved numbers do. */
  lemma DeserializeValid(d: PlayerData)
    requires 0 <= d.exp < ExpToNext(d.level) && 0 <= d.maxHp && 0.0 <= d.hp && 0.0 <= d.shield <= d.maxShield as real
    ensures Valid(Deserialize(d))
  {
  }
}

=== FILE: prelude.dfy ===
/** Shared vocabulary for the game model: an optional value (the source's
    `null`/`undefined`), a positive-integer type for levels, and the few
    numeric helpers the formulas use (`Math.pow` with an integer exponent,
    `Math.min`, `Math.max`). JavaScript numbers that can become fractional
    are modelled as exact `real`s; `Math.floor` is `.Floor`. */
module Prelude {

  datatype Option<+T> = None | Some(value: T)

  /** A `Math.random()` draw: a real in [0, 1). */
  type UnitReal = r: real | 0.0 <= r < 1.0 witness 0.0

  /** Levels start at 1 and only ever grow. */
  type Pos = x: int | x >= 1 witness 1

  function MinR(a: real, b: real): real { if a <= b then a else b }
  function MaxR(a: real, b: real): real { if a >= b then a else b }
  function MinI(a: int, b: int): int { if a <= b then a else b }
  function MaxI(a: int, b: int): int { if a >= b then a else b }

  /** `Math.pow(b, n)` for a natural exponent. */
  function Pow(b: real, n: nat): real
  {
    if n == 0 then 1.0 else b * Pow(b, n - 1)
  }

  lemma {:induction false} PowAtLeastOne(b: real, n: nat)
    requires b >= 1.0
    ensures Pow(b, n) >= 1.0
  {
    if n > 0 {
      PowAtLeastOne(b, n - 1);
      assert b * Pow(b, n - 1) >= 1.0 * Pow(b, n - 1);
    }
  }

  lemma {:induction false} PowInUnit(b: real, n: nat)
    requires 0.0 < b <= 1.0
    ensures 0.0 < Pow(b, n) <= 1.0
  {
    if n > 0 {
      PowInUnit(b, n - 1);
      assert b * Pow(b, n - 1) <= 1.0 * Pow(b, n - 1);
    }
  }

  /** Taking one more factor of a base at most 1 never increases the power. */
  lemma PowStepDown(b: real, n: nat)
    requires 0.0 < b <= 1.0
    ensures Pow(b, n + 1) <= Pow(b, n)
  {
    PowInUnit(b, n);
    assert Pow(b, n + 1) == b * Pow(b, n);
  }

  /** Floors of reals that differ by a whole amount differ by that amount. */
  lemma FloorShift(x: real, k: int)
    ensures (x + k as real).Floor == x.Floor + k
  {
  }

  lemma FloorMonotone(x: real, y: real)
    requires x <= y
    ensures x.Floor <= y.Floor
  {
  }
}

=== FILE: rebirth.dfy ===
/** `RebirthManager`: the prestige layer. Rebirth needs stage 10, pays souls
    for the run, and recomputes permanent multipliers from the rebirth count;
    souls buy extra permanent increments. The reset of the player and the
    stage that accompanies a rebirth is in the Game module. */
module Rebirth {
  import opened Prelude

  datatype PermanentBonuses = PermanentBonuses(
    damageMultiplier: real, goldMultiplier: real, expMultiplier: real, startGold: int)

  const DefaultBonuses := PermanentBonuses(1.0, 1.0, 1.0, 0)

  datatype RebirthManager = RebirthManager(rebirthCount: int, totalSouls: int, bonuses: PermanentBonuses)

  function NewRebirth(): (rm: RebirthManager)
    ensures rm.rebirthCount == 0 && rm.totalSouls == 0 && rm.bonuses == DefaultBonuses
  {
    RebirthManager(0, 0, DefaultBonuses)
  }

  const MinStageToRebirth := 10

  function CanRebirth(stage: int): (b: bool)
    ensures b <==> stage >= 10
  {
    stage >= MinStageToRebirth
  }

  /** Souls for ending a run: two per stage plus one per hundred kills, at least one. */
  function CalculateSouls(stage: int, totalKills: int): (n: int)
    ensures n >= 1
    ensures n >= (stage as real * 2.0 + totalKills as real * 0.01).Floor
    ensures n == 1 || n == (stage as real * 2.0 + totalKills as real * 0.01).Floor
  {
    MaxI(1, (stage as real * 2.0 + totalKills as real * 0.01).Floor)
  }

  /** The permanent bonuses earned by `rc` rebirths. */
  function BonusesFor(rc: int): (b: PermanentBonuses)
    ensures rc == 0 ==> b == DefaultBonuses
  {
    PermanentBonuses(1.0 + rc as real * 0.15, 1.0 + rc as real * 0.2, 1.0 + rc as real * 0.1, rc * 100)
  }

  /** Recompute the bonuses from the count alone, discarding soul purchases. */
  function RecalcBonuses(rm: RebirthManager): (r: RebirthManager)
    ensures r.rebirthCount == rm.rebirthCount && r.totalSouls == rm.totalSouls
    ensures r.bonuses == BonusesFor(rm.rebirthCount)
  {
    rm.(bonuses := BonusesFor(rm.rebirthCount))
  }

  /** The manager's part of `performRebirth`: no stage check is made here. */
  function PerformRebirth(rm: RebirthManager, stage: int, totalKills: int): (r: (RebirthManager, int))
    ensures r.1 == CalculateSouls(stage, totalKills)
    ensures r.0.rebirthCount == rm.rebirthCount + 1
    ensures r.0.totalSouls == rm.totalSouls + r.1
    ensures r.0.bonuses == BonusesFor(rm.rebirthCount + 1)
  {
    var souls := CalculateSouls(stage, totalKills);
    (RecalcBonuses(rm.(rebirthCount := rm.rebirthCount + 1, totalSouls := rm.totalSouls + souls)), souls)
  }

  // ---- soul shop ----

  datatype SoulUpgrade = SoulDmg | SoulGold | SoulExp | SoulStartGold

  function UpgradeName(u: SoulUpgrade): string
  {
    match u
    case SoulDmg => "soulDmg"
    case SoulGold => "soulGold"
    case SoulExp => "soulExp"
    case SoulStartGold => "soulStartGold"
  }

  /** `find` over the shop list by id. */
  function FindUpgrade(id: string): (r: Option<SoulUpgrade>)
    ensures r.Some? ==> UpgradeName(r.value) == id
    ensures r.None? ==> forall u :: UpgradeName(u) != id
  {
    if id == "soulDmg" then Some(SoulDmg)
    else if id == "soulGold" then Some(SoulGold)
    else if id == "soulExp" then Some(SoulExp)
    else if id == "soulStartGold" then Some(SoulStartGold)
    else None
  }

  function SoulCost(u: SoulUpgrade, rc: int): int
  {
    match u
    case SoulDmg => 10 + rc * 5
    case SoulGold => 8 + rc * 4
    case SoulExp => 8 + rc * 4
    case SoulStartGold => 15 + rc * 5
  }

  function ApplyUpgrade(u: SoulUpgrade, b: PermanentBonuses): (r: PermanentBonuses)
    ensures r.damageMultiplier >= b.damageMultiplier && r.goldMultiplier >= b.goldMultiplier
    ensures r.expMultiplier >= b.expMultiplier && r.startGold >= b.startGold
    ensures r.damageMultiplier != b.damageMultiplier <==> u == SoulDmg
    ensures r.goldMultiplier != b.goldMultiplier <==> u == SoulGold
    ensures r.expMultiplier != b.expMultiplier <==> u == SoulExp
    ensures r.startGold != b.startGold <==> u == SoulStartGold
  {
    match u
    case SoulDmg => b.(damageMultiplier := b.damageMultiplier + 0.1)
    case SoulGold => b.(goldMultiplier := b.goldMultiplier + 0.15)
    case SoulExp => b.(expMultiplier := b.expMultiplier + 0.1)
    case SoulStartGold => b.(startGold := b.startGold + 500)
  }

  function BuySoulUpgrade(rm: RebirthManager, id: string): (r: (RebirthManager, bool))
    ensures !r.1 ==> r.0 == rm
    ensures r.1 <==> FindUpgrade(id).Some? && rm.totalSouls >= SoulCost(FindUpgrade(id).value, rm.rebirthCount)
    ensures r.1 ==> var u := FindUpgrade(id).value;
                    && r.0.rebirthCount == rm.rebirthCount
                    && r.0.totalSouls == rm.totalSouls - SoulCost(u, rm.rebirthCount)
                    && r.0.bonuses == ApplyUpgrade(u, rm.bonuses)
  {
    match FindUpgrade(id)
    case None => (rm, false)
    case Some(u) =>
      var cost := SoulCost(u, rm.rebirthCount);
      if rm.totalSouls < cost then (rm, false)
      else (rm.(totalSouls := rm.totalSouls - cost, bonuses := ApplyUpgrade(u, rm.bonuses)), true)
  }

  /** Each purchase raises exactly one bonus by its fixed step, never lowers
      any, and leaves the souls non-negative when they were. */
  lemma PurchaseRaisesOneBonus(rm: RebirthManager, id: string)
    requires rm.totalSouls >= 0
    ensures var (r, ok) := BuySoulUpgrade(rm, id);
            && r.totalSouls >= 0
            && r.bonuses.damageMultiplier >= rm.bonuses.damageMultiplier
            && r.bonuses.goldMultiplier >= rm.bonuses.goldMultiplier
            && r.bonuses.expMultiplier >= rm.bonuses.expMultiplier
            && r.bonuses.startGold >= rm.bonuses.startGold
            && (ok ==> r.bonuses != rm.bonuses)
  {
  }

  /** A later rebirth overwrites what the soul shop added. */
  lemma RebirthForgetsPurchases(rm: RebirthManager, id: string, stage: int, kills: int)
    ensures PerformRebirth(BuySoulUpgrade(rm, id).0, stage, kills).0.bonuses == PerformRebirth(rm, stage, kills).0.bonuses
  {
  }

  /** Rebirth bonuses never fall as the count grows. */
  lemma BonusesGrowWithCount(a: int, b: int)
    requires 0 <= a <= b
    ensures BonusesFor(a).damageMultiplier <= BonusesFor(b).damageMultiplier
    ensures BonusesFor(a).goldMultiplier <= BonusesFor(b).goldMultiplier
    ensures BonusesFor(a).expMultiplier <= BonusesFor(b).expMultiplier
    ensures BonusesFor(a).startGold <= BonusesFor(b).startGold
  {
  }

  // ---- persistence ----

  /** Saved bonuses: each key may be missing and then keeps its default. */
  datatype BonusData = BonusData(damageMultiplier: Option<real>, goldMultiplier: Option<real>,
                                 expMultiplier: Option<real>, startGold: Option<int>)

  /** A saved manager; missing fields are `None`. */
  datatype RebirthData = RebirthData(rebirthCount: Option<int>, totalSouls: Option<int>, bonuses: Option<BonusData>)

  function Serialize(rm: RebirthManager): (d: RebirthData)
    ensures d.rebirthCount == Some(rm.rebirthCount) && d.totalSouls == Some(rm.totalSouls)
    ensures d.bonuses == Some(BonusData(Some(rm.bonuses.damageMultiplier), Some(rm.bonuses.goldMultiplier),
                                        Some(rm.bonuses.expMultiplier), Some(rm.bonuses.startGold)))
  {
    var b := rm.bonuses;
    RebirthData(Some(rm.rebirthCount), Some(rm.totalSouls),
                Some(BonusData(Some(b.damageMultiplier), Some(b.goldMultiplier), Some(b.expMultiplier), Some(b.startGold))))
  }

  /** `x || 0` for a saved number: a missing value reads as 0. */
  function OrZero(o: Option<int>): (n: int)
    ensures o.Some? ==> n == o.value
    ensures o.None? ==> n == 0
  {
    if o.Some? then o.value else 0
  }

  function OrElse<T>(o: Option<T>, d: T): T
  {
    if o.Some? then o.value else d
  }

  /** The object spread `{ ...defaults, ...saved }`: saved keys win. */
  function MergeBonuses(base: PermanentBonuses, d: BonusData): (b: PermanentBonuses)
    ensures d.damageMultiplier.None? ==> b.damageMultiplier == base.damageMultiplier
    ensures d.startGold.None? ==> b.startGold == base.startGold
    ensures d.damageMultiplier.Some? ==> b.damageMultiplier == d.damageMultiplier.value
    ensures d.startGold.Some? ==> b.startGold == d.startGold.value
    ensures b.goldMultiplier == OrElse(d.goldMultiplier, base.goldMultiplier)
    ensures b.expMultiplier == OrElse(d.expMultiplier, base.expMultiplier)
    ensures d.goldMultiplier.Some? ==> b.goldMultiplier == d.goldMultiplier.value
    ensures d.expMultiplier.Some? ==> b.expMultiplier == d.expMultiplier.value
    ensures d.goldMultiplier.None? ==> b.goldMultiplier == base.goldMultiplier
    ensures d.expMultiplier.None? ==> b.expMultiplier == base.expMultiplier
  {
    PermanentBonuses(OrElse(d.damageMultiplier, base.damageMultiplier), OrElse(d.goldMultiplier, base.goldMultiplier),
                     OrElse(d.expMultiplier, base.expMultiplier), OrElse(d.startGold, base.startGold))
  }

  function Deserialize(data: Option<RebirthData>): (rm: RebirthManager)
    ensures data.None? ==> rm == NewRebirth()
    ensures data.Some? ==> rm.rebirthCount == OrZero(data.value.rebirthCount)
                           && rm.totalSouls == OrZero(data.value.totalSouls)
    ensures data.Some? && data.value.bonuses.None? ==> rm.bonuses == DefaultBonuses
    ensures data.Some? && data.value.bonuses.Some? ==> rm.bonuses == MergeBonuses(DefaultBonuses, data.value.bonuses.value)
  {
    match data
    case None => NewRebirth()
    case Some(d) =>
      var b := if d.bonuses.Some? then MergeBonuses(DefaultBonuses, d.bonuses.value) else DefaultBonuses;
      RebirthManager(OrZero(d.rebirthCount), OrZero(d.totalSouls), b)
  }

  /** Saving and loading gives back the same count, souls and bonuses. */
  lemma RoundTrip(rm: RebirthManager)
    ensures Deserialize(Some(Serialize(rm))) == rm
  {
  }

  /** A save holding only some bonus keys keeps the defaults for the rest. */
  lemma PartialBonusesKeepDefaults(count: int)
    ensures var rm := Deserialize(Some(RebirthData(Some(count), None, Some(BonusData(None, Some(2.0), None, None)))));
            rm.rebirthCount == count && rm.totalSouls == 0
            && rm.bonuses == PermanentBonuses(1.0, 2.0, 1.0, 0)
  {
  }
}

=== FILE: save.dfy ===
/** `SaveManager`: one save slot in browser storage. A save is a versioned
    record of the player, the stage and the rebirth state; loading refuses
    anything it cannot parse or whose version is not 1 or 2. The storage
    slot is an `Option` (nothing stored, or a string that either parses to a
    save or does not), and the clock is a parameter. */
module Save {
  import opened Prelude
  import Players
  import Stage
  import Rebirth

  const SaveInterval := 30000
  const CurrentVersion := 2

  datatype SaveData = SaveData(
    version: int, timestamp: Option<int>,
    player: Players.PlayerData, stage: Stage.StageData, rebirth: Option<Rebirth.RebirthData>)

  /** What the storage slot may hold: text that does not parse, or a parsed save. */
  datatype Stored = Unparsable | Parsed(data: SaveData)

  datatype SaveManager = SaveManager(lastSave: int)

  function NewSaveManager(): (sm: SaveManager)
    ensures sm.lastSave == 0
  {
    SaveManager(0)
  }

  /** `load`: nothing stored, text that does not parse, or an unknown version
      all read as "no save". */
  function Load(slot: Option<Stored>): (r: Option<SaveData>)
    ensures r.Some? <==> slot.Some? && slot.value.Parsed? && slot.value.data.version in {1, 2}
    ensures r.Some? ==> r.value == slot.value.data
  {
    match slot
    case None => None
    case Some(Unparsable) => None
    case Some(Parsed(d)) => if d.version != 1 && d.version != 2 then None else Some(d)
  }

  /** The record `save` writes at time `now`. */
  function Snapshot(p: Players.PlayerData, s: Stage.StageData, rb: Rebirth.RebirthData, now: int): (d: SaveData)
    ensures d.version == CurrentVersion && d.timestamp == Some(now)
    ensures d.player == p && d.stage == s && d.rebirth == Some(rb)
  {
    SaveData(CurrentVersion, Some(now), p, s, Some(rb))
  }

  /** `save`: write the snapshot; `writeOk` is whether storage accepted it.
      Only a successful write moves `lastSave`. */
  function Save(sm: SaveManager, slot: Option<Stored>, d: SaveData, now: int, writeOk: bool)
    : (r: (SaveManager, Option<Stored>, bool))
    ensures r.2 == writeOk
    ensures writeOk ==> r.0.lastSave == now && r.1 == Some(Parsed(d))
    ensures !writeOk ==> r.0 == sm && r.1 == slot
  {
    if writeOk then (SaveManager(now), Some(Parsed(d)), true) else (sm, slot, false)
  }

  /** `autoSave`: save when at least the interval has passed since the last
      successful save. The flag says a save was attempted. */
  function AutoSave(sm: SaveManager, slot: Option<Stored>, d: SaveData, now: int, writeOk: bool)
    : (r: (SaveManager, Option<Stored>, bool))
    ensures r.2 <==> now - sm.lastSave >= SaveInterval
    ensures !r.2 ==> r.0 == sm && r.1 == slot
    ensures r.2 ==> (r.0, r.1) == (Save(sm, slot, d, now, writeOk).0, Save(sm, slot, d, now, writeOk).1)
  {
    if now - sm.lastSave >= SaveInterval then
      var (sm1, slot1, _) := Save(sm, slot, d, now, writeOk);
      (sm1, slot1, true)
    else (sm, slot, false)
  }

  /** What `save` writes, `load` reads back. */
  lemma SaveThenLoad(sm: SaveManager, slot: Option<Stored>, p: Players.PlayerData, s: Stage.StageData,
                     rb: Rebirth.RebirthData, now: int)
    ensures var d := Snapshot(p, s, rb, now);
            Load(Save(sm, slot, d, now, true).1) == Some(d)
  {
  }

  /** Two autosaves at least the interval apart: after a successful one, the
      next attempt comes no sooner than 30 seconds later. */
  lemma AutoSaveSpacing(sm: SaveManager, slot: Option<Stored>, d: SaveData, now: int, later: int, d2: SaveData, ok2: bool)
    requires AutoSave(sm, slot, d, now, true).2
    requires AutoSave(AutoSave(sm, slot, d, now, true).0, AutoSave(sm, slot, d, now, true).1, d2, later, ok2).2
    ensures later >= now + SaveInterval
  {
  }

  /** A failed write leaves the manager due, so the next frame tries again. */
  lemma FailedSaveRetries(sm: SaveManager, slot: Option<Stored>, d: SaveData, now: int, later: int, d2: SaveData, ok2: bool)
    requires AutoSave(sm, slot, d, now, false).2 && later >= now
    ensures AutoSave(AutoSave(sm, slot, d, now, false).0, slot, d2, later, ok2).2
  {
  }
}

=== FILE: skills.dfy ===
/** `SkillManager`: six passive skills, each with a level from 0 to 5, a
    geometric upgrade price and a per-level effect. The aggregate getters
    fall back to a baseline while a skill is unlearned. */
module Skills {
  import opened Prelude

  datatype SkillId = Pierce | Vampire | Explosive | Speed | CritUp | GoldBonus

  const MaxLevel := 5

  /** The key each skill is stored under. */
  function Name(id: SkillId): string
  {
    match id
    case Pierce => "pierce"
    case Vampire => "vampire"
    case Explosive => "explosive"
    case Speed => "speed"
    case CritUp => "critUp"
    case GoldBonus => "goldBonus"
  }

  function BaseCost(id: SkillId): nat
  {
    match id
    case Pierce => 200
    case Vampire => 300
    case Explosive => 500
    case Speed => 150
    case CritUp => 250
    case GoldBonus => 180
  }

  /** What one skill does at a level, as the skill table's `effect(lv)`. */
  datatype Effect =
    | PierceEffect(pierceCount: int)
    | VampireEffect(healOnKill: int)
    | ExplosiveEffect(explosionRadius: int, explosionDmg: real)
    | SpeedEffect(speedMult: real, fireRateMult: real)
    | CritEffect(critChance: real)
    | GoldEffect(goldMult: real)

  function EffectAt(id: SkillId, lv: int): Effect
  {
    match id
    case Pierce => PierceEffect(lv)
    case Vampire => VampireEffect(2 + lv * 2)
    case Explosive => ExplosiveEffect(30 + lv * 10, 0.2 + lv as real * 0.1)
    case Speed => SpeedEffect(1.0 + lv as real * 0.08, 1.0 - lv as real * 0.05)
    case CritUp => CritEffect(0.12 + lv as real * 0.06)
    case GoldBonus => GoldEffect(1.0 + lv as real * 0.15)
  }

  lemma EverySkillListed(id: SkillId)
    ensures id in {Pierce, Vampire, Explosive, Speed, CritUp, GoldBonus}
  {
    match id
    case Pierce => case Vampire => case Explosive => case Speed => case CritUp => case GoldBonus =>
  }

  datatype SkillManager = SkillManager(levels: map<SkillId, nat>)

  /** Every skill has an entry, and no entry is above the cap. */
  predicate Valid(sm: SkillManager)
  {
    forall id: SkillId :: id in sm.levels && sm.levels[id] <= MaxLevel
  }

  function NewSkills(): (sm: SkillManager)
    ensures forall id: SkillId :: id in sm.levels && sm.levels[id] == 0
  {
    var m: map<SkillId, nat> := map[Pierce := 0, Vampire := 0, Explosive := 0, Speed := 0, CritUp := 0, GoldBonus := 0];
    assert forall id: SkillId :: id in m && m[id] == 0 by {
      forall id: SkillId ensures id in m && m[id] == 0 {
        EverySkillListed(id);
      }
    }
    SkillManager(m)
  }

  /** `levels[id] || 0`. */
  function GetLevel(sm: SkillManager, id: SkillId): (lv: nat)
    ensures id in sm.levels ==> lv == sm.levels[id]
    ensures id !in sm.levels ==> lv == 0
  {
    if id in sm.levels then sm.levels[id] else 0
  }

  function GetEffect(sm: SkillManager, id: SkillId): (e: Effect)
    ensures e == EffectAt(id, GetLevel(sm, id))
  {
    var lv := GetLevel(sm, id);
    if lv == 0 then EffectAt(id, 0) else EffectAt(id, lv)
  }

  /** `floor(baseCost * 1.8^level)`. */
  function UpgradeCost(sm: SkillManager, id: SkillId): (c: int)
    ensures c >= BaseCost(id)
    ensures GetLevel(sm, id) == 0 ==> c == BaseCost(id)
  {
    PowAtLeastOne(1.8, GetLevel(sm, id));
    assert BaseCost(id) as real * Pow(1.8, GetLevel(sm, id)) >= BaseCost(id) as real * 1.0;
    (BaseCost(id) as real * Pow(1.8, GetLevel(sm, id))).Floor
  }

  function CanUpgrade(sm: SkillManager, id: SkillId, gold: int): (b: bool)
    ensures b <==> GetLevel(sm, id) < MaxLevel && gold >= UpgradeCost(sm, id)
  {
    GetLevel(sm, id) < MaxLevel && gold >= UpgradeCost(sm, id)
  }

  /** Raise one skill by a level unless it is missing or at the cap. */
  function Upgrade(sm: SkillManager, id: SkillId): (r: (SkillManager, bool))
    ensures r.1 <==> id in sm.levels && sm.levels[id] < MaxLevel
    ensures !r.1 ==> r.0 == sm
    ensures r.1 ==> r.0.levels == sm.levels[id := sm.levels[id] + 1]
    ensures forall other :: other != id ==> GetLevel(r.0, other) == GetLevel(sm, other)
    ensures Valid(sm) ==> Valid(r.0)
  {
    if id in sm.levels && sm.levels[id] < MaxLevel then
      (SkillManager(sm.levels[id := sm.levels[id] + 1]), true)
    else (sm, false)
  }

  // ---- aggregate getters ----

  function PierceCount(sm: SkillManager): (n: int)
    ensures n == GetEffect(sm, Pierce).pierceCount
  {
    GetLevel(sm, Pierce)
  }

  function HealOnKill(sm: SkillManager): (h: int)
    ensures GetLevel(sm, Vampire) == 0 ==> h == 0
    ensures GetLevel(sm, Vampire) > 0 ==> h == GetEffect(sm, Vampire).healOnKill
  {
    if GetLevel(sm, Vampire) > 0 then GetEffect(sm, Vampire).healOnKill else 0
  }

  function ExplosionData(sm: SkillManager): (d: Option<Effect>)
    ensures d.None? <==> GetLevel(sm, Explosive) == 0
    ensures d.Some? ==> d.value == GetEffect(sm, Explosive)
  {
    if GetLevel(sm, Explosive) == 0 then None else Some(GetEffect(sm, Explosive))
  }

  function SpeedMult(sm: SkillManager): (m: real)
    ensures GetLevel(sm, Speed) == 0 ==> m == 1.0
    ensures GetLevel(sm, Speed) > 0 ==> m == GetEffect(sm, Speed).speedMult
  {
    if GetLevel(sm, Speed) > 0 then GetEffect(sm, Speed).speedMult else 1.0
  }

  function FireRateMult(sm: SkillManager): (m: real)
    ensures GetLevel(sm, Speed) == 0 ==> m == 1.0
    ensures GetLevel(sm, Speed) > 0 ==> m == GetEffect(sm, Speed).fireRateMult
  {
    if GetLevel(sm, Speed) > 0 then GetEffect(sm, Speed).fireRateMult else 1.0
  }

  function CritChance(sm: SkillManager): (c: real)
    ensures GetLevel(sm, CritUp) == 0 ==> c == 0.12
    ensures GetLevel(sm, CritUp) > 0 ==> c == GetEffect(sm, CritUp).critChance
  {
    if GetLevel(sm, CritUp) > 0 then GetEffect(sm, CritUp).critChance else 0.12
  }

  function GoldMult(sm: SkillManager): (m: real)
    ensures GetLevel(sm, GoldBonus) == 0 ==> m == 1.0
    ensures GetLevel(sm, GoldBonus) > 0 ==> m == GetEffect(sm, GoldBonus).goldMult
  {
    if GetLevel(sm, GoldBonus) > 0 then GetEffect(sm, GoldBonus).goldMult else 1.0
  }

  // ---- properties ----

  /** A fresh manager reports every getter's baseline. */
  lemma FreshBaselines()
    ensures PierceCount(NewSkills()) == 0 && HealOnKill(NewSkills()) == 0
    ensures ExplosionData(NewSkills()).None?
    ensures SpeedMult(NewSkills()) == 1.0 && FireRateMult(NewSkills()) == 1.0
    ensures CritChance(NewSkills()) == 0.12 && GoldMult(NewSkills()) == 1.0
  {
  }

  /** For speed, crit and gold the baseline is the level-0 effect, so the
      `> 0` guard changes nothing; for vampire and explosive it does, since
      the level-0 effect would heal 2 and explode with radius 30. */
  lemma BaselineVersusLevelZeroEffect(sm: SkillManager)
    ensures SpeedMult(sm) == GetEffect(sm, Speed).speedMult
    ensures FireRateMult(sm) == GetEffect(sm, Speed).fireRateMult
    ensures CritChance(sm) == GetEffect(sm, CritUp).critChance
    ensures GoldMult(sm) == GetEffect(sm, GoldBonus).goldMult
    ensures GetLevel(sm, Vampire) == 0 ==> HealOnKill(sm) == 0 && GetEffect(sm, Vampire).healOnKill == 2
    ensures GetLevel(sm, Explosive) == 0 ==> GetEffect(sm, Explosive).explosionRadius == 30
  {
  }

  /** Every upgrade of a skill costs strictly more than the previous one. */
  lemma UpgradeRaisesCost(sm: SkillManager, id: SkillId)
    requires Upgrade(sm, id).1
    ensures UpgradeCost(Upgrade(sm, id).0, id) > UpgradeCost(sm, id)
  {
    var lv := GetLevel(sm, id);
    var c := BaseCost(id) as real;
    assert GetLevel(Upgrade(sm, id).0, id) == lv + 1;
    PowAtLeastOne(1.8, lv);
    var p := Pow(1.8, lv);
    assert Pow(1.8, lv + 1) == 1.8 * p;
    var x := c * p;
    var y := c * (1.8 * p);
    assert y == x + 0.8 * c * p;
    assert c >= 150.0;
    assert 0.8 * c * p >= 0.8 * c * 1.0;
    assert y >= x + 1.0;
    FloorMonotone(x + 1.0, y);
    FloorShift(x, 1);
  }

  /** Upgrading makes each getter at least as strong (fire interval at most as long). */
  lemma UpgradeStrengthens(sm: SkillManager, id: SkillId)
    ensures var r := Upgrade(sm, id).0;
            && PierceCount(r) >= PierceCount(sm) && HealOnKill(r) >= HealOnKill(sm)
            && SpeedMult(r) >= SpeedMult(sm) && FireRateMult(r) <= FireRateMult(sm)
            && CritChance(r) >= CritChance(sm) && GoldMult(r) >= GoldMult(sm)
  {
  }

  /** A skill at the cap can be neither bought nor upgraded. */
  lemma CapIsFinal(sm: SkillManager, id: SkillId, gold: int)
    requires Valid(sm) && GetLevel(sm, id) == MaxLevel
    ensures !CanUpgrade(sm, id, gold)
    ensures Upgrade(sm, id) == (sm, false)
  {
  }

  // ---- persistence ----

  /** The saved `levels` object, keyed by skill name. */
  function Serialize(sm: SkillManager): (d: map<string, nat>)
    ensures forall id: SkillId :: id in sm.levels ==> Name(id) in d && d[Name(id)] == sm.levels[id]
    ensures forall k :: k in d ==> exists id: SkillId :: id in sm.levels && Name(id) == k
  {
    map id | id in sm.levels :: Name(id) := sm.levels[id]
  }

  /** A fresh manager overwritten by every known key of the saved object;
      unknown keys are ignored. */
  function Deserialize(data: Option<map<string, nat>>): (sm: SkillManager)
    ensures forall id: SkillId :: id in sm.levels
    ensures forall id: SkillId :: data.Some? && Name(id) in data.value ==> sm.levels[id] == data.value[Name(id)]
    ensures forall id: SkillId :: (data.None? || Name(id) !in data.value) ==> sm.levels[id] == 0
  {
    match data
    case None => NewSkills()
    case Some(d) => SkillManager(map id: SkillId | true :: if Name(id) in d then d[Name(id)] else 0)
  }

  lemma NameInjective(a: SkillId, b: SkillId)
    ensures Name(a) == Name(b) ==> a == b
  {
  }

  /** Saving and loading a manager with every skill present restores it. */
  lemma RoundTrip(sm: SkillManager)
    requires forall id: SkillId :: id in sm.levels
    ensures Deserialize(Some(Serialize(sm))) == sm
  {
    var r := Deserialize(Some(Serialize(sm)));
    forall id: SkillId
      ensures r.levels[id] == sm.levels[id]
    {
      assert Name(id) in Serialize(sm);
    }
    assert r.levels.Keys == sm.levels.Keys;
  }

  /** A key that names no skill has no effect on loading. */
  lemma UnknownKeysIgnored(d: map<string, nat>, k: string, v: nat)
    requires forall id: SkillId :: Name(id) != k
    ensures Deserialize(Some(d[k := v])) == Deserialize(Some(d))
  {
    var a := Deserialize(Some(d[k := v]));
    var b := Deserialize(Some(d));
    forall id: SkillId
      ensures a.levels[id] == b.levels[id]
    {
    }
    assert a.levels.Keys == b.levels.Keys;
  }
}

=== FILE: stage.dfy ===
/** `StageManager`: the wave and stage director. Each stage has five waves,
    the last a single boss; a wave is complete once its kill quota is met,
    and the director only moves on once the field is also clear. Timers are
    milliseconds of elapsed game time. */
module Stage {
  import opened Prelude
  import Enemies

  const WavesPerStage := 5
  const WaveTransitionMs := 1500
  const StageTransitionMs := 2000

  datatype StageManager = StageManager(
    stage: int, wave: int, enemiesPerWave: int,
    enemiesSpawned: int, enemiesKilled: int, totalEnemiesInWave: int,
    spawnTimer: real, spawnInterval: int,
    waveComplete: bool, waveTransition: bool, transitionTimer: real,
    bossWave: bool, stageComplete: bool, stageTransitionTimer: real)

  /** `5 + Math.floor(stage * 0.5)`: the per-wave base quota of a stage. */
  function QuotaFor(stage: int): int
  {
    5 + (stage as real * 0.5).Floor
  }

  /** The director's invariant. */
  predicate Valid(s: StageManager)
  {
    && s.stage >= 1
    && 1 <= s.wave <= WavesPerStage
    && s.enemiesPerWave == QuotaFor(s.stage)
    && 0 <= s.enemiesSpawned <= s.totalEnemiesInWave
    && s.totalEnemiesInWave >= 1
    && s.enemiesKilled >= 0
    && s.spawnInterval >= 600
  }

  function NewStageManager(): (s: StageManager)
    ensures s.stage == 1 && s.wave == 1 && !s.waveComplete && !s.waveTransition && !s.stageComplete
    ensures Valid(s)
  {
    StageManager(1, 1, 5, 0, 0, 5, 0.0, 2000, false, false, 0.0, false, false, 0.0)
  }

  /** Enemy stats scale 30% per stage and 5% per wave. */
  function StageMultiplier(s: StageManager): (m: real)
    ensures s.stage >= 1 && s.wave >= 1 ==> m >= 1.0
    ensures s.stage == 1 && s.wave == 1 ==> m == 1.0
  {
    1.0 + (s.stage - 1) as real * 0.3 + (s.wave - 1) as real * 0.05
  }

  /** Enemies never get weaker as the game progresses: a later wave of the
      same stage, or any wave of a later stage, scales stats at least as much. */
  lemma StageMultiplierFollowsProgress(s: StageManager, t: StageManager)
    requires 1 <= s.wave <= WavesPerStage && 1 <= t.wave <= WavesPerStage
    requires s.stage < t.stage || (s.stage == t.stage && s.wave <= t.wave)
    ensures StageMultiplier(s) <= StageMultiplier(t)
    ensures s.stage < t.stage ==> StageMultiplier(s) < StageMultiplier(t)
  {
  }

  /** Enemies never get weaker as play advances: an enemy of the same type
      spawned later in the game has at least the hp, damage and rewards of
      one spawned earlier. */
  lemma SpawnedEnemiesNeverWeaker(s: StageManager, t: StageManager, r1: real, r2: real, o1: real, o2: real,
                                  w: real, g: real)
    requires Valid(s) && Valid(t)
    requires s.stage < t.stage || (s.stage == t.stage && s.wave <= t.wave)
    requires SpawnEnemy(s, r1, o1, w, g).1.Some? && SpawnEnemy(t, r2, o2, w, g).1.Some?
    requires SpawnType(s, r1) == SpawnType(t, r2)
    ensures var e1, e2 := SpawnEnemy(s, r1, o1, w, g).1.value, SpawnEnemy(t, r2, o2, w, g).1.value;
            && e1.maxHp <= e2.maxHp && e1.damage <= e2.damage
            && e1.expReward <= e2.expReward && e1.goldReward <= e2.goldReward
  {
    StageMultiplierFollowsProgress(s, t);
    var ty := SpawnType(s, r1);
    Enemies.NewEnemyMonotoneInMult(w + 10.0 + o1 * 30.0, g, ty, StageMultiplier(s), StageMultiplier(t));
    var e2 := Enemies.NewEnemy(w + 10.0 + o2 * 30.0, g, ty, StageMultiplier(t));
    var e2' := Enemies.NewEnemy(w + 10.0 + o1 * 30.0, g, ty, StageMultiplier(t));
    assert e2.maxHp == e2'.maxHp && e2.damage == e2'.damage && e2.expReward == e2'.expReward && e2.goldReward == e2'.goldReward;
  }

  /** Recompute the current wave's quota and spawn cadence and restart its counters. */
  function CalculateWave(s: StageManager): (r: StageManager)
    ensures r.bossWave <==> s.wave == WavesPerStage
    ensures r.bossWave ==> r.totalEnemiesInWave == 1 && r.spawnInterval == 1000
    ensures !r.bossWave ==> r.totalEnemiesInWave == s.enemiesPerWave + (s.stage as real * 1.5).Floor
    ensures !r.bossWave ==> r.spawnInterval == MaxI(600, 2000 - s.stage * 50)
    ensures r.enemiesSpawned == 0 && r.enemiesKilled == 0 && !r.waveComplete
    ensures r.stage == s.stage && r.wave == s.wave && r.enemiesPerWave == s.enemiesPerWave
    ensures r.waveTransition == s.waveTransition && r.stageComplete == s.stageComplete
    ensures r.spawnTimer == s.spawnTimer
  {
    var boss := s.wave == WavesPerStage;
    s.(bossWave := boss,
       totalEnemiesInWave := if boss then 1 else s.enemiesPerWave + (s.stage as real * 1.5).Floor,
       spawnInterval := if boss then 1000 else MaxI(600, 2000 - s.stage * 50),
       enemiesSpawned := 0, enemiesKilled := 0, waveComplete := false)
  }

  /** The type of the next spawn, given the `Math.random()` roll in [0, 1). */
  function SpawnType(s: StageManager, roll: real): (t: Enemies.EnemyType)
    ensures t == Enemies.Boss <==> s.bossWave
    ensures t == Enemies.Fast ==> s.stage >= 2 && roll < 0.15
    ensures t == Enemies.Tank ==> s.stage >= 3 && roll < 0.25
  {
    if s.bossWave then Enemies.Boss
    else if roll < 0.15 && s.stage >= 2 then Enemies.Fast
    else if roll < 0.25 && s.stage >= 3 then Enemies.Tank
    else Enemies.Normal
  }

  /** Spawn one enemy at `canvasWidth + 10 + 30 * offsetRoll` unless the quota
      is met or a transition is running. */
  function SpawnEnemy(s: StageManager, typeRoll: real, offsetRoll: real, canvasWidth: real, groundY: real)
    : (r: (StageManager, Option<Enemies.Enemy>))
    ensures r.1.None? <==> (s.enemiesSpawned >= s.totalEnemiesInWave || s.waveTransition || s.stageComplete)
    ensures r.1.None? ==> r.0 == s
    ensures r.1.Some? ==> r.0 == s.(enemiesSpawned := s.enemiesSpawned + 1)
    ensures r.1.Some? ==> r.1.value.etype == SpawnType(s, typeRoll) && r.1.value.alive && !r.1.value.dying
    ensures r.1.Some? ==> r.1.value.x == canvasWidth + 10.0 + offsetRoll * 30.0 && r.1.value.y == groundY
    ensures r.1.Some? && Valid(s) ==> Enemies.Valid(r.1.value)
    ensures r.1.Some? ==>
              r.1.value == Enemies.NewEnemy(canvasWidth + 10.0 + offsetRoll * 30.0, groundY, SpawnType(s, typeRoll), StageMultiplier(s))
  {
    if s.enemiesSpawned >= s.totalEnemiesInWave then (s, None)
    else if s.waveTransition || s.stageComplete then (s, None)
    else
      var e := Enemies.NewEnemy(canvasWidth + 10.0 + offsetRoll * 30.0, groundY, SpawnType(s, typeRoll), StageMultiplier(s));
      (s.(enemiesSpawned := s.enemiesSpawned + 1), Some(e))
  }

  function OnEnemyKilled(s: StageManager): (r: StageManager)
    ensures r.enemiesKilled == s.enemiesKilled + 1
    ensures r.waveComplete <==> s.waveComplete || r.enemiesKilled >= s.totalEnemiesInWave
    ensures r == s.(enemiesKilled := r.enemiesKilled, waveComplete := r.waveComplete)
  {
    var k := s.enemiesKilled + 1;
    s.(enemiesKilled := k, waveComplete := if k >= s.totalEnemiesInWave then true else s.waveComplete)
  }

  /** One frame of the director; the flag is the source's `'spawn'` answer. */
  function Update(s: StageManager, dt: real, enemyCount: nat): (r: (StageManager, bool))
    // stage transition: count down, then open the next stage at wave 1
    ensures s.stageComplete ==> !r.1
    ensures s.stageComplete && s.stageTransitionTimer - dt > 0.0 ==>
              r.0 == s.(stageTransitionTimer := s.stageTransitionTimer - dt)
    ensures s.stageComplete && s.stageTransitionTimer - dt <= 0.0 ==>
              && r.0.stage == s.stage + 1 && r.0.wave == 1 && !r.0.stageComplete
              && r.0.enemiesPerWave == QuotaFor(s.stage + 1)
              && r.0.enemiesSpawned == 0 && r.0.enemiesKilled == 0 && !r.0.waveComplete
              && r.0 == CalculateWave(s.(stageTransitionTimer := s.stageTransitionTimer - dt, stage := s.stage + 1,
                                         wave := 1, stageComplete := false, enemiesPerWave := QuotaFor(s.stage + 1)))
    // wave transition: count down, then recompute the (already advanced) wave
    ensures !s.stageComplete && s.waveTransition ==> !r.1 && r.0.stage == s.stage && r.0.wave == s.wave
    ensures !s.stageComplete && s.waveTransition && s.transitionTimer - dt > 0.0 ==>
              r.0 == s.(transitionTimer := s.transitionTimer - dt)
    ensures !s.stageComplete && s.waveTransition && s.transitionTimer - dt <= 0.0 ==>
              !r.0.waveTransition && r.0 == CalculateWave(s.(waveTransition := false, transitionTimer := s.transitionTimer - dt))
    // a finished wave with a clear field starts a transition
    ensures !s.stageComplete && !s.waveTransition && s.waveComplete && enemyCount == 0 ==>
              && !r.1
              && (s.wave >= WavesPerStage ==>
                    r.0 == s.(stageComplete := true, stageTransitionTimer := StageTransitionMs as real))
              && (s.wave < WavesPerStage ==>
                    r.0 == s.(wave := s.wave + 1, waveTransition := true, transitionTimer := WaveTransitionMs as real))
    // a finished wave with enemies still standing waits, changing nothing
    ensures !s.stageComplete && !s.waveTransition && s.waveComplete && enemyCount > 0 ==> r == (s, false)
    // otherwise the spawn timer runs
    ensures !s.stageComplete && !s.waveTransition && !s.waveComplete ==>
              && (r.1 <==> s.spawnTimer - dt <= 0.0 && s.enemiesSpawned < s.totalEnemiesInWave)
              && (r.1 ==> r.0 == s.(spawnTimer := s.spawnInterval as real))
              && (!r.1 ==> r.0 == s.(spawnTimer := s.spawnTimer - dt))
  {
    if s.stageComplete then
      var t := s.stageTransitionTimer - dt;
      if t <= 0.0 then
        var st := s.stage + 1;
        (CalculateWave(s.(stageTransitionTimer := t, stage := st, wave := 1, stageComplete := false,
                          enemiesPerWave := QuotaFor(st))), false)
      else (s.(stageTransitionTimer := t), false)
    else if s.waveTransition then
      var t := s.transitionTimer - dt;
      if t <= 0.0 then (CalculateWave(s.(transitionTimer := t, waveTransition := false)), false)
      else (s.(transitionTimer := t), false)
    else if s.waveComplete && enemyCount == 0 then
      if s.wave >= WavesPerStage then
        (s.(stageComplete := true, stageTransitionTimer := StageTransitionMs as real), false)
      else
        (s.(wave := s.wave + 1, waveTransition := true, transitionTimer := WaveTransitionMs as real), false)
    else if !s.waveComplete then
      var t := s.spawnTimer - dt;
      if t <= 0.0 && s.enemiesSpawned < s.totalEnemiesInWave then (s.(spawnTimer := s.spawnInterval as real), true)
      else (s.(spawnTimer := t), false)
    else (s, false)
  }

  // ---- the invariant is kept by every operation ----

  lemma QuotaAtLeastFive(stage: int)
    requires stage >= 1
    ensures QuotaFor(stage) >= 5
  {
  }

  lemma CalculateWaveKeepsValid(s: StageManager)
    requires Valid(s)
    ensures Valid(CalculateWave(s))
  {
    QuotaAtLeastFive(s.stage);
  }

  lemma SpawnEnemyKeepsValid(s: StageManager, typeRoll: real, offsetRoll: real, w: real, g: real)
    requires Valid(s)
    ensures Valid(SpawnEnemy(s, typeRoll, offsetRoll, w, g).0)
  {
  }

  lemma OnEnemyKilledKeepsValid(s: StageManager)
    requires Valid(s)
    ensures Valid(OnEnemyKilled(s))
  {
  }

  lemma UpdateKeepsValid(s: StageManager, dt: real, enemyCount: nat)
    requires Valid(s)
    ensures Valid(Update(s, dt, enemyCount).0)
  {
    QuotaAtLeastFive(s.stage + 1);
    if s.stageComplete && s.stageTransitionTimer - dt <= 0.0 {
      var st := s.stage + 1;
      CalculateWaveKeepsValid(s.(stageTransitionTimer := s.stageTransitionTimer - dt, stage := st, wave := 1,
                                 stageComplete := false, enemiesPerWave := QuotaFor(st)));
    } else if !s.stageComplete && s.waveTransition && s.transitionTimer - dt <= 0.0 {
      CalculateWaveKeepsValid(s.(transitionTimer := s.transitionTimer - dt, waveTransition := false));
    }
  }

  /** The wave or stage number only moves when the wave's quota is met and the
      field is clear, or when a stage transition (itself started that way) ends. */
  lemma WaveAdvancesOnlyWhenCleared(s: StageManager, dt: real, enemyCount: nat)
    requires (Update(s, dt, enemyCount).0.wave, Update(s, dt, enemyCount).0.stageComplete) != (s.wave, s.stageComplete)
    ensures s.stageComplete || (s.waveComplete && enemyCount == 0)
  {
  }

  /** When `update` answers 'spawn', the following `spawnEnemy` produces an enemy. */
  lemma SpawnSignalIsHonoured(s: StageManager, dt: real, enemyCount: nat, typeRoll: real, offsetRoll: real, w: real, g: real)
    requires Update(s, dt, enemyCount).1
    ensures SpawnEnemy(Update(s, dt, enemyCount).0, typeRoll, offsetRoll, w, g).1.Some?
  {
  }

  /** Killing the quota marks the wave complete, but with one enemy still on
      the field the director neither advances nor spawns. */
  lemma QuotaWithEnemyLeftWaits(s: StageManager, dt: real)
    requires !s.stageComplete && !s.waveTransition
    requires s.enemiesKilled + 1 >= s.totalEnemiesInWave
    ensures OnEnemyKilled(s).waveComplete
    ensures Update(OnEnemyKilled(s), dt, 1) == (OnEnemyKilled(s), false)
  {
  }

  /** Fast enemies appear only from stage 2, tanks only from stage 3, and
      bosses exactly on boss waves. */
  lemma SpawnTypeGates(s: StageManager, roll: real)
    ensures s.stage < 2 && !s.bossWave ==> SpawnType(s, roll) == Enemies.Normal
    ensures s.stage < 3 ==> SpawnType(s, roll) != Enemies.Tank
  {
  }

  // ---- persistence ----

  datatype StageData = StageData(stage: int, wave: int)

  function Serialize(s: StageManager): (d: StageData)
    ensures d.stage == s.stage && d.wave == s.wave
  {
    StageData(s.stage, s.wave)
  }

  /** A fresh director placed at the saved stage and wave, with the wave's
      parameters recomputed. */
  function Deserialize(d: StageData): (s: StageManager)
    ensures s.stage == d.stage && s.wave == d.wave && s.enemiesPerWave == QuotaFor(d.stage)
    ensures s.bossWave <==> d.wave == WavesPerStage
    ensures s.enemiesSpawned == 0 && s.enemiesKilled == 0
    ensures !s.waveComplete && !s.waveTransition && !s.stageComplete
    ensures d.stage >= 1 && 1 <= d.wave <= WavesPerStage ==> Valid(s)
  {
    CalculateWave(NewStageManager().(stage := d.stage, wave := d.wave, enemiesPerWave := QuotaFor(d.stage)))
  }

  /** Loading a save keeps stage and wave and yields a valid director whose
      wave parameters match a fresh calculation for that wave. */
  lemma RoundTrip(s: StageManager)
    requires Valid(s)
    ensures Deserialize(Serialize(s)).stage == s.stage && Deserialize(Serialize(s)).wave == s.wave
    ensures Valid(Deserialize(Serialize(s)))
    ensures Deserialize(Serialize(s)).totalEnemiesInWave == CalculateWave(s).totalEnemiesInWave
    ensures Deserialize(Serialize(s)).spawnInterval == CalculateWave(s).spawnInterval
  {
    QuotaAtLeastFive(s.stage);
  }
}

=== FILE: weapon.dfy ===
/** The weapon table and `WeaponInstance`: a level-driven stat block plus a
    two-state magazine machine (ready / reloading). Instance stats that the
    source copies from the table at construction and never changes are read
    from the table through the instance's id. */
module Weapons {
  import opened Prelude

  datatype WeaponId = Pistol | Smg | AssaultRifle | Shotgun | Hk416 | Sniper

  /** One row of the weapon table (colour and display name omitted). */
  datatype WeaponDef = WeaponDef(
    damage: nat, fireRate: nat, magSize: nat, reloadTime: nat,
    bulletSpeed: nat, bulletSize: nat, spread: nat, bulletCount: nat,
    upgradeCost: nat, evolvesTo: seq<WeaponId>, evolveLevel: nat,
    evolveCost: nat, tier: nat)

  function Def(id: WeaponId): WeaponDef
  {
    match id
    case Pistol       => WeaponDef(10, 350, 12, 1200, 10, 3, 0, 1, 50, [Smg], 5, 500, 1)
    case Smg          => WeaponDef(8, 90, 30, 1500, 12, 2, 4, 1, 120, [AssaultRifle, Shotgun], 5, 2000, 2)
    case AssaultRifle => WeaponDef(18, 75, 30, 1800, 14, 3, 2, 1, 300, [Hk416], 5, 8000, 3)
    case Shotgun      => WeaponDef(12, 450, 8, 2000, 9, 3, 18, 6, 350, [Sniper], 5, 10000, 3)
    case Hk416        => WeaponDef(30, 60, 30, 1600, 16, 3, 1, 1, 800, [], 99, 0, 4)
    case Sniper       => WeaponDef(120, 900, 5, 2200, 22, 4, 0, 1, 900, [], 99, 0, 4)
  }

  /** Every row has a non-empty magazine, fires at least one bullet, and has
      base numbers large enough for the growth lemmas below. */
  lemma TableShape(id: WeaponId)
    ensures Def(id).magSize >= 5 && Def(id).bulletCount >= 1
    ensures Def(id).damage >= 8 && Def(id).fireRate >= 60 && Def(id).upgradeCost >= 50
  {
  }

  datatype WeaponInstance = WeaponInstance(
    id: WeaponId, level: Pos, currentAmmo: int, isReloading: bool, reloadTimer: real)
  {
    function BaseDamage(): nat { Def(id).damage }
    function BaseFireRate(): nat { Def(id).fireRate }
    function MagSize(): nat { Def(id).magSize }
    function ReloadTime(): nat { Def(id).reloadTime }
    function BulletCount(): nat { Def(id).bulletCount }
    function UpgradeCost(): nat { Def(id).upgradeCost }
  }

  /** The magazine invariant: ammo within the magazine, an empty magazine is
      always reloading, and an idle reload timer reads 0. */
  predicate Valid(w: WeaponInstance)
  {
    && 0 <= w.currentAmmo <= w.MagSize()
    && (w.currentAmmo == 0 ==> w.isReloading)
    && (!w.isReloading ==> w.reloadTimer == 0.0)
  }

  function NewWeapon(id: WeaponId): (w: WeaponInstance)
    ensures w.id == id && w.level == 1
    ensures Valid(w) && w.currentAmmo == w.MagSize() > 0 && !w.isReloading
  {
    WeaponInstance(id, 1, Def(id).magSize, false, 0.0)
  }

  /** Damage grows linearly by 15% of base per level above 1. */
  function Damage(w: WeaponInstance): (d: int)
    ensures d >= w.BaseDamage()
    ensures w.level == 1 ==> d == w.BaseDamage()
  {
    var f := 1.0 + (w.level - 1) as real * 0.15;
    assert w.BaseDamage() as real * f >= w.BaseDamage() as real;
    (w.BaseDamage() as real * f).Floor
  }

  /** Milliseconds between shots: 3% faster per level, floored at 50. */
  function FireRate(w: WeaponInstance): (r: real)
    ensures 50.0 <= r <= w.BaseFireRate() as real
    ensures w.level == 1 ==> r == w.BaseFireRate() as real
  {
    TableShape(w.id);
    PowInUnit(0.97, w.level - 1);
    assert w.BaseFireRate() as real * Pow(0.97, w.level - 1) <= w.BaseFireRate() as real * 1.0;
    MaxR(50.0, w.BaseFireRate() as real * Pow(0.97, w.level - 1))
  }

  /** Gold for the next upgrade: 1.4x per level above 1. */
  function NextUpgradeCost(w: WeaponInstance): (c: int)
    ensures c >= w.UpgradeCost()
    ensures w.level == 1 ==> c == w.UpgradeCost()
  {
    PowAtLeastOne(1.4, w.level - 1);
    assert w.UpgradeCost() as real * Pow(1.4, w.level - 1) >= w.UpgradeCost() as real * 1.0;
    (w.UpgradeCost() as real * Pow(1.4, w.level - 1)).Floor
  }

  function Upgrade(w: WeaponInstance): (r: WeaponInstance)
    ensures r.level == w.level + 1
    ensures r.id == w.id && r.currentAmmo == w.currentAmmo
    ensures r.isReloading == w.isReloading && r.reloadTimer == w.reloadTimer
  {
    w.(level := w.level + 1)
  }

  function StartReload(w: WeaponInstance): (r: WeaponInstance)
    ensures w.isReloading ==> r == w
    ensures !w.isReloading ==> r == w.(isReloading := true, reloadTimer := w.ReloadTime() as real)
  {
    if w.isReloading then w
    else w.(isReloading := true, reloadTimer := w.ReloadTime() as real)
  }

  function UpdateReload(w: WeaponInstance, dt: real): (r: WeaponInstance)
    ensures r.id == w.id && r.level == w.level
    ensures !w.isReloading ==> r == w
    ensures w.isReloading && w.reloadTimer - dt <= 0.0 ==>
              r.currentAmmo == w.MagSize() && !r.isReloading && r.reloadTimer == 0.0
    ensures w.isReloading && w.reloadTimer - dt > 0.0 ==>
              r.currentAmmo == w.currentAmmo && r.isReloading && r.reloadTimer == w.reloadTimer - dt
  {
    if !w.isReloading then w
    else
      var t := w.reloadTimer - dt;
      if t <= 0.0 then w.(currentAmmo := w.MagSize(), isReloading := false, reloadTimer := 0.0)
      else w.(reloadTimer := t)
  }

  /** Fires one round if possible; the flag says whether a shot left the barrel. */
  function Shoot(w: WeaponInstance): (r: (WeaponInstance, bool))
    ensures !r.1 <==> (w.isReloading || w.currentAmmo <= 0)
    ensures !r.1 ==> r.0 == w
    ensures r.1 ==> r.0.currentAmmo == w.currentAmmo - 1 && r.0.id == w.id && r.0.level == w.level
    ensures r.1 && w.currentAmmo > 1 ==> !r.0.isReloading && r.0.reloadTimer == w.reloadTimer
    ensures r.1 && w.currentAmmo <= 1 ==> r.0.isReloading && r.0.reloadTimer == w.ReloadTime() as real
  {
    if w.isReloading || w.currentAmmo <= 0 then (w, false)
    else
      var v := w.(currentAmmo := w.currentAmmo - 1);
      if v.currentAmmo <= 0 then (StartReload(v), true) else (v, true)
  }

  // ---- the magazine invariant is kept by every operation ----

  lemma ShootKeepsValid(w: WeaponInstance)
    requires Valid(w)
    ensures Valid(Shoot(w).0)
  {
  }

  lemma UpdateReloadKeepsValid(w: WeaponInstance, dt: real)
    requires Valid(w)
    ensures Valid(UpdateReload(w, dt))
  {
    TableShape(w.id);
  }

  lemma StartReloadKeepsValid(w: WeaponInstance)
    requires Valid(w)
    ensures Valid(StartReload(w))
  {
  }

  lemma UpgradeKeepsValid(w: WeaponInstance)
    requires Valid(w)
    ensures Valid(Upgrade(w))
  {
  }

  /** Starting a reload twice is the same as starting it once. */
  lemma StartReloadIdempotent(w: WeaponInstance)
    ensures StartReload(StartReload(w)) == StartReload(w)
  {
  }

  /** A shot that empties the magazine always leaves the weapon reloading. */
  lemma EmptyingShotStartsReload(w: WeaponInstance)
    requires Valid(w) && Shoot(w).1 && Shoot(w).0.currentAmmo == 0
    ensures Shoot(w).0.isReloading && Shoot(w).0.reloadTimer == w.ReloadTime() as real
  {
  }

  /** A full magazine allows exactly `magSize` shots before the weapon refuses. */
  lemma {:induction false} MagazineEmptiesAfterShots(w: WeaponInstance, n: nat)
    requires Valid(w) && !w.isReloading && n <= w.currentAmmo
    ensures ShootTimes(w, n).currentAmmo == w.currentAmmo - n
    ensures n < w.currentAmmo ==> Shoot(ShootTimes(w, n)).1
    ensures n == w.currentAmmo ==> !Shoot(ShootTimes(w, n)).1
    decreases n
  {
    if n > 0 {
      MagazineEmptiesAfterShots(w, n - 1);
      var v := ShootTimes(w, n - 1);
      assert !v.isReloading;
    }
  }

  /** `n` consecutive calls of `shoot` with no time passing in between. */
  function ShootTimes(w: WeaponInstance, n: nat): WeaponInstance
  {
    if n == 0 then w else Shoot(ShootTimes(w, n - 1)).0
  }

  /** Each upgrade adds at least one point of damage (15% of a base of at least 8). */
  lemma UpgradeRaisesDamage(w: WeaponInstance)
    ensures Damage(Upgrade(w)) > Damage(w)
  {
    TableShape(w.id);
    var b := w.BaseDamage() as real;
    var x := b * (1.0 + (w.level - 1) as real * 0.15);
    var y := b * (1.0 + (w.level + 1 - 1) as real * 0.15);
    assert y == x + b * 0.15;
    assert y >= x + 1.0;
    FloorMonotone(x + 1.0, y);
    FloorShift(x, 1);
  }

  /** Upgrading never makes the weapon fire more slowly. */
  lemma UpgradeNeverSlowsFire(w: WeaponInstance)
    ensures FireRate(Upgrade(w)) <= FireRate(w)
  {
    PowStepDown(0.97, w.level - 1);
    var b := w.BaseFireRate() as real;
    assert Pow(0.97, w.level) == 0.97 * Pow(0.97, w.level - 1);
    assert b * Pow(0.97, w.level) <= b * Pow(0.97, w.level - 1);
  }

  /** Every upgrade costs strictly more than the one before it. */
  lemma UpgradeRaisesCost(w: WeaponInstance)
    ensures NextUpgradeCost(Upgrade(w)) > NextUpgradeCost(w)
  {
    TableShape(w.id);
    var c := w.UpgradeCost() as real;
    var p := Pow(1.4, w.level - 1);
    PowAtLeastOne(1.4, w.level - 1);
    assert Pow(1.4, w.level) == 1.4 * p;
    var x := c * p;
    var y := c * (1.4 * p);
    assert y == x + 0.4 * c * p;
    assert 0.4 * c * p >= 0.4 * c * 1.0;
    assert y >= x + 1.0;
    FloorMonotone(x + 1.0, y);
    FloorShift(x, 1);
  }

  // ---- persistence ----

  datatype WeaponData = WeaponData(id: WeaponId, level: Pos)

  function Serialize(w: WeaponInstance): (d: WeaponData)
    ensures d.id == w.id && d.level == w.level
  {
    WeaponData(w.id, w.level)
  }

  function Deserialize(d: WeaponData): (w: WeaponInstance)
    ensures w.id == d.id && w.level == d.level
    ensures Valid(w) && w.currentAmmo == w.MagSize() && !w.isReloading
  {
    NewWeapon(d.id).(level := d.level)
  }

  /** Saving and loading keeps id and level and hands back a full, idle magazine. */
  lemma RoundTrip(w: WeaponInstance)
    ensures Deserialize(Serialize(w)) == w.(currentAmmo := w.MagSize(), isReloading := false, reloadTimer := 0.0)
  {
  }
}
